=== FILE: README.md ===
# atom-drops-backend service core, modelled in Dafny

This project models the service layer of the atom-drops e-commerce backend, which runs on a relational database. The database is one object, `Store.Db`, whose `data` holds one map per table, keyed by row id, plus the next free id of each table. Ids are handed out in increasing order, so "newest first" (`created_at desc`) is "largest id first". Every service operation that writes is a method with `modifies db`, and it states the whole new database in terms of the old one. Every read is a function. Each group of tables has its own rules:

- `UsersValid`: users.
- `CatalogValid`: unique slugs, existing parents and categories, stock never negative, at most one primary image per product.
- `CartsValid`: one cart per user, one item per product in a cart, every item pointing to an existing cart and product.
- `OrdersValid`: every order total is the sum of its lines, and every order line names an existing product.
- `PaymentsValid`: at most one payment per order, each for its order's total.
- `ReviewsValid`: one review per user and product, ratings from 1 to 5.
- `AddressesValid`: at most one default address per user.

Every operation takes these rules as its precondition and keeps them.

Modules, one per source file of the core:

- `Errors`: the `AppError` family and its status codes.
- `Text`: decimal rendering of numbers in messages and slugs.
- `Slugs`: `generateSlug` and `generateUniqueSlug`.
- `Schemas`: the request schemas of carts, reviews, addresses and categories.
- `Carts`, `Orders`, `Payments`, `Reviews`, `Addresses`, `Categories`, `Products`, `Admin`: the services.
- Support modules:
  - `Entities`: the row types.
  - `Store`: the database.
  - `Tables`: `findMany`/`count`/`sum` over a table, as walks over the ids below the next id.
  - `Paging`: `skip`/`take` and `totalPages`.
  - `Listing`: `orderBy` for the product listings.
  - `Inventory`: the order lines and the stock loop.

Behaviour worth noting:

- A second review of the same product by the same user is a BadRequest.
- Ordering from an empty cart is a BadRequest.
- A missing or repeated product in an order is reported as "Some products not found", without naming the id.
- An insufficient stock is a BadRequest.
- Only PENDING orders can be cancelled.
- Another user's order is refused as Unauthorized by `getOrderById` and `cancelOrder`.
- The delivery estimate is seven days after the moment of the update.
- The request schemas validate a body but the service receives the body as the client sent it, so the schemas' defaults never reach the services.

## Model

| member | source | states |
|---|---|---|
| Errors.NewAppError | atom-drops-backend/src/shared/errors/app-error.ts:3-12 | an application error keeps its message and carries the given status code, 500 when none is given |
| Errors.StatusCode | atom-drops-backend/src/shared/errors/app-error.ts:14-42 | every AppError, the base class and its five subclasses, carries a status code; a bare `Error` carries none |
| Errors.StatusCodeIdentifiesClass | atom-drops-backend/src/shared/errors/app-error.ts:14-42 | every client error has a 4xx code, and the code plus the message give back the same error |
| Errors.DefaultMessages | atom-drops-backend/src/shared/errors/app-error.ts:14-42 | each subclass built without a message has its default message and its status (404, 401, 403, 400, 409) |
| Text.NatToStringShape | atom-drops-backend/src/shared/utils/slug.util.ts:27 | the counter suffix is a non-empty run of digits, without a leading zero unless it is 0, and two or more digits exactly from 10 on |
| Text.NatToStringRoundTrip | atom-drops-backend/src/shared/utils/slug.util.ts:27 | reading the digits back gives the number |
| Text.NatToStringInjective | atom-drops-backend/src/shared/utils/slug.util.ts:27 | different counters give different suffixes |
| Text.IntToStringSign | atom-drops-backend/src/modules/cart/cart.service.ts:144-147 | a number in a message starts with `-` exactly when it is negative |
| Text.IntToStringInjective | atom-drops-backend/src/modules/categories/category.service.ts:153-157 | different numbers give different texts in a message |
| Slugs.ToLower | atom-drops-backend/src/shared/utils/slug.util.ts:5 | lower-casing keeps the length and maps each character on its own |
| Slugs.StripSpecial | atom-drops-backend/src/shared/utils/slug.util.ts:6 | what is left holds only word characters, spaces and hyphens of the input |
| Slugs.CollapseChars | atom-drops-backend/src/shared/utils/slug.util.ts:7-8 | collapsing runs leaves hyphens and characters of the input outside the run class |
| Slugs.GenerateSlug | atom-drops-backend/src/shared/utils/slug.util.ts:3-10 | a slug holds only lower-case letters, digits, `_` and `-`, and never two hyphens in a row |
| Slugs.StepsGiveSlugChars | atom-drops-backend/src/shared/utils/slug.util.ts:5-8 | after lower-casing, stripping and collapsing, only slug characters remain |
| Slugs.TrimIdentity | atom-drops-backend/src/shared/utils/slug.util.ts:9 | trimming leaves a string of slug characters as it is |
| Slugs.CollapseHyphensNoDouble | atom-drops-backend/src/shared/utils/slug.util.ts:8 | after collapsing hyphen runs no two hyphens are adjacent |
| Slugs.CollapseIdentity | atom-drops-backend/src/shared/utils/slug.util.ts:7-8 | collapsing a string with no run longer than one hyphen changes nothing |
| Slugs.ToLowerIdentity | atom-drops-backend/src/shared/utils/slug.util.ts:5 | lower-casing leaves a slug as it is |
| Slugs.StripIdentity | atom-drops-backend/src/shared/utils/slug.util.ts:6 | stripping leaves a slug as it is |
| Slugs.SlugIdempotent | atom-drops-backend/src/shared/utils/slug.util.ts:3-10 | making a slug of a slug gives the same slug |
| Slugs.LeadingSpaceGivesHyphen | atom-drops-backend/src/shared/utils/slug.util.ts:7-9 | a text that starts with whitespace gives a slug that starts with `-`, because the hyphen is made before trimming |
| Slugs.CandidateInjective | atom-drops-backend/src/shared/utils/slug.util.ts:27 | different counters give different candidates |
| Slugs.CandidatesBelowSize | atom-drops-backend/src/shared/utils/slug.util.ts:16-31 | the first n candidates are n different slugs |
| Slugs.GenerateUniqueSlug | atom-drops-backend/src/shared/utils/slug.util.ts:12-32 | the result is not taken, and it is the base slug if that is free, else the suffix with the smallest free counter |
| Slugs.FirstFreeUnique | atom-drops-backend/src/shared/utils/slug.util.ts:16-31 | only one slug is the first free one, so the search's result is determined by the input |
| Slugs.CandidatesGrow | atom-drops-backend/src/shared/utils/slug.util.ts:16-31 | while every candidate so far is taken, the taken set holds at least as many slugs as the counter, so the search ends |
| Schemas.ParseAddQuantity | atom-drops-backend/src/modules/cart/cart.schema.ts:6 | an added quantity is accepted exactly from 1 to 99, and defaults to 1 |
| Schemas.ZeroOnlyOnUpdate | atom-drops-backend/src/modules/cart/cart.schema.ts:6-15 | 0 is a valid quantity for an update and not for an addition; every valid added quantity is a valid update |
| Schemas.CreateFieldsUpdate | atom-drops-backend/src/modules/reviews/review.schema.ts:6-17 | a rating and comment accepted at creation are accepted by an update, with or without the rating |
| Schemas.ReviewQueryDefaults | atom-drops-backend/src/modules/reviews/review.schema.ts:26-27 | a given page and limit are kept; missing ones become "1" and "10" |
| Schemas.PhoneShape | atom-drops-backend/src/modules/addresses/address.schema.ts:6 | a phone is accepted exactly when it is "01" followed by nine digits |
| Schemas.AddressDefaults | atom-drops-backend/src/modules/addresses/address.schema.ts:12-13 | the country defaults to "Bangladesh" and the default flag to false; every given field is kept |
| Schemas.CreateFieldsPatch | atom-drops-backend/src/modules/addresses/address.schema.ts:17-32 | the fields of a valid new address make a valid update |
| Schemas.ParseSortBy | atom-drops-backend/src/modules/categories/category.schema.ts:29-32 | only the four known orderings are accepted; a missing one is "newest" |
| Schemas.CategoryQueryDefaults | atom-drops-backend/src/modules/categories/category.schema.ts:27-28 | a given page and limit are kept; missing ones become "1" and "20" |
| Tables.CountIsSelectSize | atom-drops-backend/src/modules/categories/category.service.ts:196-198 | `count` with a `where` equals the number of rows `findMany` with that `where` returns |
| Paging.TotalPages | atom-drops-backend/src/modules/products/product.service.ts:123 | the pages are enough for every row, and one page fewer would not be |
| Paging.Page | atom-drops-backend/src/modules/products/product.service.ts:45 | a page holds at most `limit` rows, the rows starting at `(page - 1) * limit` in order, and is short only at the end |
| Paging.PageOfIndex | atom-drops-backend/src/modules/products/product.service.ts:45 | row i is on page `i / limit + 1`, at position `i % limit` |
| Paging.OnlyOnItsPage | atom-drops-backend/src/modules/admin/admin.service.ts:74-90 | in a list without repeats, row `i` appears on no page other than page `i / limit + 1` |
| Paging.PageNonEmptyIff | atom-drops-backend/src/modules/products/product.service.ts:45-123 | a page has rows exactly when its number is at most `totalPages` |
| Listing.OrderBy | atom-drops-backend/src/modules/products/product.service.ts:75-78 | price_asc, price_desc and name choose their ordering; any other value is newest first |
| Listing.Ordered | atom-drops-backend/src/modules/products/product.service.ts:75-78 | sorting lists the same rows, each as often |
| Listing.InsertSorted | atom-drops-backend/src/modules/products/product.service.ts:75-78 | inserting into a sorted listing keeps it sorted |
| Listing.OrderedSorted | atom-drops-backend/src/modules/products/product.service.ts:75-78 | the ordered listing is sorted under the chosen ordering |
| Listing.Listed | atom-drops-backend/src/modules/products/product.service.ts:80-123 | a listing is the page of the kept rows in the chosen order, with their count and page count; every listed row passes the filter |
| Entities.Lines | atom-drops-backend/src/modules/orders/order.service.ts:231-240 | an order's (product, quantity) lines, one per item, in order |
| Inventory.Snapshot | atom-drops-backend/src/modules/orders/order.service.ts:49-53 | the order items are the requested lines, each with its product's price now |
| Inventory.Adjusted | atom-drops-backend/src/modules/orders/order.service.ts:79-88 | adjusting stock keeps every product row |
| Inventory.AdjustedStock | atom-drops-backend/src/modules/orders/order.service.ts:79-88 | each product's stock moves by the total quantity of its lines: down for an order, up for a cancellation, and nothing else changes |
| Inventory.AdjustedStep | atom-drops-backend/src/modules/orders/order.service.ts:79-88 | one more loop iteration adjusts exactly that line's product by its quantity |
| Inventory.RestockUndoesDecrement | atom-drops-backend/src/modules/orders/order.service.ts:231-240 | putting an order's lines back into stock restores every product exactly |
| Inventory.ProductIdsSize | atom-drops-backend/src/modules/orders/order.service.ts:24-31 | the distinct products are no more than the lines, and as many exactly when no product repeats |
| Inventory.FoundCountIff | atom-drops-backend/src/modules/orders/order.service.ts:24-31 | the products found number the lines exactly when every product exists and none repeats |
| Inventory.TakingAvailableStock | atom-drops-backend/src/modules/orders/order.service.ts:39-88 | when each distinct line is within stock, no stock goes negative after the decrement |
| Orders.FirstShort | atom-drops-backend/src/modules/orders/order.service.ts:34-44 | the reported line is the first one over its product's stock; with none, every line is within stock |
| Orders.AcceptedOrder | atom-drops-backend/src/modules/orders/order.service.ts:15-68 | an accepted order lists existing products, each once and within stock; it is PENDING, records exactly the lines at current prices, and its total is their sum |
| Orders.DuplicateRefused | atom-drops-backend/src/modules/orders/order.service.ts:24-31 | a product listed twice is refused with "Some products not found" |
| Orders.StockLoop | atom-drops-backend/src/modules/orders/order.service.ts:79-88 | the per-line update loop computes the stock adjustment over all lines |
| Orders.AdjustedKeepsRules | atom-drops-backend/src/modules/orders/order.service.ts:79-88 | decrementing within stock, or restocking, keeps every catalogue, cart and order rule |
| Orders.InsertKeepsRules | atom-drops-backend/src/modules/orders/order.service.ts:59-68 | storing an order whose total is the sum of its lines keeps the order and payment rules |
| Orders.StatusKeepsRules | atom-drops-backend/src/modules/orders/order.service.ts:225-228 | changing an order's status keeps the order and payment rules |
| Orders.PaymentStatusKeepsRules | atom-drops-backend/src/modules/orders/order.service.ts:243-248 | changing a payment's status keeps the payment rules |
| Orders.PriceLines | atom-drops-backend/src/modules/orders/order.service.ts:33-54 | the pricing loop reports the first line over stock, or gives the snapshot items and their total |
| Orders.ValidateOrder | atom-drops-backend/src/modules/orders/order.service.ts:15-54 | validation fails exactly with the first failed check; on success the lines are found, distinct and priced |
| Orders.CreateOrder | atom-drops-backend/src/modules/orders/order.service.ts:10-97 | an order fails exactly on the first failed check and writes nothing; on success it is stored under a new id and each quantity leaves its product's stock |
| Orders.AfterOrder | atom-drops-backend/src/modules/orders/order.service.ts:57-91 | the placed database has the new order, the next id advanced and the decremented stock |
| Orders.CreateOrderFromCart | atom-drops-backend/src/modules/orders/order.service.ts:100-130 | an empty or missing cart is refused; otherwise the order is placed for the cart's lines, and the cart's items are cleared only once it succeeds |
| Orders.PaymentOf | atom-drops-backend/src/modules/orders/order.service.ts:243-248 | the found payment names the order; with none, no payment names it |
| Orders.GetOrderById | atom-drops-backend/src/modules/orders/order.service.ts:161-194 | the order is returned exactly when it exists and is the caller's; missing is NotFound, foreign is Unauthorized |
| Orders.MyOrders | atom-drops-backend/src/modules/orders/order.service.ts:133-158 | exactly the caller's orders, newest first |
| Orders.CancelOnlyPending | atom-drops-backend/src/modules/orders/order.service.ts:203-220 | a cancellation passes the checks exactly for the owner's PENDING order |
| Orders.CancelOrder | atom-drops-backend/src/modules/orders/order.service.ts:197-252 | a cancellation fails exactly on the first failed check and writes nothing; otherwise the order is CANCELLED, its lines go back to stock and its payment becomes FAILED |
| Orders.AfterCancel | atom-drops-backend/src/modules/orders/order.service.ts:223-249 | the cancelled database changes only the order's status, the restocked products and the order's payment, if any |
| Orders.CancelPending | atom-drops-backend/src/modules/orders/order.service.ts:223-249 | the cancellation writes give the cancelled database and keep every rule |
| Orders.StatusUpdate | atom-drops-backend/src/modules/orders/order.service.ts:264-274 | a given status is set and a missing one leaves the status; the lines, total and address stay; a non-empty tracking number replaces the old one; the first SHIPPED sets the estimate to seven days after now, a missing status sets none, and an estimate is never replaced |
| Orders.EstimateNeverOverwritten | atom-drops-backend/src/modules/orders/order.service.ts:269-274 | once set, the delivery estimate survives any sequence of status updates |
| Orders.UpdateOrderStatus | atom-drops-backend/src/modules/orders/order.service.ts:255-287 | a missing order is NotFound; otherwise only that order changes, to its status update (the admin service's copy, admin.service.ts:121-155, is the same code) |
| Orders.OrderThenCancel | atom-drops-backend/src/modules/orders/order.service.ts:10-252 | placing an order and then cancelling it succeeds and leaves every product's stock as before |
| Payments.OnlyPaidRefused | atom-drops-backend/src/modules/payments/payment.service.ts:17-19 | for the owner's order, initiation passes exactly when the order is not PAID, so CANCELLED and DELIVERED orders pass |
| Payments.InitiatePayment | atom-drops-backend/src/modules/payments/payment.service.ts:10-53 | a failed check is returned; an order that already has a payment fails as a failed initiation; otherwise one PENDING payment is added for the order's total under the reference, and the result is the reference and its URL |
| Payments.PaymentByReference | atom-drops-backend/src/modules/payments/payment.service.ts:57-60 | the found payment has the reference; none is found exactly when no payment has it |
| Payments.AfterExecute | atom-drops-backend/src/modules/payments/payment.service.ts:69-80 | execution marks the payment SUCCESS and its order PAID, and changes nothing else |
| Payments.ExecutePayment | atom-drops-backend/src/modules/payments/payment.service.ts:55-83 | an unknown reference is refused; a successful payment is returned as it is with nothing written; any other payment, FAILED included, is executed |
| Payments.ExecuteKeepsRules | atom-drops-backend/src/modules/payments/payment.service.ts:69-80 | execution keeps the order and payment rules |
| Payments.ExecuteIdempotent | atom-drops-backend/src/modules/payments/payment.service.ts:63 | executing the same reference twice is the same as executing it once |
| Carts.CartOf | atom-drops-backend/src/modules/cart/cart.service.ts:70-72 | the found cart is the user's; with none, no cart is the user's |
| Carts.ItemFor | atom-drops-backend/src/modules/cart/cart.service.ts:81-88 | the found item is the cart's item for the product; with none, the cart holds no item for it |
| Carts.WithoutCartKeepsRules | atom-drops-backend/src/modules/cart/cart.service.ts:182-184 | deleting one cart's items keeps the cart rules |
| Carts.CartTotalIsOrderTotal | atom-drops-backend/src/modules/cart/cart.service.ts:45-47 | the cart's total is the total an order for its lines would get at current prices |
| Carts.TotalsSplit | atom-drops-backend/src/modules/cart/cart.service.ts:45-49 | the total and the item count add up over any split of the lines |
| Carts.TotalsCommute | atom-drops-backend/src/modules/cart/cart.service.ts:45-49 | the total and the item count do not depend on the order of the items |
| Carts.EntryOf | atom-drops-backend/src/modules/cart/cart.service.ts:70-88 | the entry found is an item of the user's cart for the product |
| Carts.HeldIsEntry | atom-drops-backend/src/modules/cart/cart.service.ts:81-104 | the units of a product the user's carts hold are exactly the quantity of the one entry, 0 without one |
| Carts.CartOfIsUsersCart | atom-drops-backend/src/modules/cart/cart.service.ts:70-72 | with one cart per user, the lookup finds a cart exactly when it is the user's |
| Carts.ItemForIsCartsItem | atom-drops-backend/src/modules/cart/cart.service.ts:81-88 | with one item per product in a cart, the lookup finds an item exactly when it is the cart's item for the product |
| Carts.SameEntry | atom-drops-backend/src/modules/cart/cart.service.ts:81-88 | two of the user's items for the same product are the same item |
| Carts.AcceptedWithinStock | atom-drops-backend/src/modules/cart/cart.service.ts:65-98 | an accepted addition leaves the entry within the product's stock |
| Carts.EnsureCart | atom-drops-backend/src/modules/cart/cart.service.ts:70-78 | the user's cart is found, or a new empty one is created, and nothing else changes |
| Carts.GetOrCreateCart | atom-drops-backend/src/modules/cart/cart.service.ts:5-52 | the user's cart, created empty when missing, with its lines, total and item count |
| Carts.AddToCart | atom-drops-backend/src/modules/cart/cart.service.ts:55-118 | an addition fails exactly on the first failed check and writes nothing; otherwise the user's entry holds its old quantity plus the added one, and only the cart tables change; the result is the existing entry, or a fresh id taken from the item counter, and the cart counter moves exactly when a cart is created |
| Carts.SetQuantity | atom-drops-backend/src/modules/cart/cart.service.ts:100-104 | only the item's quantity changes, and the rules hold |
| Carts.CreateItem | atom-drops-backend/src/modules/cart/cart.service.ts:105-115 | one item is added under the next id, and the rules hold |
| Carts.UpdateCartItem | atom-drops-backend/src/modules/cart/cart.service.ts:121-157 | a foreign or missing item is NotFound; quantity 0 deletes it without a stock check; any other quantity within stock replaces the old one, and above stock it is refused |
| Carts.RemoveFromCart | atom-drops-backend/src/modules/cart/cart.service.ts:160-172 | a foreign or missing item is NotFound; otherwise only that item is deleted |
| Carts.ClearCart | atom-drops-backend/src/modules/cart/cart.service.ts:175-187 | without a cart it is NotFound; otherwise exactly the cart's items are deleted and the cart stays |
| Carts.ClearedCart | atom-drops-backend/src/modules/cart/cart.service.ts:182-184 | after clearing, the cart has no lines and every other cart keeps its lines |
| Carts.AddTwice | atom-drops-backend/src/modules/cart/cart.service.ts:81-104 | adding a product twice leaves one entry holding both quantities on top of its old one |
| Reviews.AcceptedReview | atom-drops-backend/src/modules/reviews/review.service.ts:14-50 | a review is accepted exactly when the product exists, the user has not reviewed it, and a DELIVERED order of theirs holds it |
| Reviews.UndeliveredRefused | atom-drops-backend/src/modules/reviews/review.service.ts:36-50 | without a delivered order, a first review of an existing product is refused for lack of a purchase |
| Reviews.CreateReview | atom-drops-backend/src/modules/reviews/review.service.ts:8-71 | a review fails exactly on the first failed check and writes nothing; otherwise it is stored under a new id |
| Reviews.CountsSplit | atom-drops-backend/src/modules/reviews/review.service.ts:102-113 | with ratings from 1 to 5, the product's reviews are the sum of the five rating counts, and their rating sum is the weighted sum |
| Reviews.GroupSums | atom-drops-backend/src/modules/reviews/review.service.ts:102-113 | the groups' counts and weights add up to the counts they were made from |
| Reviews.StatsTotals | atom-drops-backend/src/modules/reviews/review.service.ts:101-113 | `totalReviews` counts every review of the product, whatever the filter, and the weighted sum is the sum of their ratings |
| Reviews.AverageRating | atom-drops-backend/src/modules/reviews/review.service.ts:111-114 | the average is the weighted sum over the count, and 0 without reviews |
| Reviews.AverageInRange | atom-drops-backend/src/modules/reviews/review.service.ts:111-114 | a reviewed product's average lies between 1 and 5 |
| Reviews.RatingDistribution | atom-drops-backend/src/modules/reviews/review.service.ts:117-126 | the distribution has keys 1 to 5 and every grouped rating, each with the count of its last group, 0 without one |
| Reviews.DistributionCounts | atom-drops-backend/src/modules/reviews/review.service.ts:117-126 | each rating's distribution entry is the number of the product's reviews with that rating |
| Reviews.RoundToTenth | atom-drops-backend/src/modules/reviews/review.service.ts:138 | the result, in tenths, is the average rounded half up: t/10 <= average + 1/20 < (t+1)/10 |
| Reviews.TenthsInRange | atom-drops-backend/src/modules/reviews/review.service.ts:138 | an average between 1 and 5 rounds to between 1.0 and 5.0 |
| Reviews.RoundedAverage | atom-drops-backend/src/modules/reviews/review.service.ts:110-138 | a product's reported average is its rating sum over its review count, rounded to tenths, within [1.0, 5.0]; 0 without reviews |
| Reviews.GetProductReviews | atom-drops-backend/src/modules/reviews/review.service.ts:73-142 | the page of the filtered reviews, newest first, with their count; stats over all of the product's reviews, whose average is rounded half up to tenths and lies in [1.0, 5.0] once there is a review, 0 without one, and whose distribution gives each rating its count |
| Reviews.UnfilteredTotal | atom-drops-backend/src/modules/reviews/review.service.ts:81-110 | without a filter, the listing's total is the stats' total |
| Reviews.Patched | atom-drops-backend/src/modules/reviews/review.service.ts:203-205 | the given fields replace the review's; product and author stay |
| Reviews.UpdateReview | atom-drops-backend/src/modules/reviews/review.service.ts:188-215 | only the author's review changes, to its patched form; anything else is refused with nothing written |
| Reviews.DeleteReview | atom-drops-backend/src/modules/reviews/review.service.ts:217-233 | only the author's review is removed; anything else is refused with nothing written |
| Reviews.OnlyAuthor | atom-drops-backend/src/modules/reviews/review.service.ts:197-226 | the checks pass exactly for an existing review by the caller |
| Addresses.NewAddress | atom-drops-backend/src/modules/addresses/address.service.ts:13-18 | the stored address is the caller's, with the given fields; a missing country is the database's default country, and a missing default flag is false |
| Addresses.ClearDefaults | atom-drops-backend/src/modules/addresses/address.service.ts:6-11 | the caller's other addresses lose the default flag; every other row stays |
| Addresses.Owned | atom-drops-backend/src/modules/addresses/address.service.ts:30-37 | an address is found exactly when it exists and is the caller's |
| Addresses.ClearKeepsOneDefault | atom-drops-backend/src/modules/addresses/address.service.ts:6-11 | clearing keeps at most one default per user, and leaves only the excepted address as the caller's possible default |
| Addresses.CreateAddress | atom-drops-backend/src/modules/addresses/address.service.ts:4-21 | the new address is added under a new id; a default one first clears the caller's other defaults |
| Addresses.CreatedDefaultIsOnly | atom-drops-backend/src/modules/addresses/address.service.ts:6-18 | a new default address is the caller's only default, and other users' rows are untouched |
| Addresses.GetAddressById | atom-drops-backend/src/modules/addresses/address.service.ts:30-37 | the address is returned exactly when it is the caller's, else NotFound |
| Addresses.UserAddresses | atom-drops-backend/src/modules/addresses/address.service.ts:23-28 | exactly the caller's addresses are listed |
| Addresses.DefaultListedFirst | atom-drops-backend/src/modules/addresses/address.service.ts:23-28 | the caller's default address, if any, is listed first |
| Addresses.Patched | atom-drops-backend/src/modules/addresses/address.service.ts:57-60 | the given fields replace the address's; the owner stays |
| Addresses.UpdateAddress | atom-drops-backend/src/modules/addresses/address.service.ts:39-61 | a foreign or missing address is NotFound; otherwise it is patched, after the caller's other defaults are cleared when it becomes the default |
| Addresses.DeleteAddress | atom-drops-backend/src/modules/addresses/address.service.ts:63-75 | a foreign or missing address is NotFound; otherwise only it is removed |
| Addresses.OthersUntouched | atom-drops-backend/src/modules/addresses/address.service.ts:4-75 | no address operation changes another user's addresses |
| Categories.CreateRejection | atom-drops-backend/src/modules/categories/category.service.ts:10-15 | a creation is refused exactly when a named parent is missing |
| Categories.CreateCategory | atom-drops-backend/src/modules/categories/category.service.ts:5-29 | a missing parent is NotFound with nothing written; otherwise one category is added with the first free slug for its name |
| Categories.NewCategory | atom-drops-backend/src/modules/categories/category.service.ts:7-21 | the new row has the given fields and the first free slug |
| Categories.WriteKeepsSlugsUnique | atom-drops-backend/src/modules/categories/category.service.ts:17-26 | writing a row with a new or its own slug keeps the slugs unique |
| Categories.WriteKeepsCatalog | atom-drops-backend/src/modules/categories/category.service.ts:17-26 | writing a row with such a slug and an existing parent keeps the catalogue rules |
| Categories.UpdateRejection | atom-drops-backend/src/modules/categories/category.service.ts:100-122 | an update passes exactly when the category exists, is not made its own parent, and a new parent exists |
| Categories.OnlySelfParentRefused | atom-drops-backend/src/modules/categories/category.service.ts:107-109 | with both categories present, a new parent is refused exactly when it is the category itself: any other, even one of its own children, is accepted |
| Categories.NewParent | atom-drops-backend/src/modules/categories/category.service.ts:124-131 | a left-out parent stays, null clears it, and a given one replaces it |
| Categories.UpdateCategory | atom-drops-backend/src/modules/categories/category.service.ts:99-132 | an update fails exactly on the first failed check with nothing written; otherwise the given fields are written, with a new free slug only when the name changes, and no other category changes |
| Categories.DeletableIff | atom-drops-backend/src/modules/categories/category.service.ts:145-157 | a category can be deleted exactly when it exists and no category and no product points to it |
| Categories.DeleteCategory | atom-drops-backend/src/modules/categories/category.service.ts:134-164 | a deletion fails exactly on the first failed check with nothing written; otherwise only the category is removed |
| Categories.GetCategoryProducts | atom-drops-backend/src/modules/categories/category.service.ts:166-210 | the page of the category's products in the chosen order, with their count and page count; every listed product is in the category |
| Products.CategoryRejection | atom-drops-backend/src/modules/products/product.service.ts:11-16 | a write is refused exactly when a named category is missing |
| Products.WriteKeepsSlugsUnique | atom-drops-backend/src/modules/products/product.service.ts:18-27 | writing a row with a new or its own slug keeps the product slugs unique |
| Products.WriteKeepsRules | atom-drops-backend/src/modules/products/product.service.ts:18-27 | writing a product with such a slug, an existing category and no negative stock keeps the catalogue, cart and order rules |
| Products.CreateProduct | atom-drops-backend/src/modules/products/product.service.ts:6-30 | a missing category is NotFound with nothing written; otherwise one product is added with the first free slug for its name |
| Products.NewProduct | atom-drops-backend/src/modules/products/product.service.ts:7-27 | the new row has the given fields and the first free slug |
| Products.UpdateRejection | atom-drops-backend/src/modules/products/product.service.ts:194-208 | an update passes exactly when the product exists and a named category exists |
| Products.UpdateProduct | atom-drops-backend/src/modules/products/product.service.ts:193-218 | an update fails exactly on the first failed check with nothing written; otherwise the given fields are written, with a new free slug only when the name changes, and no other product changes |
| Products.WithoutProduct | atom-drops-backend/src/modules/products/product.service.ts:243-247 | exactly the cart items of other products remain, unchanged |
| Products.DeleteKeepsRules | atom-drops-backend/src/modules/products/product.service.ts:243-249 | removing a product that no order names, with its cart items, keeps every rule |
| Products.DeleteProduct | atom-drops-backend/src/modules/products/product.service.ts:221-252 | a missing or ordered product is refused with nothing written; otherwise its cart items and the product go, and nothing else |
| Products.ClearPrimary | atom-drops-backend/src/modules/products/product.service.ts:268-273 | the product's images stop being primary; other images stay |
| Products.ClearKeepsOnePrimary | atom-drops-backend/src/modules/products/product.service.ts:268-273 | after clearing, the product has no primary image and each product still has at most one |
| Products.WriteImageKeepsOnePrimary | atom-drops-backend/src/modules/products/product.service.ts:275-280 | writing an image that is not primary, or is the only primary of its product, keeps at most one primary per product |
| Products.NewImage | atom-drops-backend/src/modules/products/product.service.ts:275-280 | the new image has the given fields; a left-out flag is false and a left-out position 0 |
| Products.AddProductImage | atom-drops-backend/src/modules/products/product.service.ts:255-281 | a missing product is NotFound; otherwise the image is added, after the product's primary flags are cleared when it is primary |
| Products.DeleteProductImage | atom-drops-backend/src/modules/products/product.service.ts:283-290 | a missing image is NotFound; otherwise only it goes |
| Products.SetPrimaryImage | atom-drops-backend/src/modules/products/product.service.ts:292-307 | a missing image is NotFound; otherwise the product's images are cleared and this one becomes primary |
| Products.PrimaryIsOnly | atom-drops-backend/src/modules/products/product.service.ts:296-306 | after setting, the image is its product's only primary image, and other products' images stay |
| Products.PageAndLimit | atom-drops-backend/src/modules/products/product.service.ts:43-44 | a missing or zero page is 1 and limit 20; both are at least 1 |
| Products.GetAllProducts | atom-drops-backend/src/modules/products/product.service.ts:33-126 | the page of the filtered products in the chosen order, with their count and page count |
| Products.ListedPassFilters | atom-drops-backend/src/modules/products/product.service.ts:57-72 | every listed product is in the category, within the price range, ends included, and in stock when asked |
| Products.FilteredRowsIff | atom-drops-backend/src/modules/products/product.service.ts:57-72 | the rows listed are exactly the products that pass every given filter |
| Admin.Top | atom-drops-backend/src/modules/admin/admin.service.ts:22-33 | `take` keeps the first rows of a listing, as many as asked or all |
| Admin.RevenueWithoutPaidOrders | atom-drops-backend/src/modules/admin/admin.service.ts:18-21 | with no PAID or DELIVERED order, the revenue is 0 |
| Admin.OrderTotalNonNegative | atom-drops-backend/src/modules/orders/order.service.ts:46-47 | an order's total is never negative |
| Admin.RevenueNonNegative | atom-drops-backend/src/modules/admin/admin.service.ts:18-21 | the revenue is never negative |
| Admin.RevenueAfterStatusUpdate | atom-drops-backend/src/modules/admin/admin.service.ts:18-21 | a status update moves the revenue by the order's total when the order enters or leaves PAID/DELIVERED, and otherwise leaves it |
| Admin.GroupByStatus | atom-drops-backend/src/modules/admin/admin.service.ts:45-48 | one group for each status some order has, with its number of orders |
| Admin.StatusCounts | atom-drops-backend/src/modules/admin/admin.service.ts:51-54 | the reduce maps each grouped status to its last group's count |
| Admin.OrdersByStatus | atom-drops-backend/src/modules/admin/admin.service.ts:45-54 | each status that some order has maps to its number of orders |
| Admin.StatusCountsAddUp | atom-drops-backend/src/modules/admin/admin.service.ts:45-54 | the per-status counts add up to the number of orders |
| Admin.CountAllIsSize | atom-drops-backend/src/modules/admin/admin.service.ts:15-17 | counting every row counts the whole table |
| Admin.LowStockExactly | atom-drops-backend/src/modules/admin/admin.service.ts:34-44 | the low-stock list holds exactly the products with at most 10 units, least stock first |
| Admin.DashboardLowStockLeast | atom-drops-backend/src/modules/admin/admin.service.ts:34-44 | a low-stock product left off the dashboard has at least as many units as each one shown, and ten are shown |
| Admin.RecentAreNewest | atom-drops-backend/src/modules/admin/admin.service.ts:22-33 | the recent orders are newest first, and any order left out is older than each one shown |
| Admin.SoldIds | atom-drops-backend/src/modules/admin/admin.service.ts:234-246 | the grouped products are exactly those with at least one order line |
| Admin.RankingSorted | atom-drops-backend/src/modules/admin/admin.service.ts:234-246 | the ranking lists each sold product once, most units first |
| Admin.TopSellingRanked | atom-drops-backend/src/modules/admin/admin.service.ts:234-278 | at most ten best sellers, most units first, each with its units, its line count and its row if it still exists |
| Admin.TopSellingLeast | atom-drops-backend/src/modules/admin/admin.service.ts:234-246 | a sold product left out sold no more than each best seller, and ten are shown |
| Admin.SoldWithinTotal | atom-drops-backend/src/modules/admin/admin.service.ts:257-283 | no product sold more units than all products together |
| Admin.NewestPage | atom-drops-backend/src/modules/admin/admin.service.ts:74-116 | the page of the kept rows, newest first, with their count and page count |
| Admin.GetAllOrders | atom-drops-backend/src/modules/admin/admin.service.ts:68-118 | the page of the orders with the given status, newest first, out of all of them; every listed order has it |
| Admin.GetAllUsers | atom-drops-backend/src/modules/admin/admin.service.ts:158-208 | the page of the users with the given role, newest first, out of all of them; every listed user has it |
| Admin.EveryRowOnItsPage | atom-drops-backend/src/modules/admin/admin.service.ts:74-90 | row `i` of the newest-first rows is at position `i % limit` of page `i / limit + 1`, and no other page holds it |
| Admin.GetDashboardStats | atom-drops-backend/src/modules/admin/admin.service.ts:5-65 | the table sizes, the revenue, the ten newest orders, the ten least-stocked low-stock products, and for each status present the number of orders in it, counts that add up to the orders |
| Admin.GetProductAnalytics | atom-drops-backend/src/modules/admin/admin.service.ts:231-285 | the ranked best sellers, most units first; every low-stock product, fewest in stock first; and the units sold over all lines, which no best seller exceeds |
| Admin.UpdateUserRole | atom-drops-backend/src/modules/admin/admin.service.ts:211-228 | a missing user is NotFound; otherwise only that user's role changes, to the given one, and a missing role leaves the user as it was |

## Left out

- HTTP routing, the controllers, the authentication and rate-limit middlewares, e-mail, and the password and token operations of the auth service are not modelled. The model starts at the service call, with the caller's user id as a parameter.
- Concurrency and transaction isolation: each service call is one atomic step on the database. Interleaved requests and stock races are not modelled.
- Row ids are increasing counters instead of UUIDs, and `created_at` order is id order.
- Nothing returns related rows (user, items, payment, images, product): listings return row ids and pagination blocks.
- Ties under an ordering, and reads of related rows without an `orderBy` (such as a cart's items, whose order decides which short line an order from the cart reports), come out in an order the model fixes: oldest row first. The database leaves it open. Names compare by character code, not by collation.
- The order in which `groupBy` returns its groups is fixed by the model (ascending rating, the status order of `Entities.OrderStatus`).
- Slugs.ToLower: lowers ASCII letters only; JavaScript's Unicode case mapping is not modelled.
- Orders.UpdateOrderStatus: the status, when given, is a known status; an unknown status string, which the database rejects and the controller turns into an error response, is not modelled.
- Orders.StatusUpdate: the current time is a parameter in milliseconds, and seven days is the fixed number of milliseconds. Time zones are not modelled.
- Payments.InitiatePayment: the random number for the reference is a parameter below one million. The simulated provider's URL is a fixed string.
- Reviews.AverageRating: the average is an exact fraction and its rounding to tenths is exact; the floating-point division and multiplication of the source, which can round a value just below a half differently, are not modelled.
- Products.GetAllProducts: the case-insensitive free-text search over name and description is not modelled.
- Admin.GetAllOrders: the free-text search over order id and user is not modelled. The status filter takes a known status; an unknown status string, which the database rejects, is not modelled.
- Admin.GetAllUsers: the free-text search over name and e-mail is not modelled. The role filter takes any string; the database's role enumeration, which rejects an unknown role, is not part of this model, so an unknown role gives an empty page instead of an error.
- Admin.UpdateUserRole: the role, when given, is any string; the database's role enumeration, which rejects an unknown role, is not part of this model, so an unknown role is stored instead of refused.
- Addresses.NewAddress: the database's column defaults are not part of this model. A missing country becomes the `defaultCountry` parameter, and a missing default flag is taken to be false, as the service's own `is_default` test reads it.
- Carts.AddToCart: the quantity is a number; a body without one, which the schema's default of 1 does not reach, is not modelled.
- Admin.GetProductAnalytics: the sold products considered are those with ids below the next product id; a null `_sum` (the `|| 0`) cannot arise for a product that has lines.
- The read-only lookups getReviewById, getUserReviews, getAllCategories, getCategoryById, getCategoryBySlug, getProductById and getProductBySlug are not modelled. They only read: getReviewById, getCategoryById and getCategoryBySlug fetch one row with its relations, or fail with NotFound, and the categories also count their products; getUserReviews lists the user's reviews, newest first; getAllCategories lists the root categories with their children and, optionally, five products each; getProductById and getProductBySlug also report the product's review count and its average rating rounded to tenths, or null without reviews.
- Products.NewImage: the database's column defaults are not part of this model. A missing primary flag is taken to be false and a missing position 0.
- Page and limit are at least 1 in every listing. The controllers' parsing of non-numeric or negative values is not modelled.
- Request validation for ids (UUID format) becomes natural-number ids. Keys that pass through validation beyond the schema's fields are not modelled.
- product.schema.ts, order.schema.ts and payment.schema.ts are not part of this model. Their operations take typed inputs.
- Products.DeleteProduct: the model removes neither the images nor the reviews of a deleted product. The database cascade rules that may remove them are not part of this model.
- Products.CreateProduct and Categories.CreateCategory: the source searches for a free slug before checking the category or parent. The search only reads, so the model checks first; the outcome is the same.

=== FILE: addresses.dfy ===
/**
 * The address book of address.service.ts: a user's shipping addresses, at most one of which is
 * the default. Every lookup is filtered by the caller, so another user's address is reported as
 * missing, and every bulk update of the default flag is filtered by the caller too.
 */
module Addresses {
  import opened Wrappers
  import opened Tables
  import opened Entities
  import opened Errors
  import opened Store
  import opened Schemas

  /**
   * The row `createAddress` stores: the client's fields and the caller as owner. The body reaches
   * the service as the client sent it, so a missing country is filled in by the database with its
   * column default, `defaultCountry`, and a missing default flag reads as false.
   */
  function NewAddress(userId: nat, input: AddressInput, defaultCountry: string): (a: Address)
    ensures a.userId == userId
    ensures a.isDefault <==> input.isDefault == Some(true)
    ensures input.country.Some? ==> a.country == input.country.value
    ensures input.country.None? ==> a.country == defaultCountry
    ensures a.fullName == input.fullName && a.phone == input.phone && a.addressLine1 == input.addressLine1 &&
            a.addressLine2 == input.addressLine2 && a.city == input.city && a.state == input.state &&
            a.postalCode == input.postalCode
  {
    Address(userId, input.fullName, input.phone, input.addressLine1, input.addressLine2, input.city, input.state,
            input.postalCode, input.country.GetOr(defaultCountry), input.isDefault == Some(true))
  }

  /**
   * `updateMany({ where: { user_id, id: { not: except } }, data: { is_default: false } })`: the
   * user's addresses other than `except` lose the default flag; every other row stays as it was.
   */
  function ClearDefaults(addresses: map<nat, Address>, userId: nat, except: Option<nat>): (r: map<nat, Address>)
    ensures r.Keys == addresses.Keys
    ensures forall k :: k in addresses && (addresses[k].userId != userId || except == Some(k)) ==> r[k] == addresses[k]
    ensures forall k :: k in addresses && addresses[k].userId == userId && except != Some(k) ==>
              r[k] == addresses[k].(isDefault := false)
  {
    map k | k in addresses :: if addresses[k].userId == userId && except != Some(k) then addresses[k].(isDefault := false) else addresses[k]
  }

  /** `findFirst({ where: { id, user_id } })`: the address only when it is the caller's. */
  function Owned(addresses: map<nat, Address>, userId: nat, addressId: nat): (r: Option<Address>)
    ensures r.Some? <==> addressId in addresses && addresses[addressId].userId == userId
    ensures r.Some? ==> r.value == addresses[addressId]
  {
    if addressId in addresses && addresses[addressId].userId == userId then Some(addresses[addressId]) else None
  }

  /** Clearing a user's flags keeps at most one default per user, and leaves `except` the user's only possible default. */
  lemma ClearKeepsOneDefault(addresses: map<nat, Address>, userId: nat, except: Option<nat>)
    requires AtMostOneDefault(addresses)
    ensures var r := ClearDefaults(addresses, userId, except);
            AtMostOneDefault(r) &&
            forall k :: k in r && r[k].userId == userId && r[k].isDefault ==> except == Some(k)
  {
    var r := ClearDefaults(addresses, userId, except);
    forall a, b | a in r && b in r && DefaultOf(r, a).Some? && DefaultOf(r, a) == DefaultOf(r, b)
      ensures a == b
    {
      assert DefaultOf(addresses, a) == DefaultOf(addresses, b);
    }
  }

  /**
   * `createAddress`: with `is_default` set, the caller's other addresses stop being the default
   * first; the new address always belongs to the caller. Without the flag no existing row changes.
   */
  method CreateAddress(db: Db, userId: nat, input: AddressInput, defaultCountry: string) returns (id: nat)
    requires db.data.AddressesValid()
    modifies db
    ensures db.data.AddressesValid()
    ensures var d := old(db.data);
            var before := if input.isDefault == Some(true) then ClearDefaults(d.addresses, userId, None) else d.addresses;
            id == d.nextAddressId && id !in d.addresses &&
            db.data == d.(addresses := before[id := NewAddress(userId, input, defaultCountry)], nextAddressId := id + 1)
  {
    var d := db.data;
    var before := d.addresses;
    if input.isDefault == Some(true) {
      ClearKeepsOneDefault(d.addresses, userId, None);
      before := ClearDefaults(d.addresses, userId, None);
    }
    id := d.nextAddressId;
    var created := NewAddress(userId, input, defaultCountry);
    var addresses := before[id := created];
    forall a, b | a in addresses && b in addresses && DefaultOf(addresses, a).Some? && DefaultOf(addresses, a) == DefaultOf(addresses, b)
      ensures a == b
    {
      if a != id && b != id {
        assert DefaultOf(before, a) == DefaultOf(before, b);
      }
    }
    db.data := d.(addresses := addresses, nextAddressId := id + 1);
  }

  /** After creating a default address, it is the caller's only default; other users' rows are untouched. */
  lemma CreatedDefaultIsOnly(addresses: map<nat, Address>, userId: nat, id: nat, input: AddressInput, defaultCountry: string)
    requires AtMostOneDefault(addresses) && id !in addresses && input.isDefault == Some(true)
    ensures var after := ClearDefaults(addresses, userId, None)[id := NewAddress(userId, input, defaultCountry)];
            after[id].isDefault &&
            (forall k :: k in after && after[k].userId == userId && after[k].isDefault ==> k == id) &&
            (forall k :: k in addresses && addresses[k].userId != userId ==> after[k] == addresses[k])
  {
    ClearKeepsOneDefault(addresses, userId, None);
  }

  /** `getAddressById`: the caller's address, or NotFound when it is missing or someone else's. */
  function GetAddressById(addresses: map<nat, Address>, userId: nat, addressId: nat): (r: Result<Address, AppError>)
    ensures r.Ok? <==> addressId in addresses && addresses[addressId].userId == userId
    ensures r.Ok? ==> r.value == addresses[addressId]
    ensures r.Err? ==> r.error == NotFound("Address not found")
  {
    var found := Owned(addresses, userId, addressId);
    if found.None? then Err(NotFound("Address not found")) else Ok(found.value)
  }

  /** The user's default address. */
  function DefaultOwnedBy(userId: nat): Address -> bool {
    (a: Address) => a.userId == userId && a.isDefault
  }

  /** The user's other addresses. */
  function OtherOwnedBy(userId: nat): Address -> bool {
    (a: Address) => a.userId == userId && !a.isDefault
  }

  /** `getUserAddresses`: the caller's addresses, the default first, then newest first. */
  function UserAddresses(addresses: map<nat, Address>, userId: nat, n: nat): (ids: seq<nat>)
    ensures forall k :: k in addresses && k < n && addresses[k].userId == userId <==> k in ids
  {
    var defaults := Select(addresses, DefaultOwnedBy(userId), n);
    var others := Select(addresses, OtherOwnedBy(userId), n);
    ReverseSameIds(defaults);
    ReverseSameIds(others);
    Reverse(defaults) + Reverse(others)
  }

  /** With at most one default per user, a user's listing starts with their default, if any, and holds it once. */
  lemma DefaultListedFirst(addresses: map<nat, Address>, userId: nat, n: nat, k: nat)
    requires AtMostOneDefault(addresses)
    requires k in addresses && k < n && addresses[k].userId == userId && addresses[k].isDefault
    ensures UserAddresses(addresses, userId, n)[0] == k
  {
    var defaults := Select(addresses, DefaultOwnedBy(userId), n);
    assert k in defaults;
    forall i | 0 <= i < |defaults|
      ensures defaults[i] == k
    {
      assert DefaultOf(addresses, defaults[i]) == DefaultOf(addresses, k);
    }
  }

  /** The given fields of an update replace the address's; the others stay. */
  function Patched(a: Address, p: AddressPatch): (r: Address)
    ensures r.userId == a.userId
    ensures r.isDefault == p.isDefault.GetOr(a.isDefault)
    ensures r.fullName == p.fullName.GetOr(a.fullName) && r.phone == p.phone.GetOr(a.phone) &&
            r.addressLine1 == p.addressLine1.GetOr(a.addressLine1) &&
            r.addressLine2 == (if p.addressLine2.Some? then p.addressLine2 else a.addressLine2) &&
            r.city == p.city.GetOr(a.city) && r.state == p.state.GetOr(a.state) &&
            r.postalCode == p.postalCode.GetOr(a.postalCode) && r.country == p.country.GetOr(a.country)
  {
    Address(a.userId, p.fullName.GetOr(a.fullName), p.phone.GetOr(a.phone), p.addressLine1.GetOr(a.addressLine1),
            if p.addressLine2.Some? then p.addressLine2 else a.addressLine2,
            p.city.GetOr(a.city), p.state.GetOr(a.state), p.postalCode.GetOr(a.postalCode),
            p.country.GetOr(a.country), p.isDefault.GetOr(a.isDefault))
  }

  /**
   * `updateAddress`: NotFound unless the address is the caller's; with `is_default` set, the
   * caller's other addresses stop being the default; then the given fields are written.
   */
  method UpdateAddress(db: Db, userId: nat, addressId: nat, patch: AddressPatch) returns (r: Result<Address, AppError>)
    requires db.data.AddressesValid()
    modifies db
    ensures db.data.AddressesValid()
    ensures var d := old(db.data);
            (r.Err? <==> Owned(d.addresses, userId, addressId).None?) &&
            (r.Err? ==> r.error == NotFound("Address not found") && db.data == d)
    ensures var d := old(db.data);
            var before := if patch.isDefault == Some(true) then ClearDefaults(d.addresses, userId, Some(addressId)) else d.addresses;
            r.Ok? ==> r.value == Patched(d.addresses[addressId], patch) &&
                      db.data == d.(addresses := before[addressId := r.value])
  {
    var d := db.data;
    var found := Owned(d.addresses, userId, addressId);
    if found.None? {
      return Err(NotFound("Address not found"));
    }
    var before := d.addresses;
    if patch.isDefault == Some(true) {
      ClearKeepsOneDefault(d.addresses, userId, Some(addressId));
      before := ClearDefaults(d.addresses, userId, Some(addressId));
    }
    var updated := Patched(d.addresses[addressId], patch);
    var addresses := before[addressId := updated];
    forall a, b | a in addresses && b in addresses && DefaultOf(addresses, a).Some? && DefaultOf(addresses, a) == DefaultOf(addresses, b)
      ensures a == b
    {
      if a != addressId && b != addressId {
        assert DefaultOf(before, a) == DefaultOf(before, b);
      } else if patch.isDefault != Some(true) {
        assert DefaultOf(before, a) == DefaultOf(before, b);
      }
    }
    db.data := d.(addresses := addresses);
    r := Ok(updated);
  }

  /** `deleteAddress`: NotFound unless the address is the caller's; otherwise only that row goes. */
  method DeleteAddress(db: Db, userId: nat, addressId: nat) returns (r: Result<string, AppError>)
    requires db.data.AddressesValid()
    modifies db
    ensures db.data.AddressesValid()
    ensures var d := old(db.data);
            (r.Err? <==> Owned(d.addresses, userId, addressId).None?) &&
            (r.Err? ==> r.error == NotFound("Address not found") && db.data == d)
    ensures var d := old(db.data);
            r.Ok? ==> r.value == "Address deleted successfully" && db.data == d.(addresses := d.addresses - {addressId})
  {
    var d := db.data;
    if Owned(d.addresses, userId, addressId).None? {
      return Err(NotFound("Address not found"));
    }
    var addresses := d.addresses - {addressId};
    forall a, b | a in addresses && b in addresses && DefaultOf(addresses, a).Some? && DefaultOf(addresses, a) == DefaultOf(addresses, b)
      ensures a == b
    {
      assert DefaultOf(d.addresses, a) == DefaultOf(d.addresses, b);
    }
    db.data := d.(addresses := addresses);
    r := Ok("Address deleted successfully");
  }

  /** No address operation changes another user's addresses. */
  lemma OthersUntouched(addresses: map<nat, Address>, userId: nat, addressId: nat, patch: AddressPatch, k: nat)
    requires k in addresses && addresses[k].userId != userId && Owned(addresses, userId, addressId).Some?
    ensures ClearDefaults(addresses, userId, None)[k] == addresses[k]
    ensures ClearDefaults(addresses, userId, Some(addressId))[addressId := Patched(addresses[addressId], patch)][k] == addresses[k]
    ensures (addresses - {addressId})[k] == addresses[k]
  {
  }
}

=== FILE: admin.dfy ===
/**
 * The administrator's service of admin.service.ts: the dashboard figures (row counts, revenue,
 * orders per status, the newest orders, the products low on stock), the product analytics (best
 * sellers, low stock, units sold), the order and user listings, and the role change. The order
 * status change of this service is the order service's `UpdateOrderStatus`, which it repeats.
 */
module Admin {
  import opened Wrappers
  import opened Tables
  import opened Entities
  import opened Errors
  import opened Store
  import opened Paging
  import opened Listing
  import opened Orders

  /** A product with at most this many units in stock is low on stock. */
  const LOW_STOCK_LIMIT := 10

  /** The dashboard's `take: 10` for recent orders and low stock, and the analytics' for best sellers. */
  const TOP_ROWS: nat := 10

  /** Every row: the filter of a query without a `where`. */
  function All<V>(): V -> bool {
    (v: V) => true
  }

  /** The first `count` ids of a listing: `take: count`. */
  function Top(ids: seq<nat>, count: nat): (r: seq<nat>)
    ensures |r| == if |ids| < count then |ids| else count
    ensures forall i :: 0 <= i < |r| ==> r[i] == ids[i]
  {
    if |ids| <= count then ids else ids[..count]
  }

  // Revenue

  /** An order's share of the revenue: its total when it is paid or delivered, otherwise nothing. */
  function PaidAmount(o: Order): int {
    if o.status == Paid || o.status == Delivered then o.total else 0
  }

  /** The `_sum` of `total_amount` over paid and delivered orders below `n`, `|| 0` when there are none. */
  function TotalRevenue(orders: map<nat, Order>, n: nat): int {
    Sum(orders, PaidAmount, n)
  }

  /** Without a paid or delivered order the revenue is 0. */
  lemma RevenueWithoutPaidOrders(orders: map<nat, Order>, n: nat)
    requires forall k :: k in orders ==> orders[k].status != Paid && orders[k].status != Delivered
    ensures TotalRevenue(orders, n) == 0
  {
    SumZero(orders, PaidAmount, n);
  }

  /** An order's total, a sum of price times quantity over its lines, is never negative. */
  lemma {:induction false} OrderTotalNonNegative(items: seq<OrderItem>)
    ensures OrderTotal(items) >= 0
  {
    if items != [] {
      OrderTotalNonNegative(items[..|items| - 1]);
    }
  }

  /** The revenue is never negative. */
  lemma RevenueNonNegative(d: Data)
    requires d.OrdersValid()
    ensures TotalRevenue(d.orders, d.nextOrderId) >= 0
  {
    forall k | k in d.orders
      ensures PaidAmount(d.orders[k]) >= 0
    {
      OrderTotalNonNegative(d.orders[k].items);
    }
    SumNonNegative(d.orders, PaidAmount, d.nextOrderId);
  }

  /**
   * A status update moves the revenue by the order's total when it enters or leaves the paid and
   * delivered statuses, and leaves it unchanged otherwise.
   */
  lemma RevenueAfterStatusUpdate(orders: map<nat, Order>, n: nat, orderId: nat, status: Option<OrderStatus>, trackingNumber: Option<string>, now: int)
    requires orderId in orders && orderId < n
    ensures var o := orders[orderId];
            var counted := status.GetOr(o.status) == Paid || status.GetOr(o.status) == Delivered;
            var wasCounted := o.status == Paid || o.status == Delivered;
            TotalRevenue(orders[orderId := StatusUpdate(o, status, trackingNumber, now)], n) ==
              TotalRevenue(orders, n) + (if counted && !wasCounted then o.total else if wasCounted && !counted then -o.total else 0)
  {
    SumUpdate(orders, PaidAmount, n, orderId, StatusUpdate(orders[orderId], status, trackingNumber, now));
  }

  // Orders per status

  /** The orders with status `status`. */
  function HasStatus(status: OrderStatus): Order -> bool {
    (o: Order) => o.status == status
  }

  /** Every status, in the order the model lists the groups of `groupBy` in. */
  const STATUSES: seq<OrderStatus> := [Pending, Paid, Processing, Shipped, Delivered, Cancelled]

  lemma StatusListed(status: OrderStatus)
    ensures status in STATUSES
  {
  }

  /**
   * `groupBy({ by: ["status"], _count: true })` over `statuses`: one group for each status some
   * order below `n` has, with the number of such orders.
   */
  function GroupByStatus(orders: map<nat, Order>, statuses: seq<OrderStatus>, n: nat): (groups: seq<(OrderStatus, nat)>)
    ensures forall g :: g in groups ==> g.0 in statuses && g.1 == |Select(orders, HasStatus(g.0), n)| && g.1 > 0
    ensures forall s :: s in statuses && |Select(orders, HasStatus(s), n)| > 0 ==> (s, |Select(orders, HasStatus(s), n)|) in groups
  {
    if statuses == [] then []
    else
      var front := statuses[..|statuses| - 1];
      var s := statuses[|statuses| - 1];
      var rest := GroupByStatus(orders, front, n);
      var c := |Select(orders, HasStatus(s), n)|;
      assert forall t :: t in statuses <==> t in front || t == s;
      if c > 0 then rest + [(s, c)] else rest
  }

  /** Group `i` is the last of the first `k` groups with status `status`. */
  ghost predicate LastOfStatus(groups: seq<(OrderStatus, nat)>, k: nat, i: nat, status: OrderStatus) {
    i < k <= |groups| && groups[i].0 == status && forall j :: i < j < k ==> groups[j].0 != status
  }

  /**
   * `ordersByStatus.reduce((acc, curr) => { acc[curr.status] = curr._count; ... }, {})`: a map
   * from each status that has a group to that group's count; a later group of a status wins.
   */
  method StatusCounts(groups: seq<(OrderStatus, nat)>) returns (acc: map<OrderStatus, nat>)
    ensures forall s :: s in acc <==> exists i :: 0 <= i < |groups| && groups[i].0 == s
    ensures forall s :: s in acc ==> exists i: nat :: LastOfStatus(groups, |groups|, i, s) && acc[s] == groups[i].1
  {
    acc := map[];
    for k := 0 to |groups|
      invariant forall s :: s in acc <==> exists i :: 0 <= i < k && groups[i].0 == s
      invariant forall s :: s in acc ==> exists i: nat :: LastOfStatus(groups, k, i, s) && acc[s] == groups[i].1
    {
      var previous := acc;
      acc := acc[groups[k].0 := groups[k].1];
      forall s | s in acc
        ensures exists i: nat :: LastOfStatus(groups, k + 1, i, s) && acc[s] == groups[i].1
      {
        if s == groups[k].0 {
          assert LastOfStatus(groups, k + 1, k, s);
        } else {
          var i: nat :| LastOfStatus(groups, k, i, s) && previous[s] == groups[i].1;
          assert LastOfStatus(groups, k + 1, i, s);
        }
      }
    }
  }

  /** The dashboard's orders per status: each status some order has, with its number of orders. */
  method OrdersByStatus(orders: map<nat, Order>, n: nat) returns (counts: map<OrderStatus, nat>)
    ensures forall s :: s in counts <==> |Select(orders, HasStatus(s), n)| > 0
    ensures forall s :: s in counts ==> counts[s] == |Select(orders, HasStatus(s), n)|
  {
    var groups := GroupByStatus(orders, STATUSES, n);
    counts := StatusCounts(groups);
    forall s | |Select(orders, HasStatus(s), n)| > 0
      ensures s in counts
    {
      StatusListed(s);
    }
    forall s | s in counts
      ensures counts[s] == |Select(orders, HasStatus(s), n)|
    {
      var i: nat :| LastOfStatus(groups, |groups|, i, s) && counts[s] == groups[i].1;
      assert groups[i] in groups;
    }
  }

  /** The total of a status-count map: its counts added up over every status. */
  function CountsTotal(counts: map<OrderStatus, nat>): nat {
    CountOf(counts, Pending) + CountOf(counts, Paid) + CountOf(counts, Processing) +
    CountOf(counts, Shipped) + CountOf(counts, Delivered) + CountOf(counts, Cancelled)
  }

  function CountOf(counts: map<OrderStatus, nat>, status: OrderStatus): nat {
    if status in counts then counts[status] else 0
  }

  /** Every order has exactly one status: the per-status counts add up to the count of all orders. */
  lemma {:induction false} StatusCountsAddUp(orders: map<nat, Order>, n: nat)
    ensures Count(orders, HasStatus(Pending), n) + Count(orders, HasStatus(Paid), n) +
            Count(orders, HasStatus(Processing), n) + Count(orders, HasStatus(Shipped), n) +
            Count(orders, HasStatus(Delivered), n) + Count(orders, HasStatus(Cancelled), n) ==
            Count(orders, All(), n)
  {
    if n > 0 {
      StatusCountsAddUp(orders, n - 1);
    }
  }

  /** The ids of `m` below `n`. */
  ghost function KeysUpTo<V>(m: map<nat, V>, n: nat): set<nat> {
    set k | k in m && k < n
  }

  /** Counting every row below `n` counts the ids below `n`. */
  lemma {:induction false} CountAllIsKeys<V>(m: map<nat, V>, n: nat)
    ensures Count(m, All(), n) == |KeysUpTo(m, n)|
  {
    if n == 0 {
      assert KeysUpTo(m, n) == {};
    } else {
      CountAllIsKeys(m, n - 1);
      var last: nat := n - 1;
      if last in m {
        assert KeysUpTo(m, n) == KeysUpTo(m, last) + {last};
      } else {
        assert KeysUpTo(m, n) == KeysUpTo(m, last);
      }
    }
  }

  /** With every id below `n`, counting every row below `n` counts the whole table. */
  lemma CountAllIsSize<V>(m: map<nat, V>, n: nat)
    requires KeysBelow(m, n)
    ensures Count(m, All(), n) == |m|
  {
    CountAllIsKeys(m, n);
    assert KeysUpTo(m, n) == m.Keys;
  }

  // Low stock

  /** `where: { stock: { lte: 10 } }`. */
  function IsLowStock(p: Product): bool {
    p.stock <= LOW_STOCK_LIMIT
  }

  /** `findMany({ where: { stock: { lte: 10 } }, orderBy: { stock: "asc" } })`: the low-stock products, least stock first. */
  function LowStock(products: map<nat, Product>, n: nat): seq<nat> {
    Ordered(products, Select(products, IsLowStock, n), StockAscending)
  }

  /** The low-stock list holds exactly the products below `n` with at most 10 units, least stock first. */
  lemma LowStockExactly(products: map<nat, Product>, n: nat)
    ensures forall k :: k in LowStock(products, n) <==> k in products && k < n && products[k].stock <= LOW_STOCK_LIMIT
    ensures Sorted(products, StockAscending, LowStock(products, n))
  {
    var rows := Select(products, IsLowStock, n);
    OrderedSorted(products, rows, StockAscending);
    forall k
      ensures k in LowStock(products, n) <==> k in rows
    {
      assert k in LowStock(products, n) <==> k in multiset(LowStock(products, n));
    }
  }

  /**
   * The dashboard's ten low-stock products are the ones with the least stock: a low-stock product
   * left out has at least as many units as every one shown, and ten are shown.
   */
  lemma DashboardLowStockLeast(products: map<nat, Product>, n: nat, k: nat)
    requires k in LowStock(products, n) && k !in Top(LowStock(products, n), TOP_ROWS)
    ensures |Top(LowStock(products, n), TOP_ROWS)| == TOP_ROWS
    ensures forall i :: 0 <= i < TOP_ROWS ==> StockOf(products, Top(LowStock(products, n), TOP_ROWS)[i]) <= StockOf(products, k)
  {
    var all := LowStock(products, n);
    var top := Top(all, TOP_ROWS);
    LowStockExactly(products, n);
    var j :| 0 <= j < |all| && all[j] == k;
    forall i | 0 <= i < TOP_ROWS
      ensures StockOf(products, top[i]) <= StockOf(products, k)
    {
      assert top[i] == all[i] && Before(products, StockAscending, all[i], all[j]);
    }
  }

  // Recent orders

  /** The dashboard's `findMany({ take: 10, orderBy: { created_at: "desc" } })`: the newest orders. */
  function RecentOrders(orders: map<nat, Order>, n: nat): seq<nat> {
    Top(Reverse(Select(orders, All(), n)), TOP_ROWS)
  }

  /** The recent orders are the newest: newest first, and any order left out is older than each one shown. */
  lemma RecentAreNewest(orders: map<nat, Order>, n: nat)
    ensures forall i :: 0 <= i < |RecentOrders(orders, n)| ==> RecentOrders(orders, n)[i] in orders
    ensures forall i, j :: 0 <= i < j < |RecentOrders(orders, n)| ==> RecentOrders(orders, n)[i] > RecentOrders(orders, n)[j]
    ensures forall k :: k in orders && k < n && k !in RecentOrders(orders, n) ==>
              |RecentOrders(orders, n)| == TOP_ROWS && forall i :: 0 <= i < TOP_ROWS ==> RecentOrders(orders, n)[i] > k
  {
    var newest := Reverse(Select(orders, All(), n));
    ReverseDescending(Select(orders, All(), n));
    forall k | k in orders && k < n && k !in RecentOrders(orders, n)
      ensures |RecentOrders(orders, n)| == TOP_ROWS && forall i :: 0 <= i < TOP_ROWS ==> RecentOrders(orders, n)[i] > k
    {
      assert All<Order>()(orders[k]);
      LeftOutComesLater(newest, TOP_ROWS, k);
    }
  }

  /** An id of a listing left out of its first `count` comes after them all, and `count` are taken. */
  lemma LeftOutComesLater(ids: seq<nat>, count: nat, k: nat)
    requires k in ids && k !in Top(ids, count)
    ensures |Top(ids, count)| == count && exists j :: count <= j < |ids| && ids[j] == k
  {
    var j :| 0 <= j < |ids| && ids[j] == k;
    if j < |Top(ids, count)| {
      assert Top(ids, count)[j] == k;
    }
  }

  // Best sellers

  /** The units of product `productId` on a list of order lines. */
  function UnitsOf(items: seq<OrderItem>, productId: nat): nat {
    if items == [] then 0
    else
      var last := items[|items| - 1];
      UnitsOf(items[..|items| - 1], productId) + (if last.productId == productId then last.quantity else 0)
  }

  /** The number of lines for product `productId` on a list of order lines. */
  function LinesOf(items: seq<OrderItem>, productId: nat): nat {
    if items == [] then 0
    else LinesOf(items[..|items| - 1], productId) + (if items[|items| - 1].productId == productId then 1 else 0)
  }

  /** All units on a list of order lines. */
  function AllUnits(items: seq<OrderItem>): nat {
    if items == [] then 0 else AllUnits(items[..|items| - 1]) + items[|items| - 1].quantity
  }

  function UnitsFor(productId: nat): Order -> int {
    (o: Order) => UnitsOf(o.items, productId)
  }

  function LinesFor(productId: nat): Order -> int {
    (o: Order) => LinesOf(o.items, productId)
  }

  function AllUnitsOf(o: Order): int {
    AllUnits(o.items)
  }

  /** A group's `_sum.quantity`: the units of `productId` over every order line. */
  function Sold(orders: map<nat, Order>, productId: nat, n: nat): int {
    Sum(orders, UnitsFor(productId), n)
  }

  /** A group's `_count`: the number of order lines for `productId`. */
  function LineCount(orders: map<nat, Order>, productId: nat, n: nat): int {
    Sum(orders, LinesFor(productId), n)
  }

  /** `orderItem.aggregate({ _sum: { quantity } })`, `|| 0` when there is no line: every unit ever ordered. */
  function TotalItemsSold(orders: map<nat, Order>, n: nat): int {
    Sum(orders, AllUnitsOf, n)
  }

  /** The products of the `groupBy({ by: ["product_id"] })`: the ids below `m` with at least one order line. */
  function SoldIds(orders: map<nat, Order>, n: nat, m: nat): (ids: seq<nat>)
    ensures forall k: nat :: k in ids <==> k < m && LineCount(orders, k, n) > 0
  {
    if m == 0 then []
    else
      var rest := SoldIds(orders, n, m - 1);
      if LineCount(orders, m - 1, n) > 0 then rest + [m - 1] else rest
  }

  /** The sold products, most units first: `orderBy: { _sum: { quantity: "desc" } }`. */
  function Ranking(orders: map<nat, Order>, products: map<nat, Product>, n: nat, m: nat): seq<nat> {
    var ids := SoldIds(orders, n, m);
    Ordered(products, ids, KeyDescending(map k | k in ids :: Sold(orders, k, n)))
  }

  /** One best seller: the product, if it still exists, its units sold and its number of order lines. */
  datatype TopSeller = TopSeller(productId: nat, product: Option<Product>, totalSold: int, orderCount: int)

  function Seller(orders: map<nat, Order>, products: map<nat, Product>, n: nat, k: nat): TopSeller {
    TopSeller(k, if k in products then Some(products[k]) else None, Sold(orders, k, n), LineCount(orders, k, n))
  }

  /** `topSelling`: the first ten of the ranking, each joined with its product by `products.find`. */
  function TopSelling(orders: map<nat, Order>, products: map<nat, Product>, n: nat, m: nat): seq<TopSeller> {
    var top := Top(Ranking(orders, products, n, m), TOP_ROWS);
    seq(|top|, i requires 0 <= i < |top| => Seller(orders, products, n, top[i]))
  }

  /** The ranking lists each sold product, most units first. */
  lemma RankingSorted(orders: map<nat, Order>, products: map<nat, Product>, n: nat, m: nat)
    ensures forall k: nat :: k in Ranking(orders, products, n, m) <==> k < m && LineCount(orders, k, n) > 0
    ensures forall i, j :: 0 <= i < j < |Ranking(orders, products, n, m)| ==>
              Sold(orders, Ranking(orders, products, n, m)[i], n) >= Sold(orders, Ranking(orders, products, n, m)[j], n)
  {
    var ids := SoldIds(orders, n, m);
    var key := map k | k in ids :: Sold(orders, k, n);
    var ranked := Ranking(orders, products, n, m);
    OrderedSorted(products, ids, KeyDescending(key));
    forall k
      ensures k in ranked <==> k in ids
    {
      assert k in ranked <==> k in multiset(ranked);
    }
    forall i, j | 0 <= i < j < |ranked|
      ensures Sold(orders, ranked[i], n) >= Sold(orders, ranked[j], n)
    {
      assert Before(products, KeyDescending(key), ranked[i], ranked[j]);
    }
  }

  /**
   * The best sellers: at most ten, most units first, each a sold product with its units sold, its
   * number of order lines and its row, if it still exists.
   */
  lemma TopSellingRanked(orders: map<nat, Order>, products: map<nat, Product>, n: nat, m: nat)
    ensures var r := TopSelling(orders, products, n, m);
            |r| <= TOP_ROWS &&
            (forall i :: 0 <= i < |r| ==>
               r[i].productId < m && r[i].orderCount == LineCount(orders, r[i].productId, n) > 0 &&
               r[i].totalSold == Sold(orders, r[i].productId, n) &&
               r[i].product == (if r[i].productId in products then Some(products[r[i].productId]) else None)) &&
            (forall i, j :: 0 <= i < j < |r| ==> r[i].totalSold >= r[j].totalSold)
  {
    var ranked := Ranking(orders, products, n, m);
    var r := TopSelling(orders, products, n, m);
    RankingSorted(orders, products, n, m);
    forall i | 0 <= i < |r|
      ensures r[i].productId == ranked[i] && r[i].productId in ranked
    {
    }
  }

  /** A sold product left out of the best sellers sold no more units than each one shown, and ten are shown. */
  lemma TopSellingLeast(orders: map<nat, Order>, products: map<nat, Product>, n: nat, m: nat, k: nat)
    requires k < m && LineCount(orders, k, n) > 0
    requires forall i :: 0 <= i < |TopSelling(orders, products, n, m)| ==> TopSelling(orders, products, n, m)[i].productId != k
    ensures var r := TopSelling(orders, products, n, m);
            |r| == TOP_ROWS && forall i :: 0 <= i < |r| ==> r[i].totalSold >= Sold(orders, k, n)
  {
    var ranked := Ranking(orders, products, n, m);
    var r := TopSelling(orders, products, n, m);
    RankingSorted(orders, products, n, m);
    var j :| 0 <= j < |ranked| && ranked[j] == k;
    forall i | 0 <= i < |r|
      ensures r[i].productId == ranked[i]
    {
    }
  }

  /** Units of one product never exceed all units, line by line and so over every order. */
  lemma {:induction false} UnitsWithinAll(items: seq<OrderItem>, productId: nat)
    ensures UnitsOf(items, productId) <= AllUnits(items)
  {
    if items != [] {
      UnitsWithinAll(items[..|items| - 1], productId);
    }
  }

  /** No product has sold more units than every product together. */
  lemma SoldWithinTotal(orders: map<nat, Order>, productId: nat, n: nat)
    ensures Sold(orders, productId, n) <= TotalItemsSold(orders, n)
  {
    forall k | k in orders
      ensures UnitsFor(productId)(orders[k]) <= AllUnitsOf(orders[k])
    {
      UnitsWithinAll(orders[k].items, productId);
    }
    SumLe(orders, UnitsFor(productId), AllUnitsOf, n);
  }

  // Listings

  /** `if (status) where.status = status`. */
  function StatusFilter(status: Option<OrderStatus>): Order -> bool {
    (o: Order) => status.None? || o.status == status.value
  }

  /** `if (role) where.role = role`: an empty role is no filter. */
  function RoleFilter(role: Option<string>): User -> bool {
    (u: User) => role.None? || role.value == "" || u.role == role.value
  }

  /** A page of the rows of `m` below `n` that pass `keep`, newest first. */
  function NewestPage<V>(m: map<nat, V>, keep: V -> bool, page: nat, limit: nat, n: nat): (r: IdPage)
    requires page >= 1 && limit >= 1
    ensures var rows := Select(m, keep, n);
            r.total == |rows| && r.totalPages == TotalPages(|rows|, limit) && r.page == page && r.limit == limit &&
            r.ids == Page(Reverse(rows), page, limit)
    ensures forall i :: 0 <= i < |r.ids| ==> r.ids[i] in m && keep(m[r.ids[i]])
    ensures forall i, j :: 0 <= i < j < |r.ids| ==> r.ids[i] > r.ids[j]
  {
    var rows := Select(m, keep, n);
    var newest := Reverse(rows);
    var ids := Page(newest, page, limit);
    assert forall i :: 0 <= i < |ids| ==> ids[i] == newest[Skip(page, limit) + i];
    IdPage(ids, page, limit, |rows|, TotalPages(|rows|, limit))
  }

  /** `getAllOrders`: a page of the orders with the given status, newest first, and the pagination block. */
  function GetAllOrders(orders: map<nat, Order>, page: nat, limit: nat, status: Option<OrderStatus>, n: nat): (r: IdPage)
    requires page >= 1 && limit >= 1
    ensures r.total == |Select(orders, StatusFilter(status), n)| && r.totalPages == TotalPages(r.total, limit)
    ensures r.ids == Page(Reverse(Select(orders, StatusFilter(status), n)), page, limit) && r.page == page && r.limit == limit
    ensures forall i :: 0 <= i < |r.ids| ==> r.ids[i] in orders && (status.Some? ==> orders[r.ids[i]].status == status.value)
    ensures forall i, j :: 0 <= i < j < |r.ids| ==> r.ids[i] > r.ids[j]
  {
    var r := NewestPage(orders, StatusFilter(status), page, limit, n);
    assert forall i :: 0 <= i < |r.ids| ==> StatusFilter(status)(orders[r.ids[i]]);
    r
  }

  /** `getAllUsers`: a page of the users with the given role, newest first, and the pagination block. */
  function GetAllUsers(users: map<nat, User>, page: nat, limit: nat, role: Option<string>, n: nat): (r: IdPage)
    requires page >= 1 && limit >= 1
    ensures r.total == |Select(users, RoleFilter(role), n)| && r.totalPages == TotalPages(r.total, limit)
    ensures r.ids == Page(Reverse(Select(users, RoleFilter(role), n)), page, limit) && r.page == page && r.limit == limit
    ensures forall i :: 0 <= i < |r.ids| ==> r.ids[i] in users && (role.Some? && role.value != "" ==> users[r.ids[i]].role == role.value)
    ensures forall i, j :: 0 <= i < j < |r.ids| ==> r.ids[i] > r.ids[j]
  {
    var r := NewestPage(users, RoleFilter(role), page, limit, n);
    assert forall i :: 0 <= i < |r.ids| ==> RoleFilter(role)(users[r.ids[i]]);
    r
  }

  /** Every listed row is on exactly one page: row `i` of the newest-first rows is on page `i / limit + 1` and on no other. */
  lemma EveryRowOnItsPage<V>(m: map<nat, V>, keep: V -> bool, limit: nat, n: nat, i: nat)
    requires limit >= 1 && i < |Select(m, keep, n)|
    ensures var r := NewestPage(m, keep, i / limit + 1, limit, n);
            i % limit < |r.ids| && r.ids[i % limit] == Reverse(Select(m, keep, n))[i]
    ensures forall page :: page >= 1 && page != i / limit + 1 ==>
              Reverse(Select(m, keep, n))[i] !in NewestPage(m, keep, page, limit, n).ids
  {
    var rows := Reverse(Select(m, keep, n));
    PageOfIndex(rows, limit, i);
    ReverseDescending(Select(m, keep, n));
    forall page | page >= 1 && page != i / limit + 1
      ensures rows[i] !in NewestPage(m, keep, page, limit, n).ids
    {
      OnlyOnItsPage(rows, limit, i, page);
    }
  }

  // The dashboard and the analytics

  datatype DashboardStats = DashboardStats(
    totalUsers: nat, totalProducts: nat, totalOrders: nat, totalRevenue: int,
    recentOrders: seq<nat>, lowStockProducts: seq<nat>, ordersByStatus: map<OrderStatus, nat>)

  /**
   * `getDashboardStats`: the row counts, the revenue, the ten newest orders, the ten products with
   * least stock among the low ones, and the orders per status, whose counts add up to the orders.
   */
  method GetDashboardStats(db: Db) returns (stats: DashboardStats)
    requires db.data.UsersValid() && db.data.CatalogValid() && db.data.OrdersValid()
    ensures var d := db.data;
            stats.totalUsers == |d.users| && stats.totalProducts == |d.products| && stats.totalOrders == |d.orders| &&
            stats.totalRevenue == TotalRevenue(d.orders, d.nextOrderId) && stats.totalRevenue >= 0 &&
            stats.recentOrders == RecentOrders(d.orders, d.nextOrderId) &&
            stats.lowStockProducts == Top(LowStock(d.products, d.nextProductId), TOP_ROWS)
    ensures forall s :: s in stats.ordersByStatus <==> |Select(db.data.orders, HasStatus(s), db.data.nextOrderId)| > 0
    ensures forall s :: s in stats.ordersByStatus ==> stats.ordersByStatus[s] == |Select(db.data.orders, HasStatus(s), db.data.nextOrderId)|
    ensures CountsTotal(stats.ordersByStatus) == stats.totalOrders
  {
    var d := db.data;
    RevenueNonNegative(d);
    var counts := OrdersByStatus(d.orders, d.nextOrderId);
    forall s
      ensures CountOf(counts, s) == Count(d.orders, HasStatus(s), d.nextOrderId)
    {
      CountIsSelectSize(d.orders, HasStatus(s), d.nextOrderId);
    }
    StatusCountsAddUp(d.orders, d.nextOrderId);
    CountAllIsSize(d.orders, d.nextOrderId);
    stats := DashboardStats(|d.users|, |d.products|, |d.orders|, TotalRevenue(d.orders, d.nextOrderId),
                            RecentOrders(d.orders, d.nextOrderId), Top(LowStock(d.products, d.nextProductId), TOP_ROWS), counts);
  }

  datatype ProductAnalytics = ProductAnalytics(topSellingProducts: seq<TopSeller>, lowStockProducts: seq<nat>, totalItemsSold: int)

  /**
   * `getProductAnalytics`: the ten best sellers, every low-stock product (no `take` here), and the
   * units sold, which no best seller exceeds.
   */
  function GetProductAnalytics(d: Data): (r: ProductAnalytics)
    ensures r.topSellingProducts == TopSelling(d.orders, d.products, d.nextOrderId, d.nextProductId)
    ensures r.totalItemsSold == TotalItemsSold(d.orders, d.nextOrderId)
    ensures forall k :: k in r.lowStockProducts <==> k in d.products && k < d.nextProductId && d.products[k].stock <= LOW_STOCK_LIMIT
    ensures Sorted(d.products, StockAscending, r.lowStockProducts)
    ensures forall i, j :: 0 <= i < j < |r.topSellingProducts| ==> r.topSellingProducts[i].totalSold >= r.topSellingProducts[j].totalSold
    ensures forall i :: 0 <= i < |r.topSellingProducts| ==> r.topSellingProducts[i].totalSold <= r.totalItemsSold
  {
    var top := TopSelling(d.orders, d.products, d.nextOrderId, d.nextProductId);
    LowStockExactly(d.products, d.nextProductId);
    TopSellingRanked(d.orders, d.products, d.nextOrderId, d.nextProductId);
    assert forall i :: 0 <= i < |top| ==> top[i].totalSold <= TotalItemsSold(d.orders, d.nextOrderId) by {
      forall i | 0 <= i < |top|
        ensures top[i].totalSold <= TotalItemsSold(d.orders, d.nextOrderId)
      {
        SoldWithinTotal(d.orders, top[i].productId, d.nextOrderId);
      }
    }
    ProductAnalytics(top, LowStock(d.products, d.nextProductId), TotalItemsSold(d.orders, d.nextOrderId))
  }

  // The role change

  /**
   * `updateUserRole`: NotFound for a missing user; otherwise only that user's role changes, to
   * the given one, and a missing role (`{ role: undefined }`) leaves the user as it was.
   */
  method UpdateUserRole(db: Db, userId: nat, role: Option<string>) returns (r: Result<User, AppError>)
    requires db.data.UsersValid()
    modifies db
    ensures db.data.UsersValid()
    ensures var d := old(db.data);
            (userId !in d.users ==> r == Err(NotFound("User not found")) && db.data == d) &&
            (userId in d.users ==> r.Ok? && db.data == d.(users := d.users[userId := r.value]))
    ensures var d := old(db.data);
            userId in d.users ==> (role.Some? ==> r.value == d.users[userId].(role := role.value)) &&
                                  (role.None? ==> r.value == d.users[userId])
  {
    var d := db.data;
    if userId !in d.users {
      return Err(NotFound("User not found"));
    }
    var updated := if role.Some? then d.users[userId].(role := role.value) else d.users[userId];
    db.data := d.(users := d.users[userId := updated]);
    r := Ok(updated);
  }
}

=== FILE: cart.dfy ===
/**
 * The cart service. Each user has at most one cart, created on first use; a cart holds at most
 * one item per product. Adding checks the product's current stock against the quantity the cart
 * will then hold; the totals shown with a cart are computed on read, never stored. Updating or
 * removing an item in another user's cart fails exactly as for a missing item.
 */
module Carts {
  import opened Wrappers
  import opened Errors
  import opened Text
  import opened Tables
  import opened Entities
  import opened Inventory
  import opened Store

  /** `cart.findUnique({ where: { user_id } })`: the user's cart among the ids below `n`. */
  function CartOf(carts: map<nat, Cart>, userId: nat, n: nat): (r: Option<nat>)
    ensures r.Some? ==> r.value in carts && r.value < n && carts[r.value].userId == userId
    ensures r.None? ==> forall k :: k in carts && k < n ==> carts[k].userId != userId
  {
    First(carts, OwnedBy(userId), n)
  }

  /** The carts of the user. */
  function OwnedBy(userId: nat): Cart -> bool {
    (c: Cart) => c.userId == userId
  }

  /** `cartItem.findUnique` on the (cart_id, product_id) pair, among the ids below `n`. */
  function ItemFor(cartItems: map<nat, CartItem>, cartId: nat, productId: nat, n: nat): (r: Option<nat>)
    ensures r.Some? ==> r.value in cartItems && r.value < n &&
                        cartItems[r.value].cartId == cartId && cartItems[r.value].productId == productId
    ensures r.None? ==> forall k :: k in cartItems && k < n ==> !(cartItems[k].cartId == cartId && cartItems[k].productId == productId)
  {
    First(cartItems, ForKey(cartId, productId), n)
  }

  /** The items under the compound key (cart, product). */
  function ForKey(cartId: nat, productId: nat): CartItem -> bool {
    (i: CartItem) => i.cartId == cartId && i.productId == productId
  }

  /** The ids of a cart's items, oldest first. */
  function ItemIdsOf(cartItems: map<nat, CartItem>, cartId: nat, n: nat): seq<nat> {
    Select(cartItems, (ci: CartItem) => ci.cartId == cartId, n)
  }

  /** A cart's (product, quantity) pairs, oldest item first. */
  function CartLines(cartItems: map<nat, CartItem>, cartId: nat, n: nat): seq<LineItem> {
    var ids := ItemIdsOf(cartItems, cartId, n);
    seq(|ids|, i requires 0 <= i < |ids| => LineItem(cartItems[ids[i]].productId, cartItems[ids[i]].quantity))
  }

  /** The cart-item table without the items of cart `cartId`: `deleteMany({ where: { cart_id } })`. */
  function WithoutCart(cartItems: map<nat, CartItem>, cartId: nat): map<nat, CartItem> {
    map k | k in cartItems && cartItems[k].cartId != cartId :: cartItems[k]
  }

  /** Deleting the items of one cart keeps every rule of the cart tables. */
  lemma WithoutCartKeepsRules(
    carts: map<nat, Cart>, cartItems: map<nat, CartItem>, products: map<nat, Product>, nextCartId: nat, nextCartItemId: nat, cartId: nat)
    requires CartsRules(carts, cartItems, products, nextCartId, nextCartItemId)
    ensures CartsRules(carts, WithoutCart(cartItems, cartId), products, nextCartId, nextCartItemId)
  {
    var rest := WithoutCart(cartItems, cartId);
    forall a, b | a in rest && b in rest && ItemKey(rest, a) == ItemKey(rest, b)
      ensures a == b
    {
      assert ItemKey(cartItems, a) == ItemKey(cartItems, b);
    }
  }

  /** A cart item that exists and lies in the caller's cart. */
  predicate OwnsItem(carts: map<nat, Cart>, cartItems: map<nat, CartItem>, userId: nat, itemId: nat) {
    itemId in cartItems && cartItems[itemId].cartId in carts && carts[cartItems[itemId].cartId].userId == userId
  }

  /** The cart's `total`: price times quantity summed over its lines, at current prices. */
  function CartTotal(lines: seq<LineItem>, products: map<nat, Product>): int
    requires AllFound(lines, products)
  {
    if lines == [] then 0
    else
      var last := lines[|lines| - 1];
      CartTotal(lines[..|lines| - 1], products) + products[last.productId].price * last.quantity
  }

  /** The cart's `itemCount`: the number of units over its lines. */
  function ItemCount(lines: seq<LineItem>): int {
    if lines == [] then 0 else ItemCount(lines[..|lines| - 1]) + lines[|lines| - 1].quantity
  }

  /** The total a cart shows is the total an order for its lines would get at current prices. */
  lemma {:induction false} CartTotalIsOrderTotal(lines: seq<LineItem>, products: map<nat, Product>)
    requires AllFound(lines, products)
    ensures CartTotal(lines, products) == OrderTotal(Snapshot(lines, products))
  {
    if lines != [] {
      var n := |lines| - 1;
      CartTotalIsOrderTotal(lines[..n], products);
      assert Snapshot(lines, products)[..n] == Snapshot(lines[..n], products);
    }
  }

  /** Both totals add up over a split of the lines, so neither depends on the order of the items. */
  lemma {:induction false} TotalsSplit(a: seq<LineItem>, b: seq<LineItem>, products: map<nat, Product>)
    requires AllFound(a, products) && AllFound(b, products)
    ensures AllFound(a + b, products)
    ensures CartTotal(a + b, products) == CartTotal(a, products) + CartTotal(b, products)
    ensures ItemCount(a + b) == ItemCount(a) + ItemCount(b)
  {
    if b != [] {
      var n := |b| - 1;
      TotalsSplit(a, b[..n], products);
      assert (a + b)[..|a + b| - 1] == a + b[..n];
    } else {
      assert a + b == a;
    }
  }

  /** Swapping two parts of a cart leaves its totals unchanged. */
  lemma TotalsCommute(a: seq<LineItem>, b: seq<LineItem>, products: map<nat, Product>)
    requires AllFound(a, products) && AllFound(b, products)
    ensures AllFound(a + b, products) && AllFound(b + a, products)
    ensures CartTotal(a + b, products) == CartTotal(b + a, products)
    ensures ItemCount(a + b) == ItemCount(b + a)
  {
    TotalsSplit(a, b, products);
    TotalsSplit(b, a, products);
  }

  /** The user's entry for the product: their cart's item for it, if both exist. */
  function EntryOf(carts: map<nat, Cart>, cartItems: map<nat, CartItem>, userId: nat, productId: nat, nc: nat, ni: nat): (r: Option<nat>)
    ensures r.Some? ==> OwnsItem(carts, cartItems, userId, r.value) && cartItems[r.value].productId == productId
  {
    match CartOf(carts, userId, nc)
    case None => None
    case Some(c) => ItemFor(cartItems, c, productId, ni)
  }

  /** The quantity of the user's entry for the product, 0 without one. */
  function EntryQuantity(carts: map<nat, Cart>, cartItems: map<nat, CartItem>, userId: nat, productId: nat, nc: nat, ni: nat): nat {
    match EntryOf(carts, cartItems, userId, productId, nc, ni)
    case None => 0
    case Some(i) => cartItems[i].quantity
  }

  /** The contribution of a cart item to the quantity the user's carts hold of `productId`. */
  function HeldTerm(carts: map<nat, Cart>, userId: nat, productId: nat): CartItem -> int {
    (ci: CartItem) =>
      if ci.productId == productId && ci.cartId in carts && carts[ci.cartId].userId == userId then ci.quantity else 0
  }

  /** How many units of `productId` all of the user's cart items hold together. */
  function Held(carts: map<nat, Cart>, cartItems: map<nat, CartItem>, userId: nat, productId: nat, n: nat): int {
    Sum(cartItems, HeldTerm(carts, userId, productId), n)
  }

  /**
   * Under the one-cart-per-user and one-item-per-product rules, the entry the service looks up
   * holds every unit of the product the user has in carts.
   */
  lemma HeldIsEntry(carts: map<nat, Cart>, cartItems: map<nat, CartItem>, userId: nat, productId: nat, nc: nat, ni: nat)
    requires OneCartPerUser(carts) && OneItemPerProduct(cartItems)
    requires KeysBelow(carts, nc) && KeysBelow(cartItems, ni)
    ensures Held(carts, cartItems, userId, productId, ni) == EntryQuantity(carts, cartItems, userId, productId, nc, ni)
  {
    match CartOf(carts, userId, nc)
    case None =>
      HeldWithoutCart(carts, cartItems, userId, productId, ni);
    case Some(c) =>
      match ItemFor(cartItems, c, productId, ni)
      case None =>
        HeldWithoutItem(carts, cartItems, userId, productId, c, ni);
      case Some(i) =>
        HeldOneItem(carts, cartItems, userId, productId, c, i, ni);
  }

  /** A user without a cart holds nothing. */
  lemma HeldWithoutCart(carts: map<nat, Cart>, cartItems: map<nat, CartItem>, userId: nat, productId: nat, ni: nat)
    requires forall k :: k in carts ==> carts[k].userId != userId
    ensures Held(carts, cartItems, userId, productId, ni) == 0
  {
    var f := HeldTerm(carts, userId, productId);
    forall j: nat | j < ni ensures Term(cartItems, f, j) == 0 {
      if j in cartItems && cartItems[j].cartId in carts {
        assert carts[cartItems[j].cartId].userId != userId;
      }
    }
    SumZero(cartItems, f, ni);
  }

  /** A user whose one cart has no item for the product holds none of it. */
  lemma HeldWithoutItem(carts: map<nat, Cart>, cartItems: map<nat, CartItem>, userId: nat, productId: nat, c: nat, ni: nat)
    requires OneCartPerUser(carts) && c in carts && carts[c].userId == userId
    requires forall k :: k in cartItems && k < ni ==> !(cartItems[k].cartId == c && cartItems[k].productId == productId)
    ensures Held(carts, cartItems, userId, productId, ni) == 0
  {
    var f := HeldTerm(carts, userId, productId);
    forall j: nat | j < ni ensures Term(cartItems, f, j) == 0 {
      if j in cartItems && cartItems[j].cartId in carts && carts[cartItems[j].cartId].userId == userId {
        assert CartOwner(carts, cartItems[j].cartId) == CartOwner(carts, c);
      }
    }
    SumZero(cartItems, f, ni);
  }

  /** A user whose one cart has item `i` for the product holds exactly its quantity. */
  lemma HeldOneItem(carts: map<nat, Cart>, cartItems: map<nat, CartItem>, userId: nat, productId: nat, c: nat, i: nat, ni: nat)
    requires OneCartPerUser(carts) && OneItemPerProduct(cartItems) && c in carts && carts[c].userId == userId
    requires i in cartItems && i < ni && cartItems[i].cartId == c && cartItems[i].productId == productId
    ensures Held(carts, cartItems, userId, productId, ni) == cartItems[i].quantity
  {
    var f := HeldTerm(carts, userId, productId);
    forall j: nat | j < ni && j != i ensures Term(cartItems, f, j) == 0 {
      if j in cartItems && cartItems[j].cartId in carts && carts[cartItems[j].cartId].userId == userId && cartItems[j].productId == productId {
        assert false;
      }
    }
    SumOnly(cartItems, f, ni, i);
  }

  /** With one cart per user, the looked-up cart is the user's cart and no other. */
  lemma CartOfIsUsersCart(carts: map<nat, Cart>, userId: nat, n: nat, c: nat)
    requires OneCartPerUser(carts) && KeysBelow(carts, n)
    ensures CartOf(carts, userId, n) == Some(c) <==> c in carts && carts[c].userId == userId
  {
  }

  /** With one item per product in a cart, the looked-up item is the cart's item for the product and no other. */
  lemma ItemForIsCartsItem(cartItems: map<nat, CartItem>, cartId: nat, productId: nat, n: nat, i: nat)
    requires OneItemPerProduct(cartItems) && KeysBelow(cartItems, n)
    ensures ItemFor(cartItems, cartId, productId, n) == Some(i) <==>
            i in cartItems && cartItems[i].cartId == cartId && cartItems[i].productId == productId
  {
  }

  /** Two of the user's items for the same product are the same item. */
  lemma SameEntry(carts: map<nat, Cart>, cartItems: map<nat, CartItem>, userId: nat, productId: nat, a: nat, b: nat)
    requires OneCartPerUser(carts) && OneItemPerProduct(cartItems)
    requires OwnsItem(carts, cartItems, userId, a) && cartItems[a].productId == productId
    requires OwnsItem(carts, cartItems, userId, b) && cartItems[b].productId == productId
    ensures a == b
  {
  }

  /** The message of the check on the quantity the cart will hold. */
  function CannotAddMessage(quantity: nat, available: int): string {
    "Cannot add " + NatToString(quantity) + " more. Only " + IntToString(available) + " available"
  }

  /**
   * `addToCart`'s checks, in order: the product must exist and hold at least the quantity, and
   * an existing entry must stay within stock once raised, the message reporting what the entry
   * leaves available.
   */
  function AddRejection(
    products: map<nat, Product>, carts: map<nat, Cart>, cartItems: map<nat, CartItem>,
    userId: nat, productId: nat, quantity: nat, nc: nat, ni: nat): Option<AppError>
  {
    if productId !in products then Some(NotFound("Product not found"))
    else
      var stock := products[productId].stock;
      if stock < quantity then Some(BadRequest("Insufficient stock available"))
      else
        match EntryOf(carts, cartItems, userId, productId, nc, ni)
        case None => None
        case Some(i) =>
          if cartItems[i].quantity + quantity > stock then
            Some(BadRequest(CannotAddMessage(quantity, stock - cartItems[i].quantity)))
          else None
  }

  /** An accepted addition never leaves the entry above the product's stock. */
  lemma AcceptedWithinStock(
    products: map<nat, Product>, carts: map<nat, Cart>, cartItems: map<nat, CartItem>,
    userId: nat, productId: nat, quantity: nat, nc: nat, ni: nat)
    requires AddRejection(products, carts, cartItems, userId, productId, quantity, nc, ni).None?
    ensures productId in products
    ensures EntryQuantity(carts, cartItems, userId, productId, nc, ni) + quantity <= products[productId].stock
  {
  }

  /** The user's cart, created when missing: the lookup-or-create step of the cart operations. */
  method EnsureCart(db: Db, userId: nat) returns (cartId: nat)
    requires db.data.CartsValid()
    modifies db
    ensures db.data.CartsValid()
    ensures var found := CartOf(old(db.data).carts, userId, old(db.data).nextCartId);
            (found.Some? ==> db.data == old(db.data) && cartId == found.value) &&
            (found.None? ==> cartId == old(db.data).nextCartId &&
                             db.data == old(db.data).(carts := old(db.data).carts[cartId := Cart(userId)], nextCartId := cartId + 1) &&
                             forall k :: k in db.data.cartItems ==> db.data.cartItems[k].cartId != cartId)
    ensures cartId in db.data.carts && db.data.carts[cartId].userId == userId
  {
    var d := db.data;
    var found := CartOf(d.carts, userId, d.nextCartId);
    if found.None? {
      cartId := d.nextCartId;
      forall k | k in d.cartItems ensures d.cartItems[k].cartId != cartId {
        assert d.cartItems[k].cartId in d.carts;
      }
      db.data := d.(carts := d.carts[cartId := Cart(userId)], nextCartId := cartId + 1);
    } else {
      cartId := found.value;
    }
  }

  /**
   * `getOrCreateCart`: the user's cart, created empty when missing, with its lines and the
   * derived total and item count.
   */
  method GetOrCreateCart(db: Db, userId: nat) returns (cartId: nat, lines: seq<LineItem>, total: int, itemCount: int)
    requires db.data.CartsValid()
    modifies db
    ensures db.data.CartsValid()
    ensures var found := CartOf(old(db.data).carts, userId, old(db.data).nextCartId);
            (found.Some? ==> db.data == old(db.data) && cartId == found.value) &&
            (found.None? ==> cartId == old(db.data).nextCartId && lines == [] &&
                             db.data == old(db.data).(carts := old(db.data).carts[cartId := Cart(userId)], nextCartId := cartId + 1))
    ensures cartId in db.data.carts && db.data.carts[cartId].userId == userId
    ensures lines == CartLines(db.data.cartItems, cartId, db.data.nextCartItemId) && AllFound(lines, db.data.products)
    ensures total == CartTotal(lines, db.data.products) && itemCount == ItemCount(lines)
  {
    cartId := EnsureCart(db, userId);
    var d := db.data;
    lines := CartLines(d.cartItems, cartId, d.nextCartItemId);
    if CartOf(old(db.data).carts, userId, old(db.data).nextCartId).None? {
      SelectNone(d.cartItems, (ci: CartItem) => ci.cartId == cartId, d.nextCartItemId);
    }
    total := CartTotal(lines, d.products);
    itemCount := ItemCount(lines);
  }

  /**
   * `addToCart`: either raises the quantity of the cart's entry for the product or creates that
   * entry, creating the cart first when the user has none. Only the cart tables change.
   */
  method AddToCart(db: Db, userId: nat, productId: nat, quantity: nat) returns (r: Result<nat, AppError>)
    requires db.data.CartsValid()
    modifies db
    ensures db.data.CartsValid()
    ensures var d := old(db.data);
            var rejection := AddRejection(d.products, d.carts, d.cartItems, userId, productId, quantity, d.nextCartId, d.nextCartItemId);
            (r.Err? <==> rejection.Some?) && (r.Err? ==> r.error == rejection.value && db.data == d)
    ensures r.Ok? ==> OwnsItem(db.data.carts, db.data.cartItems, userId, r.value) && db.data.cartItems[r.value].productId == productId
    ensures var d := old(db.data);
            r.Ok? ==> db.data.cartItems[r.value].quantity == EntryQuantity(d.carts, d.cartItems, userId, productId, d.nextCartId, d.nextCartItemId) + quantity
    ensures var d := old(db.data);
            r.Ok? ==> db.data == d.(carts := db.data.carts, cartItems := d.cartItems[r.value := db.data.cartItems[r.value]],
                                    nextCartId := db.data.nextCartId, nextCartItemId := db.data.nextCartItemId)
    ensures var d := old(db.data);
            r.Ok? ==> (CartOf(d.carts, userId, d.nextCartId).Some? ==> db.data.carts == d.carts) &&
                      (CartOf(d.carts, userId, d.nextCartId).None? ==> db.data.carts == d.carts[d.nextCartId := Cart(userId)])
    ensures var d := old(db.data);
            r.Ok? ==> (CartOf(d.carts, userId, d.nextCartId).Some? ==> db.data.nextCartId == d.nextCartId) &&
                      (CartOf(d.carts, userId, d.nextCartId).None? ==> db.data.nextCartId == d.nextCartId + 1)
    ensures var d := old(db.data);
            var entry := EntryOf(d.carts, d.cartItems, userId, productId, d.nextCartId, d.nextCartItemId);
            r.Ok? ==> (entry.Some? ==> r.value == entry.value && db.data.nextCartItemId == d.nextCartItemId) &&
                      (entry.None? ==> r.value == d.nextCartItemId && r.value !in d.cartItems &&
                                       db.data.nextCartItemId == d.nextCartItemId + 1)
  {
    if productId !in db.data.products {
      return Err(NotFound("Product not found"));
    }
    var product := db.data.products[productId];
    if product.stock < quantity {
      return Err(BadRequest("Insufficient stock available"));
    }
    var cartId := EnsureCart(db, userId);
    var existing := ItemFor(db.data.cartItems, cartId, productId, db.data.nextCartItemId);
    if existing.Some? {
      var itemId := existing.value;
      var item := db.data.cartItems[itemId];
      var newQuantity := item.quantity + quantity;
      if newQuantity > product.stock {
        return Err(BadRequest(CannotAddMessage(quantity, product.stock - item.quantity)));
      }
      SetQuantity(db, itemId, newQuantity);
      r := Ok(itemId);
    } else {
      var itemId := CreateItem(db, CartItem(cartId, productId, quantity));
      r := Ok(itemId);
    }
  }

  /** `cartItem.update` of the quantity. */
  method SetQuantity(db: Db, itemId: nat, quantity: nat)
    requires db.data.CartsValid() && itemId in db.data.cartItems
    modifies db
    ensures db.data.CartsValid()
    ensures db.data == old(db.data).(cartItems := old(db.data).cartItems[itemId := old(db.data).cartItems[itemId].(quantity := quantity)])
  {
    var d := db.data;
    db.data := d.(cartItems := d.cartItems[itemId := d.cartItems[itemId].(quantity := quantity)]);
  }

  /** `cartItem.create`, for a product the cart does not hold yet. */
  method CreateItem(db: Db, item: CartItem) returns (itemId: nat)
    requires db.data.CartsValid() && item.cartId in db.data.carts && item.productId in db.data.products
    requires forall k :: k in db.data.cartItems ==>
               !(db.data.cartItems[k].cartId == item.cartId && db.data.cartItems[k].productId == item.productId)
    modifies db
    ensures db.data.CartsValid()
    ensures itemId == old(db.data).nextCartItemId
    ensures db.data == old(db.data).(cartItems := old(db.data).cartItems[itemId := item], nextCartItemId := itemId + 1)
  {
    var d := db.data;
    itemId := d.nextCartItemId;
    db.data := d.(cartItems := d.cartItems[itemId := item], nextCartItemId := itemId + 1);
  }

  /** What `updateCartItem` returns: the removal message, or the updated item. */
  datatype ItemUpdate = ItemRemoved | ItemUpdated(item: CartItem)

  /**
   * `updateCartItem`: quantity 0 deletes the item without looking at stock; any other quantity
   * must be within stock and replaces the item's quantity.
   */
  method UpdateCartItem(db: Db, userId: nat, itemId: nat, quantity: nat) returns (r: Result<ItemUpdate, AppError>)
    requires db.data.CartsValid()
    modifies db
    ensures db.data.CartsValid()
    ensures var d := old(db.data);
            !OwnsItem(d.carts, d.cartItems, userId, itemId) ==> r == Err(NotFound("Cart item not found")) && db.data == d
    ensures var d := old(db.data);
            OwnsItem(d.carts, d.cartItems, userId, itemId) && quantity == 0 ==>
              r == Ok(ItemRemoved) && db.data == d.(cartItems := d.cartItems - {itemId})
    ensures var d := old(db.data);
            OwnsItem(d.carts, d.cartItems, userId, itemId) && quantity > 0 ==>
              var stock := d.products[d.cartItems[itemId].productId].stock;
              (quantity > stock ==> r == Err(BadRequest("Only " + IntToString(stock) + " units available in stock")) && db.data == d) &&
              (quantity <= stock ==> db.data == d.(cartItems := d.cartItems[itemId := d.cartItems[itemId].(quantity := quantity)]) &&
                                     r == Ok(ItemUpdated(db.data.cartItems[itemId])))
  {
    var d := db.data;
    if !OwnsItem(d.carts, d.cartItems, userId, itemId) {
      return Err(NotFound("Cart item not found"));
    }
    var item := d.cartItems[itemId];
    if quantity == 0 {
      db.data := d.(cartItems := d.cartItems - {itemId});
      return Ok(ItemRemoved);
    }
    var stock := d.products[item.productId].stock;
    if quantity > stock {
      return Err(BadRequest("Only " + IntToString(stock) + " units available in stock"));
    }
    SetQuantity(db, itemId, quantity);
    r := Ok(ItemUpdated(db.data.cartItems[itemId]));
  }

  /** `removeFromCart`: deletes one of the caller's items. */
  method RemoveFromCart(db: Db, userId: nat, itemId: nat) returns (r: Result<string, AppError>)
    requires db.data.CartsValid()
    modifies db
    ensures db.data.CartsValid()
    ensures var d := old(db.data);
            !OwnsItem(d.carts, d.cartItems, userId, itemId) ==> r == Err(NotFound("Cart item not found")) && db.data == d
    ensures var d := old(db.data);
            OwnsItem(d.carts, d.cartItems, userId, itemId) ==>
              r == Ok("Item removed from cart") && db.data == d.(cartItems := d.cartItems - {itemId})
  {
    var d := db.data;
    if !OwnsItem(d.carts, d.cartItems, userId, itemId) {
      return Err(NotFound("Cart item not found"));
    }
    db.data := d.(cartItems := d.cartItems - {itemId});
    r := Ok("Item removed from cart");
  }

  /** `clearCart`: deletes every item of the caller's cart; the cart itself stays. */
  method ClearCart(db: Db, userId: nat) returns (r: Result<string, AppError>)
    requires db.data.CartsValid()
    modifies db
    ensures db.data.CartsValid()
    ensures var d := old(db.data);
            var found := CartOf(d.carts, userId, d.nextCartId);
            (found.None? ==> r == Err(NotFound("Cart not found")) && db.data == d) &&
            (found.Some? ==> r == Ok("Cart cleared successfully") && db.data == d.(cartItems := WithoutCart(d.cartItems, found.value)))
  {
    var d := db.data;
    var found := CartOf(d.carts, userId, d.nextCartId);
    if found.None? {
      return Err(NotFound("Cart not found"));
    }
    WithoutCartKeepsRules(d.carts, d.cartItems, d.products, d.nextCartId, d.nextCartItemId, found.value);
    db.data := d.(cartItems := WithoutCart(d.cartItems, found.value));
    r := Ok("Cart cleared successfully");
  }

  /** After clearing, the cart has no lines and every other cart keeps its lines. */
  lemma ClearedCart(cartItems: map<nat, CartItem>, cartId: nat, other: nat, n: nat)
    requires other != cartId
    ensures CartLines(WithoutCart(cartItems, cartId), cartId, n) == []
    ensures CartLines(WithoutCart(cartItems, cartId), other, n) == CartLines(cartItems, other, n)
  {
    var cleared := WithoutCart(cartItems, cartId);
    SelectAgree(cleared, cartItems, (ci: CartItem) => ci.cartId == other, n);
    SelectNone(cleared, (ci: CartItem) => ci.cartId == cartId, n);
  }

  /**
   * Adding the same product twice leaves one entry holding both quantities on top of what it
   * held before.
   */
  method AddTwice(db: Db, userId: nat, productId: nat, q1: nat, q2: nat) returns (r1: Result<nat, AppError>, r2: Result<nat, AppError>)
    requires db.data.CartsValid()
    modifies db
    ensures db.data.CartsValid()
    ensures var d := old(db.data);
            r1.Ok? && r2.Ok? ==>
              r2.value == r1.value && r1.value in db.data.cartItems &&
              db.data.cartItems[r1.value].quantity == EntryQuantity(d.carts, d.cartItems, userId, productId, d.nextCartId, d.nextCartItemId) + q1 + q2
  {
    r1 := AddToCart(db, userId, productId, q1);
    if r1.Err? {
      return r1, r1;
    }
    var mid := db.data;
    CartOfIsUsersCart(mid.carts, userId, mid.nextCartId, mid.cartItems[r1.value].cartId);
    ItemForIsCartsItem(mid.cartItems, mid.cartItems[r1.value].cartId, productId, mid.nextCartItemId, r1.value);
    assert EntryOf(mid.carts, mid.cartItems, userId, productId, mid.nextCartId, mid.nextCartItemId) == Some(r1.value);
    r2 := AddToCart(db, userId, productId, q2);
    if r2.Ok? {
      assert OwnsItem(db.data.carts, db.data.cartItems, userId, r1.value);
      SameEntry(db.data.carts, db.data.cartItems, userId, productId, r1.value, r2.value);
    }
  }
}

=== FILE: categories.dfy ===
/**
 * The category tree of category.service.ts: categories with a unique slug and an optional parent.
 * Creation and update check that a named parent exists; deletion refuses a category that still
 * has subcategories or products, so no parent link and no product's category ever dangles.
 */
module Categories {
  import opened Wrappers
  import opened Text
  import opened Tables
  import opened Entities
  import opened Errors
  import opened Store
  import opened Schemas
  import opened Slugs
  import opened Paging
  import opened Listing

  /** The fields of a new category. */
  datatype CategoryInput = CategoryInput(name: string, description: Option<string>, parentId: Option<nat>)

  /** The fields an update may carry: a new name, a new description, and a parent change. */
  datatype CategoryPatch = CategoryPatch(name: Option<string>, description: Option<string>, parent: ParentChange)

  /** The check of `createCategory`: a named parent must exist. */
  function CreateRejection(categories: map<nat, Category>, parentId: Option<nat>): (e: Option<AppError>)
    ensures e.Some? <==> parentId.Some? && parentId.value !in categories
    ensures e.Some? ==> e.value == NotFound("Parent category not found")
  {
    if parentId.Some? && parentId.value !in categories then Some(NotFound("Parent category not found")) else None
  }

  /**
   * `createCategory`: a missing parent is NotFound and nothing is written; otherwise one category
   * is added, with the first free slug for its name. The service searches for the slug before it
   * checks the parent; the search only reads, so the order makes no difference to the outcome.
   */
  method CreateCategory(db: Db, input: CategoryInput) returns (r: Result<Category, AppError>)
    requires db.data.CatalogValid()
    modifies db
    ensures db.data.CatalogValid()
    ensures var d := old(db.data);
            var rejection := CreateRejection(d.categories, input.parentId);
            (r.Err? <==> rejection.Some?) && (r.Err? ==> r.error == rejection.value && db.data == d)
    ensures var d := old(db.data);
            r.Ok? ==> r.value.name == input.name && r.value.description == input.description &&
                      r.value.parentId == input.parentId &&
                      FirstFree(r.value.slug, input.name, CategorySlugs(d.categories)) &&
                      db.data == d.(categories := d.categories[d.nextCategoryId := r.value], nextCategoryId := d.nextCategoryId + 1)
  {
    var d := db.data;
    var rejection := CreateRejection(d.categories, input.parentId);
    if rejection.Some? {
      return Err(rejection.value);
    }
    var created := NewCategory(d.categories, input);
    var id := d.nextCategoryId;
    WriteKeepsCatalog(d, id, created, id + 1);
    db.data := d.(categories := d.categories[id := created], nextCategoryId := id + 1);
    r := Ok(created);
  }

  /** The row `createCategory` writes: the given fields and the first free slug for the name. */
  method NewCategory(categories: map<nat, Category>, input: CategoryInput) returns (c: Category)
    ensures c.name == input.name && c.description == input.description && c.parentId == input.parentId
    ensures FirstFree(c.slug, input.name, CategorySlugs(categories))
  {
    var slug := GenerateUniqueSlug(input.name, CategorySlugs(categories));
    c := Category(input.name, slug, input.description, input.parentId);
  }

  /** Writing a row whose slug is new, or is the row's own, keeps the slugs unique. */
  lemma WriteKeepsSlugsUnique(categories: map<nat, Category>, id: nat, c: Category)
    requires UniqueCategorySlugs(categories)
    requires c.slug !in CategorySlugs(categories) || (id in categories && categories[id].slug == c.slug)
    ensures UniqueCategorySlugs(categories[id := c])
  {
    var after := categories[id := c];
    forall a, b | a in after && b in after && CategorySlug(after, a) == CategorySlug(after, b)
      ensures a == b
    {
      if a != id && b != id {
        assert CategorySlug(categories, a) == CategorySlug(categories, b);
      }
    }
  }

  /**
   * Writing a category row, new under the next id or over an existing one, keeps the catalogue's
   * rules when its slug is new or its own and its parent exists.
   */
  lemma WriteKeepsCatalog(d: Data, id: nat, c: Category, next: nat)
    requires d.CatalogValid()
    requires next == if id in d.categories then d.nextCategoryId else id + 1
    requires id in d.categories || id == d.nextCategoryId
    requires c.slug !in CategorySlugs(d.categories) || (id in d.categories && d.categories[id].slug == c.slug)
    requires c.parentId.Some? ==> c.parentId.value in d.categories
    ensures d.(categories := d.categories[id := c], nextCategoryId := next).CatalogValid()
  {
    WriteKeepsSlugsUnique(d.categories, id, c);
  }

  /** The checks of `updateCategory`, in order: the category exists, is not its own parent, and a new parent exists. */
  function UpdateRejection(categories: map<nat, Category>, categoryId: nat, parent: ParentChange): (e: Option<AppError>)
    ensures e.None? <==> categoryId in categories && parent != SetParent(categoryId) &&
                         (parent.SetParent? ==> parent.parentId in categories)
  {
    if categoryId !in categories then Some(NotFound("Category not found"))
    else if parent == SetParent(categoryId) then Some(BadRequest("Category cannot be its own parent"))
    else if parent.SetParent? && parent.parentId !in categories then Some(NotFound("Parent category not found"))
    else None
  }

  /** Only a category named as its own parent is refused: making a category the child of its own child is accepted. */
  lemma OnlySelfParentRefused(categories: map<nat, Category>, categoryId: nat, parentId: nat)
    requires categoryId in categories && parentId in categories
    ensures UpdateRejection(categories, categoryId, SetParent(parentId)).None? <==> parentId != categoryId
    ensures parentId == categoryId ==>
              UpdateRejection(categories, categoryId, SetParent(parentId)) == Some(BadRequest("Category cannot be its own parent"))
  {
  }

  /** The parent after an update: unchanged when left out, none when null, else the given one. */
  function NewParent(current: Option<nat>, parent: ParentChange): (r: Option<nat>)
    ensures parent.KeepParent? ==> r == current
    ensures parent.ClearParent? ==> r.None?
    ensures parent.SetParent? ==> r == Some(parent.parentId)
  {
    match parent
    case KeepParent => current
    case ClearParent => None
    case SetParent(p) => Some(p)
  }

  /**
   * `updateCategory`: the checks of `UpdateRejection`; a new slug only when the name changes; then
   * the given fields are written. No other category changes.
   */
  method UpdateCategory(db: Db, categoryId: nat, patch: CategoryPatch) returns (r: Result<Category, AppError>)
    requires db.data.CatalogValid()
    modifies db
    ensures db.data.CatalogValid()
    ensures var d := old(db.data);
            var rejection := UpdateRejection(d.categories, categoryId, patch.parent);
            (r.Err? <==> rejection.Some?) && (r.Err? ==> r.error == rejection.value && db.data == d)
    ensures var d := old(db.data);
            r.Ok? ==>
              var c := d.categories[categoryId];
              r.value.name == patch.name.GetOr(c.name) &&
              r.value.description == (if patch.description.Some? then patch.description else c.description) &&
              r.value.parentId == NewParent(c.parentId, patch.parent) &&
              (Renames(c.name, patch.name) ==> FirstFree(r.value.slug, patch.name.value, CategorySlugs(d.categories))) &&
              (!Renames(c.name, patch.name) ==> r.value.slug == c.slug) &&
              db.data == d.(categories := d.categories[categoryId := r.value])
  {
    var d := db.data;
    if categoryId !in d.categories {
      return Err(NotFound("Category not found"));
    }
    if patch.parent == SetParent(categoryId) {
      return Err(BadRequest("Category cannot be its own parent"));
    }
    var c := d.categories[categoryId];
    var slug := c.slug;
    if Renames(c.name, patch.name) {
      slug := GenerateUniqueSlug(patch.name.value, CategorySlugs(d.categories));
    }
    if patch.parent.SetParent? && patch.parent.parentId !in d.categories {
      return Err(NotFound("Parent category not found"));
    }
    var updated := Category(patch.name.GetOr(c.name), slug,
                            if patch.description.Some? then patch.description else c.description,
                            NewParent(c.parentId, patch.parent));
    var categories := d.categories[categoryId := updated];
    WriteKeepsCatalog(d, categoryId, updated, d.nextCategoryId);
    db.data := d.(categories := categories);
    r := Ok(updated);
  }

  /** The rows whose parent is `categoryId`: its subcategories. */
  function ChildOf(categoryId: nat): Category -> bool {
    (c: Category) => c.parentId == Some(categoryId)
  }

  /** The rows that belong to `categoryId`: its products. */
  function InCategory(categoryId: nat): Product -> bool {
    (p: Product) => p.categoryId == Some(categoryId)
  }

  /** The checks of `deleteCategory`, in order: it exists, has no subcategory, and has no product. */
  function DeleteRejection(d: Data, categoryId: nat): Option<AppError> {
    if categoryId !in d.categories then Some(NotFound("Category not found"))
    else if |Select(d.categories, ChildOf(categoryId), d.nextCategoryId)| > 0 then
      Some(BadRequest("Cannot delete category with subcategories. Delete or move subcategories first."))
    else
      var products := Count(d.products, InCategory(categoryId), d.nextProductId);
      if products > 0 then
        Some(BadRequest("Cannot delete category with " + IntToString(products) + " products. Move or delete products first."))
      else None
  }

  /** A category can be deleted exactly when it exists and no category and no product points to it. */
  lemma DeletableIff(d: Data, categoryId: nat)
    requires d.CatalogValid()
    ensures DeleteRejection(d, categoryId).None? <==>
              categoryId in d.categories &&
              (forall k :: k in d.categories ==> d.categories[k].parentId != Some(categoryId)) &&
              (forall k :: k in d.products ==> d.products[k].categoryId != Some(categoryId))
  {
    CountIsSelectSize(d.products, InCategory(categoryId), d.nextProductId);
    var children := Select(d.categories, ChildOf(categoryId), d.nextCategoryId);
    var products := Select(d.products, InCategory(categoryId), d.nextProductId);
    if |children| > 0 {
      assert children[0] in d.categories;
    }
    if |products| > 0 {
      assert products[0] in d.products;
    }
  }

  /** `deleteCategory`: the checks of `DeleteRejection`; then only this category is removed. */
  method DeleteCategory(db: Db, categoryId: nat) returns (r: Result<string, AppError>)
    requires db.data.CatalogValid()
    modifies db
    ensures db.data.CatalogValid()
    ensures var d := old(db.data);
            var rejection := DeleteRejection(d, categoryId);
            (r.Err? <==> rejection.Some?) && (r.Err? ==> r.error == rejection.value && db.data == d)
    ensures var d := old(db.data);
            r.Ok? ==> r.value == "Category deleted successfully" && db.data == d.(categories := d.categories - {categoryId})
  {
    var d := db.data;
    var rejection := DeleteRejection(d, categoryId);
    if rejection.Some? {
      return Err(rejection.value);
    }
    DeletableIff(d, categoryId);
    var categories := d.categories - {categoryId};
    forall a, b | a in categories && b in categories && CategorySlug(categories, a) == CategorySlug(categories, b)
      ensures a == b
    {
      assert CategorySlug(d.categories, a) == CategorySlug(d.categories, b);
    }
    db.data := d.(categories := categories);
    r := Ok("Category deleted successfully");
  }

  /** `getCategoryProducts`: one page of the category's products in the chosen order, and the page count. */
  function GetCategoryProducts(products: map<nat, Product>, categoryId: nat, page: nat, limit: nat, sortBy: string, n: nat): (r: IdPage)
    requires page >= 1 && limit >= 1
    ensures var rows := Select(products, InCategory(categoryId), n);
            r.total == |rows| && r.totalPages == TotalPages(|rows|, limit) && r.page == page && r.limit == limit &&
            r.ids == Page(Ordered(products, rows, OrderBy(sortBy)), page, limit)
    ensures forall i :: 0 <= i < |r.ids| ==> r.ids[i] in products && products[r.ids[i]].categoryId == Some(categoryId)
  {
    Listed(products, InCategory(categoryId), OrderBy(sortBy), page, limit, n)
  }
}

=== FILE: entities.dfy ===
/**
 * The rows of the shop's tables. Row ids are not part of a row: a table maps ids to rows.
 * Money is an integer number of minor currency units; times are milliseconds.
 */
module Entities {
  import opened Wrappers

  datatype OrderStatus = Pending | Paid | Processing | Shipped | Delivered | Cancelled

  datatype PaymentStatus = PaymentPending | PaymentSuccess | PaymentFailed

  datatype User = User(email: string, name: string, role: string)

  datatype Category = Category(name: string, slug: string, description: Option<string>, parentId: Option<nat>)

  datatype Product = Product(
    name: string,
    slug: string,
    description: Option<string>,
    price: nat,
    stock: int,
    categoryId: Option<nat>)

  datatype ProductImage = ProductImage(productId: nat, url: string, altText: Option<string>, isPrimary: bool, order: int)

  datatype Cart = Cart(userId: nat)

  datatype CartItem = CartItem(cartId: nat, productId: nat, quantity: nat)

  /** One requested line of an order: a product and how many of it. */
  datatype LineItem = LineItem(productId: nat, quantity: nat)

  /** An order line as stored: the product, the quantity and the unit price when ordered. */
  datatype OrderItem = OrderItem(productId: nat, quantity: nat, price: nat)

  datatype Order = Order(
    userId: nat,
    items: seq<OrderItem>,
    total: int,
    status: OrderStatus,
    shippingAddressId: Option<nat>,
    trackingNumber: Option<string>,
    estimatedDelivery: Option<int>)

  datatype Payment = Payment(orderId: nat, amount: int, transactionId: string, status: PaymentStatus, provider: string)

  datatype Address = Address(
    userId: nat,
    fullName: string,
    phone: string,
    addressLine1: string,
    addressLine2: Option<string>,
    city: string,
    state: string,
    postalCode: string,
    country: string,
    isDefault: bool)

  datatype Review = Review(productId: nat, userId: nat, rating: int, comment: Option<string>)

  /** The sum of the line totals, unit price times quantity, of `items`. */
  function OrderTotal(items: seq<OrderItem>): int {
    if items == [] then 0
    else
      var last := items[|items| - 1];
      OrderTotal(items[..|items| - 1]) + last.price * last.quantity
  }

  /** The (product, quantity) pairs of stored order lines. */
  function Lines(items: seq<OrderItem>): (lines: seq<LineItem>)
    ensures |lines| == |items|
    ensures forall i :: 0 <= i < |items| ==>
              lines[i].productId == items[i].productId && lines[i].quantity == items[i].quantity
  {
    seq(|items|, i requires 0 <= i < |items| => LineItem(items[i].productId, items[i].quantity))
  }
}

=== FILE: errors.dfy ===
/**
 * The error taxonomy of shared/errors/app-error.ts: a base `AppError` carrying a message and an
 * HTTP status code, and five subclasses that fix the status code and a default message. The
 * payment service throws bare `Error`s, which carry no status code; they are `Plain` here.
 */
module Errors {
  import opened Wrappers

  const INTERNAL_SERVER_ERROR := 500
  const NOT_FOUND := 404
  const UNAUTHORIZED := 401
  const FORBIDDEN := 403
  const BAD_REQUEST := 400
  const CONFLICT := 409

  datatype AppError =
    | Base(message: string, code: int)
    | NotFound(message: string)
    | Unauthorized(message: string)
    | Forbidden(message: string)
    | BadRequest(message: string)
    | Conflict(message: string)
    | Plain(message: string)

  /** `new AppError(message, statusCode?)`: the status code defaults to 500. */
  function NewAppError(message: string, statusCode: Option<int>): (e: AppError)
    ensures StatusCode(e) == Some(statusCode.GetOr(INTERNAL_SERVER_ERROR))
    ensures e.message == message
  {
    Base(message, statusCode.GetOr(INTERNAL_SERVER_ERROR))
  }

  /** Each subclass constructor takes an optional message and otherwise uses its default. */
  function NewNotFound(message: Option<string>): AppError { NotFound(message.GetOr("Resource not found")) }
  function NewUnauthorized(message: Option<string>): AppError { Unauthorized(message.GetOr("Unauthorized")) }
  function NewForbidden(message: Option<string>): AppError { Forbidden(message.GetOr("Forbidden")) }
  function NewBadRequest(message: Option<string>): AppError { BadRequest(message.GetOr("Bad request")) }
  function NewConflict(message: Option<string>): AppError { Conflict(message.GetOr("Conflict")) }

  /** The `statusCode` property of an error; a bare `Error` has none. */
  function StatusCode(e: AppError): (code: Option<int>)
    ensures e.Plain? <==> code.None?
  {
    match e
    case Base(_, c) => Some(c)
    case NotFound(_) => Some(NOT_FOUND)
    case Unauthorized(_) => Some(UNAUTHORIZED)
    case Forbidden(_) => Some(FORBIDDEN)
    case BadRequest(_) => Some(BAD_REQUEST)
    case Conflict(_) => Some(CONFLICT)
    case Plain(_) => None
  }

  /** True of the five subclasses, whose status code is fixed by their class. */
  predicate IsClientError(e: AppError) {
    e.NotFound? || e.Unauthorized? || e.Forbidden? || e.BadRequest? || e.Conflict?
  }

  /**
   * Rebuilds a subclass error from its status code and message, as a client reading the
   * response would; None for a code no subclass uses.
   */
  function FromStatus(code: int, message: string): Option<AppError> {
    if code == NOT_FOUND then Some(NotFound(message))
    else if code == UNAUTHORIZED then Some(Unauthorized(message))
    else if code == FORBIDDEN then Some(Forbidden(message))
    else if code == BAD_REQUEST then Some(BadRequest(message))
    else if code == CONFLICT then Some(Conflict(message))
    else None
  }

  /**
   * The five subclasses use five distinct 4xx codes, so the class of a subclass error is
   * recoverable from its status code alone.
   */
  lemma StatusCodeIdentifiesClass(e: AppError)
    requires IsClientError(e)
    ensures StatusCode(e).Some? && 400 <= StatusCode(e).value < 500
    ensures FromStatus(StatusCode(e).value, e.message) == Some(e)
  {
  }

  /** Every subclass, built without a message, carries its documented default message and code. */
  lemma DefaultMessages()
    ensures NewNotFound(None) == NotFound("Resource not found") && StatusCode(NewNotFound(None)) == Some(404)
    ensures NewUnauthorized(None) == Unauthorized("Unauthorized") && StatusCode(NewUnauthorized(None)) == Some(401)
    ensures NewForbidden(None) == Forbidden("Forbidden") && StatusCode(NewForbidden(None)) == Some(403)
    ensures NewBadRequest(None) == BadRequest("Bad request") && StatusCode(NewBadRequest(None)) == Some(400)
    ensures NewConflict(None) == Conflict("Conflict") && StatusCode(NewConflict(None)) == Some(409)
  {
  }
}

=== FILE: inventory.dfy ===
/**
 * Stock arithmetic over lists of order lines: which products a list names, how much of each it
 * asks for, and the product table after every listed quantity is taken out of (or put back into)
 * stock.
 */
module Inventory {
  import opened Entities

  /** The distinct products a list of lines names. */
  function ProductIds(lines: seq<LineItem>): set<nat> {
    set i | 0 <= i < |lines| :: lines[i].productId
  }

  /**
   * The length of `findMany({ where: { id: { in: productIds } } })`: the number of distinct
   * listed products that exist.
   */
  function FoundCount(lines: seq<LineItem>, products: map<nat, Product>): nat {
    |ProductIds(lines) * products.Keys|
  }

  predicate AllFound(lines: seq<LineItem>, products: map<nat, Product>) {
    forall i :: 0 <= i < |lines| ==> lines[i].productId in products
  }

  /** No product is listed twice. */
  predicate Distinct(lines: seq<LineItem>) {
    forall i, j :: 0 <= i < j < |lines| ==> lines[i].productId != lines[j].productId
  }

  /**
   * The lines an order stores for `lines`: each product and quantity as requested, with the
   * product's price at this moment.
   */
  function Snapshot(lines: seq<LineItem>, products: map<nat, Product>): (items: seq<OrderItem>)
    requires AllFound(lines, products)
    ensures Lines(items) == lines
    ensures forall i :: 0 <= i < |items| ==> items[i].price == products[lines[i].productId].price
  {
    seq(|lines|, i requires 0 <= i < |lines| => OrderItem(lines[i].productId, lines[i].quantity, products[lines[i].productId].price))
  }

  /** The total quantity the lines ask for of product `k`. */
  function QtyOf(lines: seq<LineItem>, k: nat): nat {
    if lines == [] then 0
    else
      var last := lines[|lines| - 1];
      QtyOf(lines[..|lines| - 1], k) + (if last.productId == k then last.quantity else 0)
  }

  /** `q` with the sign of the adjustment: positive when restocking, negative when taking. */
  function Signed(q: int, restock: bool): int {
    if restock then q else -q
  }

  /**
   * The product table after each line's quantity is taken out of its product's stock, or put
   * back when `restock` holds. Only the stock of listed products changes.
   */
  function Adjusted(products: map<nat, Product>, lines: seq<LineItem>, restock: bool): (r: map<nat, Product>)
    requires AllFound(lines, products)
    ensures r.Keys == products.Keys
  {
    if lines == [] then products
    else
      var n := |lines| - 1;
      var front := Adjusted(products, lines[..n], restock);
      var last := lines[n];
      front[last.productId := front[last.productId].(stock := front[last.productId].stock + Signed(last.quantity, restock))]
  }

  /**
   * The adjustment, product by product: each product's stock moves by the total quantity the
   * lines name it with, and nothing else about any product changes.
   */
  lemma {:induction false} AdjustedStock(products: map<nat, Product>, lines: seq<LineItem>, restock: bool)
    requires AllFound(lines, products)
    ensures forall k :: k in products ==>
              Adjusted(products, lines, restock)[k] == products[k].(stock := products[k].stock + Signed(QtyOf(lines, k), restock))
  {
    if lines != [] {
      AdjustedStock(products, lines[..|lines| - 1], restock);
    }
  }

  /** One more line adjusts one more product, on top of the adjustment for the lines before it. */
  lemma AdjustedStep(products: map<nat, Product>, lines: seq<LineItem>, i: nat, restock: bool)
    requires AllFound(lines, products) && i < |lines|
    ensures AllFound(lines[..i], products) && AllFound(lines[..i + 1], products)
    ensures var front := Adjusted(products, lines[..i], restock);
            var line := lines[i];
            line.productId in front &&
            Adjusted(products, lines[..i + 1], restock) ==
              front[line.productId := front[line.productId].(stock := front[line.productId].stock + Signed(line.quantity, restock))]
  {
    assert lines[..i + 1][..i] == lines[..i];
  }

  /** Putting back what was taken out restores every product exactly. */
  lemma RestockUndoesDecrement(products: map<nat, Product>, lines: seq<LineItem>)
    requires AllFound(lines, products)
    ensures AllFound(lines, Adjusted(products, lines, false))
    ensures Adjusted(Adjusted(products, lines, false), lines, true) == products
  {
    var taken := Adjusted(products, lines, false);
    AdjustedStock(products, lines, false);
    var back := Adjusted(taken, lines, true);
    AdjustedStock(taken, lines, true);
    forall k | k in products
      ensures back[k] == products[k]
    {
      assert taken[k].stock == products[k].stock - QtyOf(lines, k);
    }
  }

  /** Appending a line adds its product to the listed set. */
  lemma ProductIdsSnoc(lines: seq<LineItem>)
    requires lines != []
    ensures ProductIds(lines) == ProductIds(lines[..|lines| - 1]) + {lines[|lines| - 1].productId}
  {
    var n := |lines| - 1;
    forall x | x in ProductIds(lines) ensures x in ProductIds(lines[..n]) + {lines[n].productId} {
      var i :| 0 <= i < |lines| && lines[i].productId == x;
      if i < n {
        assert lines[..n][i].productId == x;
      }
    }
    forall x | x in ProductIds(lines[..n]) ensures x in ProductIds(lines) {
      var i :| 0 <= i < n && lines[..n][i].productId == x;
      assert lines[i].productId == x;
    }
  }

  /** Appending a line keeps the list free of repeats exactly when its product is new. */
  lemma DistinctSnoc(lines: seq<LineItem>)
    requires lines != []
    ensures Distinct(lines) <==>
              Distinct(lines[..|lines| - 1]) && lines[|lines| - 1].productId !in ProductIds(lines[..|lines| - 1])
  {
    var n := |lines| - 1;
    var front := lines[..n];
    if lines[n].productId in ProductIds(front) {
      var i :| 0 <= i < n && front[i].productId == lines[n].productId;
      assert lines[i].productId == lines[n].productId;
    } else if !Distinct(front) {
      var i, j :| 0 <= i < j < n && front[i].productId == front[j].productId;
      assert lines[i].productId == lines[j].productId;
    } else {
      forall i, j | 0 <= i < j < |lines| ensures lines[i].productId != lines[j].productId {
        if j < n {
          assert front[i] == lines[i] && front[j] == lines[j];
        } else {
          assert front[i].productId in ProductIds(front);
        }
      }
    }
  }

  /** The set of listed products has one element per line exactly when no product repeats. */
  lemma {:induction false} ProductIdsSize(lines: seq<LineItem>)
    ensures |ProductIds(lines)| <= |lines|
    ensures |ProductIds(lines)| == |lines| <==> Distinct(lines)
  {
    if lines != [] {
      var n := |lines| - 1;
      ProductIdsSize(lines[..n]);
      ProductIdsSnoc(lines);
      DistinctSnoc(lines);
    }
  }

  /**
   * `products.length !== items.length` rejects an order exactly when a listed product is
   * missing or a product is listed twice.
   */
  lemma FoundCountIff(lines: seq<LineItem>, products: map<nat, Product>)
    ensures FoundCount(lines, products) <= |lines|
    ensures FoundCount(lines, products) == |lines| <==> AllFound(lines, products) && Distinct(lines)
  {
    var ids := ProductIds(lines);
    var found := ids * products.Keys;
    ProductIdsSize(lines);
    assert ids == found + (ids - products.Keys);
    assert |ids| == |found| + |ids - products.Keys|;
    if AllFound(lines, products) {
      assert ids - products.Keys == {};
    } else {
      var i :| 0 <= i < |lines| && lines[i].productId !in products;
      assert lines[i].productId in ids - products.Keys;
    }
  }

  /** With no product repeated, the quantity asked of a listed product is its line's. */
  lemma {:induction false} QtyOfDistinct(lines: seq<LineItem>, i: nat)
    requires Distinct(lines) && i < |lines|
    ensures QtyOf(lines, lines[i].productId) == lines[i].quantity
  {
    var n := |lines| - 1;
    if i < n {
      assert lines[..n][i] == lines[i];
      QtyOfDistinct(lines[..n], i);
    } else {
      QtyOfAbsent(lines[..n], lines[i].productId);
    }
  }

  /** Nothing is asked of a product no line names. */
  lemma {:induction false} QtyOfAbsent(lines: seq<LineItem>, k: nat)
    requires forall i :: 0 <= i < |lines| ==> lines[i].productId != k
    ensures QtyOf(lines, k) == 0
  {
    if lines != [] {
      QtyOfAbsent(lines[..|lines| - 1], k);
    }
  }

  /** A line list with no repeats, each line within stock, leaves no stock negative when taken. */
  lemma TakingAvailableStock(products: map<nat, Product>, lines: seq<LineItem>)
    requires AllFound(lines, products) && Distinct(lines)
    requires forall i :: 0 <= i < |lines| ==> lines[i].quantity <= products[lines[i].productId].stock
    requires forall k :: k in products ==> products[k].stock >= 0
    ensures forall k :: k in products ==> Adjusted(products, lines, false)[k].stock >= 0
  {
    AdjustedStock(products, lines, false);
    forall k | k in products
      ensures Adjusted(products, lines, false)[k].stock >= 0
    {
      if i :| 0 <= i < |lines| && lines[i].productId == k {
        QtyOfDistinct(lines, i);
      } else {
        QtyOfAbsent(lines, k);
      }
    }
  }
}

=== FILE: listing.dfy ===
/**
 * The product listings of product.service.ts and category.service.ts: the rows a `where` keeps,
 * put in the order `orderBy` asks for, then paged. The database's ordering is modelled as a sort
 * by the chosen key; rows with equal keys, whose order the database leaves open, come out in a
 * fixed order of the model's choosing.
 */
module Listing {
  import opened Tables
  import opened Entities
  import opened Paging

  /**
   * The `orderBy` the listings choose between: the four of the product listings, ascending stock
   * for the low-stock lists, and descending by a per-row key computed elsewhere (units sold).
   */
  datatype ProductOrder = NewestFirst | PriceAscending | PriceDescending | NameAscending | StockAscending | KeyDescending(key: map<nat, int>)

  /** The `sortBy` query value mapped to an ordering: three names are recognised, anything else is newest first. */
  function OrderBy(sortBy: string): (o: ProductOrder)
    ensures o == PriceAscending <==> sortBy == "price_asc"
    ensures o == PriceDescending <==> sortBy == "price_desc"
    ensures o == NameAscending <==> sortBy == "name"
    ensures o == NewestFirst <==> sortBy != "price_asc" && sortBy != "price_desc" && sortBy != "name"
  {
    if sortBy == "price_asc" then PriceAscending
    else if sortBy == "price_desc" then PriceDescending
    else if sortBy == "name" then NameAscending
    else NewestFirst
  }

  function PriceOf(products: map<nat, Product>, k: nat): int {
    if k in products then products[k].price else 0
  }

  function NameOf(products: map<nat, Product>, k: nat): string {
    if k in products then products[k].name else ""
  }

  function StockOf(products: map<nat, Product>, k: nat): int {
    if k in products then products[k].stock else 0
  }

  function KeyOf(key: map<nat, int>, k: nat): int {
    if k in key then key[k] else 0
  }

  /** Lexicographic order on strings by character code. */
  predicate LexLe(a: string, b: string) {
    a == [] || (b != [] && (a[0] < b[0] || (a[0] == b[0] && LexLe(a[1..], b[1..]))))
  }

  lemma {:induction false} LexTotal(a: string, b: string)
    ensures LexLe(a, b) || LexLe(b, a)
  {
    if a != [] && b != [] && a[0] == b[0] {
      LexTotal(a[1..], b[1..]);
    }
  }

  lemma {:induction false} LexTransitive(a: string, b: string, c: string)
    requires LexLe(a, b) && LexLe(b, c)
    ensures LexLe(a, c)
  {
    if a != [] && b != [] && c != [] && a[0] == b[0] && b[0] == c[0] {
      LexTransitive(a[1..], b[1..], c[1..]);
    }
  }

  /** Row `a` may be listed before row `b` under `order`; newest first is descending id, that is descending creation. */
  predicate Before(products: map<nat, Product>, order: ProductOrder, a: nat, b: nat) {
    match order
    case NewestFirst => a >= b
    case PriceAscending => PriceOf(products, a) <= PriceOf(products, b)
    case PriceDescending => PriceOf(products, a) >= PriceOf(products, b)
    case NameAscending => LexLe(NameOf(products, a), NameOf(products, b))
    case StockAscending => StockOf(products, a) <= StockOf(products, b)
    case KeyDescending(key) => KeyOf(key, a) >= KeyOf(key, b)
  }

  lemma BeforeTotal(products: map<nat, Product>, order: ProductOrder, a: nat, b: nat)
    ensures Before(products, order, a, b) || Before(products, order, b, a)
  {
    if order == NameAscending {
      LexTotal(NameOf(products, a), NameOf(products, b));
    }
  }

  lemma BeforeTransitive(products: map<nat, Product>, order: ProductOrder, a: nat, b: nat, c: nat)
    requires Before(products, order, a, b) && Before(products, order, b, c)
    ensures Before(products, order, a, c)
  {
    if order == NameAscending {
      LexTransitive(NameOf(products, a), NameOf(products, b), NameOf(products, c));
    }
  }

  /** Every row is listed before every later one. */
  ghost predicate Sorted(products: map<nat, Product>, order: ProductOrder, s: seq<nat>) {
    forall i, j :: 0 <= i < j < |s| ==> Before(products, order, s[i], s[j])
  }

  /** `x` placed in front of the first row it may precede. */
  function Insert(products: map<nat, Product>, order: ProductOrder, x: nat, s: seq<nat>): (r: seq<nat>)
    ensures multiset(r) == multiset(s) + multiset{x}
  {
    if s == [] then [x]
    else if Before(products, order, x, s[0]) then [x] + s
    else
      assert s == [s[0]] + s[1..];
      [s[0]] + Insert(products, order, x, s[1..])
  }

  /** The rows `ids` in the order `order` asks for: the same rows, each as often. */
  function Ordered(products: map<nat, Product>, ids: seq<nat>, order: ProductOrder): (r: seq<nat>)
    ensures multiset(r) == multiset(ids)
    ensures |r| == |ids|
  {
    if ids == [] then []
    else
      assert ids == [ids[0]] + ids[1..];
      Insert(products, order, ids[0], Ordered(products, ids[1..], order))
  }

  /** The first row of a sorted listing may precede every other row. */
  lemma SortedFirst(products: map<nat, Product>, order: ProductOrder, s: seq<nat>)
    requires Sorted(products, order, s) && s != []
    ensures forall y :: y in s[1..] ==> Before(products, order, s[0], y)
  {
    forall y | y in s[1..]
      ensures Before(products, order, s[0], y)
    {
      var m :| 0 <= m < |s[1..]| && s[1..][m] == y;
      assert s[m + 1] == y;
    }
  }

  /** Inserting into a sorted listing keeps it sorted. */
  lemma {:induction false} InsertSorted(products: map<nat, Product>, order: ProductOrder, x: nat, s: seq<nat>)
    requires Sorted(products, order, s)
    ensures Sorted(products, order, Insert(products, order, x, s))
  {
    if s == [] {
    } else if Before(products, order, x, s[0]) {
      FrontSorted(products, order, x, s);
    } else {
      InsertSorted(products, order, x, s[1..]);
      BeforeTotal(products, order, x, s[0]);
      BehindSorted(products, order, x, s);
    }
  }

  /** A row that may precede the first row of a sorted listing may go in front of it. */
  lemma FrontSorted(products: map<nat, Product>, order: ProductOrder, x: nat, s: seq<nat>)
    requires Sorted(products, order, s) && s != [] && Before(products, order, x, s[0])
    ensures Sorted(products, order, [x] + s)
  {
    var r := [x] + s;
    forall i, j | 0 <= i < j < |r|
      ensures Before(products, order, r[i], r[j])
    {
      if i == 0 && j > 1 {
        BeforeTransitive(products, order, x, s[0], s[j - 1]);
      }
    }
  }

  /** The first row of a sorted listing stays in front of the sorted insertion into the rest, when it precedes `x`. */
  lemma BehindSorted(products: map<nat, Product>, order: ProductOrder, x: nat, s: seq<nat>)
    requires Sorted(products, order, s) && s != [] && Before(products, order, s[0], x)
    requires Sorted(products, order, Insert(products, order, x, s[1..]))
    ensures Sorted(products, order, [s[0]] + Insert(products, order, x, s[1..]))
  {
    FirstBeforeInserted(products, order, x, s);
    ConsSorted(products, order, s[0], Insert(products, order, x, s[1..]));
  }

  /** A row that may precede every row of a sorted listing may go in front of it. */
  lemma ConsSorted(products: map<nat, Product>, order: ProductOrder, a: nat, t: seq<nat>)
    requires Sorted(products, order, t)
    requires forall i :: 0 <= i < |t| ==> Before(products, order, a, t[i])
    ensures Sorted(products, order, [a] + t)
  {
    var r := [a] + t;
    forall i, j | 0 <= i < j < |r|
      ensures Before(products, order, r[i], r[j])
    {
      if i == 0 {
        assert r[j] == t[j - 1];
      } else {
        assert r[i] == t[i - 1] && r[j] == t[j - 1];
      }
    }
  }

  /** The first row of a sorted listing may precede every row of the insertion of `x` into the rest, when it may precede `x`. */
  lemma FirstBeforeInserted(products: map<nat, Product>, order: ProductOrder, x: nat, s: seq<nat>)
    requires Sorted(products, order, s) && s != [] && Before(products, order, s[0], x)
    ensures forall i :: 0 <= i < |Insert(products, order, x, s[1..])| ==> Before(products, order, s[0], Insert(products, order, x, s[1..])[i])
  {
    SortedFirst(products, order, s);
    var tail := Insert(products, order, x, s[1..]);
    forall i | 0 <= i < |tail|
      ensures Before(products, order, s[0], tail[i])
    {
      assert tail[i] in multiset(tail);
      assert tail[i] in multiset(s[1..]) + multiset{x};
    }
  }

  /** The ordered listing is sorted. */
  lemma {:induction false} OrderedSorted(products: map<nat, Product>, ids: seq<nat>, order: ProductOrder)
    ensures Sorted(products, order, Ordered(products, ids, order))
  {
    if ids != [] {
      OrderedSorted(products, ids[1..], order);
      InsertSorted(products, order, ids[0], Ordered(products, ids[1..], order));
    }
  }

  /**
   * A listing query: the rows below `n` that satisfy `keep`, in the order `order`, page `page` of
   * `limit` rows; `total` counts every kept row.
   */
  function Listed(products: map<nat, Product>, keep: Product -> bool, order: ProductOrder, page: nat, limit: nat, n: nat): (r: IdPage)
    requires page >= 1 && limit >= 1
    ensures var rows := Select(products, keep, n);
            r.total == |rows| && r.totalPages == TotalPages(|rows|, limit) && r.page == page && r.limit == limit &&
            r.ids == Page(Ordered(products, rows, order), page, limit)
    ensures forall i :: 0 <= i < |r.ids| ==> r.ids[i] in products && keep(products[r.ids[i]])
  {
    var rows := Select(products, keep, n);
    var ordered := Ordered(products, rows, order);
    var ids := Page(ordered, page, limit);
    assert forall i :: 0 <= i < |ids| ==> ids[i] in multiset(ordered);
    IdPage(ids, page, limit, |rows|, TotalPages(|rows|, limit))
  }
}

=== FILE: orders.dfy ===
/**
 * The order service: placing an order checks the shipping address, the listed products and their
 * stock before anything is written, then records the order with each line's price at that moment
 * and takes the ordered quantities out of stock. Cancelling a pending order puts the quantities
 * back and fails its payment. The status overwrite used by the admin is unguarded.
 */
module Orders {
  import opened Wrappers
  import opened Errors
  import opened Text
  import opened Tables
  import opened Entities
  import opened Inventory
  import opened Store
  import Carts

  /** Seven days in milliseconds: the delivery estimate set when an order ships. */
  const DELIVERY_DAYS_MS := 7 * 24 * 60 * 60 * 1000

  /** `address.findFirst({ where: { id, user_id } })` finds a row. */
  predicate AddressOfUser(addresses: map<nat, Address>, userId: nat, addressId: nat) {
    addressId in addresses && addresses[addressId].userId == userId
  }

  /** The first listed line whose product holds less than the line asks for. */
  function FirstShort(lines: seq<LineItem>, products: map<nat, Product>): (r: Option<nat>)
    ensures r.Some? ==> r.value < |lines| && lines[r.value].productId in products &&
                        products[lines[r.value].productId].stock < lines[r.value].quantity
    ensures r.Some? ==> forall j :: 0 <= j < r.value && lines[j].productId in products ==>
                          lines[j].quantity <= products[lines[j].productId].stock
    ensures r.None? ==> forall j :: 0 <= j < |lines| && lines[j].productId in products ==>
                          lines[j].quantity <= products[lines[j].productId].stock
  {
    if lines == [] then None
    else
      var n := |lines| - 1;
      var front := FirstShort(lines[..n], products);
      if front.Some? then front
      else if lines[n].productId in products && products[lines[n].productId].stock < lines[n].quantity then Some(n)
      else None
  }

  function InsufficientMessage(product: Product, requested: nat): string {
    "Insufficient stock for " + product.name + ". Available: " + IntToString(product.stock) +
    ", Requested: " + NatToString(requested)
  }

  /**
   * `createOrder`'s checks, in order: the shipping address, when given, must be the user's; every
   * listed product must be found, once each; and the first line asking for more than its
   * product's stock is reported.
   */
  function OrderRejection(
    addresses: map<nat, Address>, products: map<nat, Product>,
    userId: nat, lines: seq<LineItem>, shippingAddressId: Option<nat>): Option<AppError>
  {
    if shippingAddressId.Some? && !AddressOfUser(addresses, userId, shippingAddressId.value) then
      Some(NotFound("Invalid shipping address"))
    else if FoundCount(lines, products) != |lines| then Some(NotFound("Some products not found"))
    else
      match FirstShort(lines, products)
      case Some(i) => Some(BadRequest(InsufficientMessage(products[lines[i].productId], lines[i].quantity)))
      case None => None
  }

  /** The order `createOrder` stores: PENDING, with each line's current price and their total. */
  function NewOrder(userId: nat, lines: seq<LineItem>, products: map<nat, Product>, shippingAddressId: Option<nat>): (o: Order)
    requires AllFound(lines, products)
  {
    var items := Snapshot(lines, products);
    Order(userId, items, OrderTotal(items), Pending, shippingAddressId, None, None)
  }

  /**
   * An accepted order lists only existing products, each once and within its stock; the order
   * records exactly the requested lines and its total is the sum of their line totals.
   */
  lemma AcceptedOrder(
    addresses: map<nat, Address>, products: map<nat, Product>,
    userId: nat, lines: seq<LineItem>, shippingAddressId: Option<nat>)
    requires OrderRejection(addresses, products, userId, lines, shippingAddressId).None?
    ensures AllFound(lines, products) && Distinct(lines)
    ensures forall i :: 0 <= i < |lines| ==> lines[i].quantity <= products[lines[i].productId].stock
    ensures var o := NewOrder(userId, lines, products, shippingAddressId);
            o.status == Pending && Lines(o.items) == lines && o.total == OrderTotal(o.items) &&
            forall i :: 0 <= i < |o.items| ==> o.items[i].price == products[lines[i].productId].price
  {
    FoundCountIff(lines, products);
  }

  /** Listing a product twice is refused, even when every product exists and has stock. */
  lemma DuplicateRefused(
    addresses: map<nat, Address>, products: map<nat, Product>,
    userId: nat, lines: seq<LineItem>, shippingAddressId: Option<nat>, i: nat, j: nat)
    requires shippingAddressId.Some? ==> AddressOfUser(addresses, userId, shippingAddressId.value)
    requires i < j < |lines| && lines[i].productId == lines[j].productId
    ensures OrderRejection(addresses, products, userId, lines, shippingAddressId) == Some(NotFound("Some products not found"))
  {
    FoundCountIff(lines, products);
  }

  /**
   * The stock loops of `createOrder` (taking, `decrement`) and `cancelOrder` (putting back,
   * `increment`): each line's quantity, in turn, on its product's stock. The loop runs inside the
   * operation's transaction, whose writes the operation commits together.
   */
  method StockLoop(products: map<nat, Product>, lines: seq<LineItem>, restock: bool) returns (after: map<nat, Product>)
    requires AllFound(lines, products)
    ensures after == Adjusted(products, lines, restock)
  {
    after := products;
    assert lines[..0] == [];
    for i := 0 to |lines|
      invariant AllFound(lines[..i], products)
      invariant after == Adjusted(products, lines[..i], restock)
    {
      AdjustedStep(products, lines, i, restock);
      var line := lines[i];
      var product := after[line.productId];
      after := after[line.productId := product.(stock := product.stock + Signed(line.quantity, restock))];
    }
    assert lines[..|lines|] == lines;
  }

  /**
   * A stock adjustment keeps every rule that reads the product table. Putting stock back always
   * does; taking it needs each product listed once and within its stock, so that no stock goes
   * negative.
   */
  lemma AdjustedKeepsRules(d: Data, lines: seq<LineItem>, restock: bool)
    requires AllFound(lines, d.products)
    requires d.CatalogValid() && d.CartsValid() && d.OrdersValid()
    requires !restock ==> Distinct(lines) &&
                          forall i :: 0 <= i < |lines| ==> lines[i].quantity <= d.products[lines[i].productId].stock
    ensures var after := d.(products := Adjusted(d.products, lines, restock));
            after.CatalogValid() && after.CartsValid() && after.OrdersValid()
  {
    if !restock {
      TakingAvailableStock(d.products, lines);
    }
    AdjustedStock(d.products, lines, restock);
    var after := Adjusted(d.products, lines, restock);
    forall a, b | a in after && b in after && ProductSlug(after, a) == ProductSlug(after, b)
      ensures a == b
    {
      assert ProductSlug(d.products, a) == ProductSlug(d.products, b);
    }
  }

  /**
   * Recording an order under the next order id, for existing products and with its total, keeps
   * the order and payment rules.
   */
  lemma InsertKeepsRules(d: Data, order: Order)
    requires d.OrdersValid() && d.PaymentsValid()
    requires order.total == OrderTotal(order.items)
    requires forall i :: 0 <= i < |order.items| ==> order.items[i].productId in d.products
    ensures var after := d.(orders := d.orders[d.nextOrderId := order], nextOrderId := d.nextOrderId + 1);
            after.OrdersValid() && after.PaymentsValid()
  {
    forall k | k in d.payments
      ensures d.payments[k].orderId != d.nextOrderId
    {
      assert d.payments[k].orderId in d.orders;
    }
  }

  /** A new status for an order keeps its lines and total, and with them the order and payment rules. */
  lemma StatusKeepsRules(d: Data, orderId: nat, status: OrderStatus)
    requires d.OrdersValid() && d.PaymentsValid() && orderId in d.orders
    ensures var after := d.(orders := d.orders[orderId := d.orders[orderId].(status := status)]);
            after.OrdersValid() && after.PaymentsValid()
  {
  }

  /** A new status for a payment keeps its order and amount, and with them the payment rules. */
  lemma PaymentStatusKeepsRules(d: Data, paymentId: nat, status: PaymentStatus)
    requires d.PaymentsValid() && paymentId in d.payments
    ensures d.(payments := d.payments[paymentId := d.payments[paymentId].(status := status)]).PaymentsValid()
  {
    var after := d.payments[paymentId := d.payments[paymentId].(status := status)];
    forall a, b | a in after && b in after && PaidOrder(after, a) == PaidOrder(after, b)
      ensures a == b
    {
      assert PaidOrder(d.payments, a) == PaidOrder(d.payments, b);
    }
  }

  /** The order lines of a new order, with their total: the validation pass of `createOrder`. */
  method PriceLines(products: map<nat, Product>, lines: seq<LineItem>) returns (r: Result<(seq<OrderItem>, int), AppError>)
    requires AllFound(lines, products)
    ensures FirstShort(lines, products).Some? ==>
              var i := FirstShort(lines, products).value;
              r == Err(BadRequest(InsufficientMessage(products[lines[i].productId], lines[i].quantity)))
    ensures FirstShort(lines, products).None? ==>
              r.Ok? && r.value.0 == Snapshot(lines, products) && r.value.1 == OrderTotal(r.value.0)
  {
    var totalAmount := 0;
    var items: seq<OrderItem> := [];
    for i := 0 to |lines|
      invariant items == Snapshot(lines[..i], products)
      invariant totalAmount == OrderTotal(items)
      invariant FirstShort(lines[..i], products).None?
    {
      var line := lines[i];
      var product := products[line.productId];
      assert lines[..i + 1][..i] == lines[..i];
      if product.stock < line.quantity {
        assert FirstShort(lines[..i + 1], products) == Some(i);
        FirstShortPrefix(lines, products, i + 1);
        return Err(BadRequest(InsufficientMessage(product, line.quantity)));
      }
      var item := OrderItem(line.productId, line.quantity, product.price);
      assert (items + [item])[..|items|] == items;
      totalAmount := totalAmount + product.price * line.quantity;
      items := items + [item];
    }
    assert lines[..|lines|] == lines;
    r := Ok((items, totalAmount));
  }

  /** The first short line of a prefix that has one is the first short line of the whole list. */
  lemma {:induction false} FirstShortPrefix(lines: seq<LineItem>, products: map<nat, Product>, k: nat)
    requires k <= |lines| && FirstShort(lines[..k], products).Some?
    ensures FirstShort(lines, products) == FirstShort(lines[..k], products)
    decreases |lines| - k
  {
    if k < |lines| {
      assert lines[..k + 1][..k] == lines[..k];
      FirstShortPrefix(lines, products, k + 1);
    } else {
      assert lines[..k] == lines;
    }
  }

  /**
   * `createOrder`: on success the order is stored under a new id and every ordered quantity is
   * taken out of its product's stock; every failure happens before any write.
   */
  method CreateOrder(db: Db, userId: nat, lines: seq<LineItem>, shippingAddressId: Option<nat>) returns (r: Result<nat, AppError>)
    requires db.data.CatalogValid() && db.data.CartsValid() && db.data.OrdersValid() && db.data.PaymentsValid()
    modifies db
    ensures db.data.CatalogValid() && db.data.CartsValid() && db.data.OrdersValid() && db.data.PaymentsValid()
    ensures var d := old(db.data);
            var rejection := OrderRejection(d.addresses, d.products, userId, lines, shippingAddressId);
            (r.Err? <==> rejection.Some?) && (r.Err? ==> r.error == rejection.value && db.data == d)
    ensures var d := old(db.data);
            r.Ok? ==> AllFound(lines, d.products) && r.value == d.nextOrderId && db.data == AfterOrder(d, userId, lines, shippingAddressId)
  {
    var d := db.data;
    var priced := ValidateOrder(d.addresses, d.products, userId, lines, shippingAddressId);
    if priced.Err? {
      return Err(priced.error);
    }
    var (items, totalAmount) := priced.value;
    var order := Order(userId, items, totalAmount, Pending, shippingAddressId, None, None);
    var orderId := d.nextOrderId;
    var products := StockLoop(d.products, lines, false);
    InsertKeepsRules(d, order);
    var placed := d.(orders := d.orders[orderId := order], nextOrderId := orderId + 1);
    AdjustedKeepsRules(placed, lines, false);
    db.data := placed.(products := products);
    r := Ok(orderId);
  }

  /**
   * The database after an order is placed: the order stored under the next order id and its
   * quantities taken out of stock.
   */
  function AfterOrder(d: Data, userId: nat, lines: seq<LineItem>, shippingAddressId: Option<nat>): (after: Data)
    requires AllFound(lines, d.products)
    ensures after.orders == d.orders[d.nextOrderId := NewOrder(userId, lines, d.products, shippingAddressId)]
    ensures after.nextOrderId == d.nextOrderId + 1
    ensures after.products == Adjusted(d.products, lines, false)
  {
    d.(orders := d.orders[d.nextOrderId := NewOrder(userId, lines, d.products, shippingAddressId)],
       nextOrderId := d.nextOrderId + 1,
       products := Adjusted(d.products, lines, false))
  }

  /**
   * The checks of `createOrder`, before anything is written: the order lines with their total,
   * or the error the first failing check reports.
   */
  method ValidateOrder(
    addresses: map<nat, Address>, products: map<nat, Product>,
    userId: nat, lines: seq<LineItem>, shippingAddressId: Option<nat>) returns (r: Result<(seq<OrderItem>, int), AppError>)
    ensures var rejection := OrderRejection(addresses, products, userId, lines, shippingAddressId);
            (r.Err? <==> rejection.Some?) && (r.Err? ==> r.error == rejection.value)
    ensures r.Ok? ==> AllFound(lines, products) && Distinct(lines) &&
                      (forall i :: 0 <= i < |lines| ==> lines[i].quantity <= products[lines[i].productId].stock) &&
                      r.value.0 == Snapshot(lines, products) && r.value.1 == OrderTotal(r.value.0)
  {
    if shippingAddressId.Some? && !AddressOfUser(addresses, userId, shippingAddressId.value) {
      return Err(NotFound("Invalid shipping address"));
    }
    var found := ProductIds(lines) * products.Keys;
    if |found| != |lines| {
      return Err(NotFound("Some products not found"));
    }
    FoundCountIff(lines, products);
    r := PriceLines(products, lines);
  }

  /**
   * `createOrderFromCart`: an order for the lines of the user's cart, whose items are deleted
   * only once the order has been placed.
   */
  method CreateOrderFromCart(db: Db, userId: nat, shippingAddressId: Option<nat>) returns (r: Result<nat, AppError>)
    requires db.data.CatalogValid() && db.data.CartsValid() && db.data.OrdersValid() && db.data.PaymentsValid()
    modifies db
    ensures db.data.CatalogValid() && db.data.CartsValid() && db.data.OrdersValid() && db.data.PaymentsValid()
    ensures var d := old(db.data);
            var cart := Carts.CartOf(d.carts, userId, d.nextCartId);
            var lines := if cart.Some? then Carts.CartLines(d.cartItems, cart.value, d.nextCartItemId) else [];
            (lines == [] ==> r == Err(BadRequest("Cart is empty")) && db.data == d) &&
            (lines != [] ==>
               var rejection := OrderRejection(d.addresses, d.products, userId, lines, shippingAddressId);
               (r.Err? <==> rejection.Some?) &&
               (r.Err? ==> r.error == rejection.value && db.data == d) &&
               (r.Ok? ==> AllFound(lines, d.products) && r.value == d.nextOrderId &&
                          db.data == AfterOrder(d, userId, lines, shippingAddressId).(cartItems := Carts.WithoutCart(d.cartItems, cart.value))))
  {
    var d := db.data;
    var cart := Carts.CartOf(d.carts, userId, d.nextCartId);
    var lines := if cart.Some? then Carts.CartLines(d.cartItems, cart.value, d.nextCartItemId) else [];
    if |lines| == 0 {
      return Err(BadRequest("Cart is empty"));
    }
    r := CreateOrder(db, userId, lines, shippingAddressId);
    if r.Ok? {
      var placed := db.data;
      Carts.WithoutCartKeepsRules(placed.carts, placed.cartItems, placed.products, placed.nextCartId, placed.nextCartItemId, cart.value);
      db.data := placed.(cartItems := Carts.WithoutCart(placed.cartItems, cart.value));
    }
  }

  /** `order.payment`: the payment of an order, among the ids below `n`. */
  function PaymentOf(payments: map<nat, Payment>, orderId: nat, n: nat): (r: Option<nat>)
    ensures r.Some? ==> r.value in payments && r.value < n && payments[r.value].orderId == orderId
    ensures r.None? ==> forall k :: k in payments && k < n ==> payments[k].orderId != orderId
  {
    First(payments, ForOrder(orderId), n)
  }

  /** The payments of the order. */
  function ForOrder(orderId: nat): Payment -> bool {
    (p: Payment) => p.orderId == orderId
  }

  /** `getOrderById`: the user's order; a foreign order is refused as unauthorized. */
  function GetOrderById(orders: map<nat, Order>, userId: nat, orderId: nat): (r: Result<Order, AppError>)
    ensures r.Ok? <==> orderId in orders && orders[orderId].userId == userId
    ensures r.Ok? ==> r.value == orders[orderId]
    ensures orderId !in orders ==> r == Err(NotFound("Order not found"))
    ensures orderId in orders && orders[orderId].userId != userId ==> r == Err(Unauthorized("Unauthorized"))
  {
    if orderId !in orders then Err(NotFound("Order not found"))
    else if orders[orderId].userId != userId then Err(Unauthorized("Unauthorized"))
    else Ok(orders[orderId])
  }

  /** `getMyOrders`: the ids of the user's orders, newest first. */
  function MyOrders(orders: map<nat, Order>, userId: nat, n: nat): (ids: seq<nat>)
    ensures forall i :: 0 <= i < |ids| ==> ids[i] in orders && orders[ids[i]].userId == userId
    ensures forall k :: k in orders && k < n && orders[k].userId == userId ==> k in ids
    ensures forall i, j :: 0 <= i < j < |ids| ==> ids[i] > ids[j]
  {
    Reverse(Select(orders, (o: Order) => o.userId == userId, n))
  }

  /** `cancelOrder`'s checks, in order. */
  function CancelRejection(orders: map<nat, Order>, userId: nat, orderId: nat): Option<AppError> {
    if orderId !in orders then Some(NotFound("Order not found"))
    else if orders[orderId].userId != userId then Some(Unauthorized("Unauthorized"))
    else
      match orders[orderId].status
      case Paid | Processing | Shipped | Delivered =>
        Some(BadRequest("Cannot cancel orders that are paid, processing, shipped, or delivered"))
      case Cancelled => Some(BadRequest("Order is already cancelled"))
      case Pending => None
  }

  /** Only the owner's pending orders can be cancelled. */
  lemma CancelOnlyPending(orders: map<nat, Order>, userId: nat, orderId: nat)
    ensures CancelRejection(orders, userId, orderId).None? <==>
            orderId in orders && orders[orderId].userId == userId && orders[orderId].status == Pending
  {
  }

  /**
   * `cancelOrder`: marks the owner's pending order CANCELLED, puts every line's quantity back in
   * stock and marks the order's payment, if any, FAILED.
   */
  method CancelOrder(db: Db, userId: nat, orderId: nat) returns (r: Result<string, AppError>)
    requires db.data.CatalogValid() && db.data.CartsValid() && db.data.OrdersValid() && db.data.PaymentsValid()
    modifies db
    ensures db.data.CatalogValid() && db.data.CartsValid() && db.data.OrdersValid() && db.data.PaymentsValid()
    ensures var d := old(db.data);
            var rejection := CancelRejection(d.orders, userId, orderId);
            (r.Err? <==> rejection.Some?) && (r.Err? ==> r.error == rejection.value && db.data == d)
    ensures var d := old(db.data);
            r.Ok? ==> r.value == "Order cancelled successfully" && orderId in d.orders &&
                      AllFound(Lines(d.orders[orderId].items), d.products) &&
                      db.data == AfterCancel(d, orderId)
  {
    var rejection := CancelRejection(db.data.orders, userId, orderId);
    if rejection.Some? {
      return Err(rejection.value);
    }
    CancelPending(db, orderId);
    r := Ok("Order cancelled successfully");
  }

  /**
   * The database after an order is cancelled: the order CANCELLED, its quantities back in stock
   * and its payment, if any, FAILED.
   */
  function AfterCancel(d: Data, orderId: nat): (after: Data)
    requires orderId in d.orders && AllFound(Lines(d.orders[orderId].items), d.products)
    ensures after.orders == d.orders[orderId := d.orders[orderId].(status := Cancelled)]
    ensures after.products == Adjusted(d.products, Lines(d.orders[orderId].items), true)
    ensures var payment := PaymentOf(d.payments, orderId, d.nextPaymentId);
            (payment.None? ==> after.payments == d.payments) &&
            (payment.Some? ==> after.payments == d.payments[payment.value := d.payments[payment.value].(status := PaymentFailed)])
  {
    var payment := PaymentOf(d.payments, orderId, d.nextPaymentId);
    d.(orders := d.orders[orderId := d.orders[orderId].(status := Cancelled)],
       products := Adjusted(d.products, Lines(d.orders[orderId].items), true),
       payments := if payment.Some? then d.payments[payment.value := d.payments[payment.value].(status := PaymentFailed)] else d.payments)
  }

  /** The writes of `cancelOrder`, once its checks have passed. */
  method CancelPending(db: Db, orderId: nat)
    requires db.data.CatalogValid() && db.data.CartsValid() && db.data.OrdersValid() && db.data.PaymentsValid()
    requires orderId in db.data.orders
    modifies db
    ensures db.data.CatalogValid() && db.data.CartsValid() && db.data.OrdersValid() && db.data.PaymentsValid()
    ensures AllFound(Lines(old(db.data).orders[orderId].items), old(db.data).products)
    ensures db.data == AfterCancel(old(db.data), orderId)
  {
    var d := db.data;
    var order := d.orders[orderId];
    var payment := PaymentOf(d.payments, orderId, d.nextPaymentId);
    var lines := Lines(order.items);
    var products := StockLoop(d.products, lines, true);
    StatusKeepsRules(d, orderId, Cancelled);
    var marked := d.(orders := d.orders[orderId := order.(status := Cancelled)]);
    AdjustedKeepsRules(marked, lines, true);
    var restocked := marked.(products := products);
    if payment.Some? {
      PaymentStatusKeepsRules(restocked, payment.value, PaymentFailed);
      db.data := restocked.(payments := d.payments[payment.value := d.payments[payment.value].(status := PaymentFailed)]);
    } else {
      db.data := restocked;
    }
  }

  /**
   * The order after `updateOrderStatus(status, trackingNumber)` at time `now`: a given status
   * overwrites the old one whatever it was, and a missing one (`{ status: undefined }`) leaves it;
   * the tracking number changes only when a non-empty one is given, and the delivery estimate is
   * set a week ahead only on shipping an order that has none.
   */
  function StatusUpdate(order: Order, status: Option<OrderStatus>, trackingNumber: Option<string>, now: int): (o: Order)
    ensures status.Some? ==> o.status == status.value
    ensures status.None? ==> o.status == order.status
    ensures o.userId == order.userId && o.items == order.items && o.total == order.total
    ensures o.shippingAddressId == order.shippingAddressId
    ensures o.trackingNumber == (if trackingNumber.Some? && trackingNumber.value != "" then trackingNumber else order.trackingNumber)
    ensures order.estimatedDelivery.Some? ==> o.estimatedDelivery == order.estimatedDelivery
    ensures order.estimatedDelivery.None? ==>
              o.estimatedDelivery == (if status == Some(Shipped) then Some(now + DELIVERY_DAYS_MS) else None)
  {
    var tracked := if trackingNumber.Some? && trackingNumber.value != "" then order.(trackingNumber := trackingNumber) else order;
    var estimated :=
      if status == Some(Shipped) && order.estimatedDelivery.None? then tracked.(estimatedDelivery := Some(now + DELIVERY_DAYS_MS))
      else tracked;
    if status.Some? then estimated.(status := status.value) else estimated
  }

  /** A delivery estimate, once set, survives every later status update. */
  lemma {:induction false} EstimateNeverOverwritten(order: Order, updates: seq<(Option<OrderStatus>, Option<string>, int)>)
    requires order.estimatedDelivery.Some?
    ensures ApplyUpdates(order, updates).estimatedDelivery == order.estimatedDelivery
    decreases |updates|
  {
    if updates != [] {
      var u := updates[0];
      EstimateNeverOverwritten(StatusUpdate(order, u.0, u.1, u.2), updates[1..]);
    }
  }

  function ApplyUpdates(order: Order, updates: seq<(Option<OrderStatus>, Option<string>, int)>): Order
    decreases |updates|
  {
    if updates == [] then order
    else ApplyUpdates(StatusUpdate(order, updates[0].0, updates[0].1, updates[0].2), updates[1..])
  }

  /**
   * `updateOrderStatus` (order service and admin service alike): NotFound for a missing order,
   * otherwise the order is replaced by its status update and nothing else changes.
   */
  method UpdateOrderStatus(db: Db, orderId: nat, status: Option<OrderStatus>, trackingNumber: Option<string>, now: int) returns (r: Result<Order, AppError>)
    requires db.data.OrdersValid() && db.data.PaymentsValid()
    modifies db
    ensures db.data.OrdersValid() && db.data.PaymentsValid()
    ensures var d := old(db.data);
            (orderId !in d.orders ==> r == Err(NotFound("Order not found")) && db.data == d) &&
            (orderId in d.orders ==> r == Ok(StatusUpdate(d.orders[orderId], status, trackingNumber, now)) &&
                                     db.data == d.(orders := d.orders[orderId := r.value]))
  {
    var d := db.data;
    if orderId !in d.orders {
      return Err(NotFound("Order not found"));
    }
    var updated := StatusUpdate(d.orders[orderId], status, trackingNumber, now);
    db.data := d.(orders := d.orders[orderId := updated]);
    r := Ok(updated);
  }

  /**
   * Placing an order and then cancelling it restores every product's stock exactly, whatever the
   * order listed.
   */
  method OrderThenCancel(db: Db, userId: nat, lines: seq<LineItem>, shippingAddressId: Option<nat>)
    returns (placed: Result<nat, AppError>, cancelled: Result<string, AppError>)
    requires db.data.CatalogValid() && db.data.CartsValid() && db.data.OrdersValid() && db.data.PaymentsValid()
    modifies db
    ensures db.data.CatalogValid() && db.data.CartsValid() && db.data.OrdersValid() && db.data.PaymentsValid()
    ensures placed.Ok? ==> cancelled.Ok? && db.data.products == old(db.data).products
    ensures placed.Ok? ==> placed.value in db.data.orders && db.data.orders[placed.value].status == Cancelled
  {
    placed := CreateOrder(db, userId, lines, shippingAddressId);
    if placed.Err? {
      return placed, Err(placed.error);
    }
    cancelled := CancelOrder(db, userId, placed.value);
    RestockUndoesDecrement(old(db.data).products, lines);
  }
}

=== FILE: paging.dfy ===
/**
 * Offset pagination as the listing services compute it: page `page` (counted from 1) of `limit`
 * rows starts `skip = (page - 1) * limit` rows in, and a listing of `total` rows has
 * `totalPages = ceil(total / limit)` pages.
 */
module Paging {

  /** The pagination block and the ids of one page of a listing. */
  datatype IdPage = IdPage(ids: seq<nat>, page: nat, limit: nat, total: nat, totalPages: nat)

  /** The number of rows before page `page`. */
  function Skip(page: nat, limit: nat): nat
    requires page >= 1
  {
    (page - 1) * limit
  }

  /** `Math.ceil(total / limit)`: the fewest pages of `limit` rows that hold `total` rows. */
  function TotalPages(total: nat, limit: nat): (pages: nat)
    requires limit >= 1
    ensures pages * limit >= total
    ensures pages == 0 || (pages - 1) * limit < total
  {
    (total + limit - 1) / limit
  }

  /** The rows on page `page`: up to `limit` rows starting `Skip(page, limit)` rows in. */
  function Page<T>(rows: seq<T>, page: nat, limit: nat): (r: seq<T>)
    requires page >= 1 && limit >= 1
    ensures |r| <= limit
    ensures forall j :: 0 <= j < |r| ==> Skip(page, limit) + j < |rows| && r[j] == rows[Skip(page, limit) + j]
    ensures |r| < limit ==> Skip(page, limit) + |r| >= |rows|
  {
    var skip := Skip(page, limit);
    if skip >= |rows| then []
    else if skip + limit <= |rows| then rows[skip..skip + limit]
    else rows[skip..]
  }

  /** Row `i` of a listing is row `i % limit` of page `i / limit + 1`. */
  lemma PageOfIndex<T>(rows: seq<T>, limit: nat, i: nat)
    requires limit >= 1 && i < |rows|
    ensures var page := i / limit + 1;
            var r := Page(rows, page, limit);
            i % limit < |r| && r[i % limit] == rows[i]
  {
    var page := i / limit + 1;
    assert Skip(page, limit) + i % limit == i;
  }

  /** With no row repeated, row `i` is on no page but page `i / limit + 1`. */
  lemma OnlyOnItsPage<T>(rows: seq<T>, limit: nat, i: nat, page: nat)
    requires forall a, b :: 0 <= a < b < |rows| ==> rows[a] != rows[b]
    requires limit >= 1 && i < |rows| && page >= 1 && page != i / limit + 1
    ensures rows[i] !in Page(rows, page, limit)
  {
    var r := Page(rows, page, limit);
    if rows[i] in r {
      var j :| 0 <= j < |r| && r[j] == rows[i];
      assert Skip(page, limit) + j == i;
      DivOfOffset(page - 1, j, limit);
      assert false;
    }
  }

  /** Position `j` of page `q + 1` is row `q * limit + j` of the list, which divides back to `q`. */
  lemma DivOfOffset(q: nat, j: nat, limit: nat)
    requires j < limit
    ensures (q * limit + j) / limit == q
  {
    var x := q * limit + j;
    var d, r := x / limit, x % limit;
    assert x == d * limit + r && r < limit;
    if d > q {
      MulMonotone(q + 1, d, limit);
    } else if d < q {
      MulMonotone(d + 1, q, limit);
    }
  }

  /** A page has rows exactly when its number is at most the page count. */
  lemma {:induction false} PageNonEmptyIff<T>(rows: seq<T>, page: nat, limit: nat)
    requires page >= 1 && limit >= 1
    ensures |Page(rows, page, limit)| > 0 <==> page <= TotalPages(|rows|, limit)
  {
    var pages := TotalPages(|rows|, limit);
    if page <= pages {
      assert (page - 1) * limit <= (pages - 1) * limit by {
        MulMonotone(page - 1, pages - 1, limit);
      }
    } else {
      assert pages * limit <= (page - 1) * limit by {
        MulMonotone(pages, page - 1, limit);
      }
    }
  }

  lemma MulMonotone(a: nat, b: nat, c: nat)
    requires a <= b
    ensures a * c <= b * c
  {
  }
}

=== FILE: payments.dfy ===
/**
 * The simulated bKash payment flow. Initiating a payment records a PENDING payment for the
 * order's total under a provider reference; executing it by that reference marks the payment
 * SUCCESS and its order PAID together, and does nothing for a payment that already succeeded.
 * The service throws bare errors, which carry no status code.
 */
module Payments {
  import opened Wrappers
  import opened Errors
  import opened Text
  import opened Tables
  import opened Entities
  import opened Store

  /** The provider recorded on every payment. */
  const PROVIDER := "bkash"

  /** The largest value the simulated reference number can take: it is below one million. */
  const REFERENCE_BOUND := 1000000

  /** `BKASH_${n}`: the reference the simulated provider returns for the random number `n`. */
  function PaymentReference(n: nat): string {
    "BKASH_" + NatToString(n)
  }

  /** The page the client is sent to for paying under a reference. */
  function BkashUrl(paymentID: string): string {
    "http://localhost:5000/api/v1/payments/mock-bkash-page?paymentID=" + paymentID
  }

  /** The checks of `initiatePayment`, in order. Only a PAID order is refused for its status. */
  function InitiateRejection(orders: map<nat, Order>, userId: nat, orderId: nat): Option<AppError> {
    if orderId !in orders then Some(Plain("Order not found"))
    else if orders[orderId].userId != userId then Some(Plain("Unauthorized"))
    else if orders[orderId].status == Paid then Some(Plain("Order already paid"))
    else None
  }

  /** Every status but PAID lets a payment be initiated, CANCELLED and DELIVERED included. */
  lemma OnlyPaidRefused(orders: map<nat, Order>, userId: nat, orderId: nat)
    requires orderId in orders && orders[orderId].userId == userId
    ensures InitiateRejection(orders, userId, orderId).None? <==> orders[orderId].status != Paid
  {
  }

  /** The payment that `order.payment` finds: some payment row already names the order. */
  predicate HasPayment(payments: map<nat, Payment>, orderId: nat) {
    exists k :: k in payments && payments[k].orderId == orderId
  }

  /** `initiatePayment`'s result: the provider reference and the page to pay on. */
  datatype Initiated = Initiated(paymentID: string, bkashURL: string)

  /**
   * `initiatePayment`, with `n` the random number drawn for the reference. The insert of a
   * second payment for an order breaks the one-payment-per-order key and is reported as a failed
   * initiation; otherwise one PENDING payment is added for the order's total and the order itself
   * is left as it is.
   */
  method InitiatePayment(db: Db, userId: nat, orderId: nat, n: nat) returns (r: Result<Initiated, AppError>)
    requires n < REFERENCE_BOUND
    requires db.data.OrdersValid() && db.data.PaymentsValid()
    modifies db
    ensures db.data.OrdersValid() && db.data.PaymentsValid()
    ensures var d := old(db.data);
            var rejection := InitiateRejection(d.orders, userId, orderId);
            (rejection.Some? ==> r == Err(rejection.value) && db.data == d) &&
            (rejection.None? && HasPayment(d.payments, orderId) ==> r == Err(Plain("Payment initiation failed")) && db.data == d) &&
            (rejection.None? && !HasPayment(d.payments, orderId) ==>
               r == Ok(Initiated(PaymentReference(n), BkashUrl(PaymentReference(n)))) &&
               db.data == d.(payments := d.payments[d.nextPaymentId := Payment(orderId, d.orders[orderId].total, PaymentReference(n), PaymentPending, PROVIDER)],
                             nextPaymentId := d.nextPaymentId + 1))
  {
    var d := db.data;
    var rejection := InitiateRejection(d.orders, userId, orderId);
    if rejection.Some? {
      return Err(rejection.value);
    }
    var paymentID := PaymentReference(n);
    if HasPayment(d.payments, orderId) {
      return Err(Plain("Payment initiation failed"));
    }
    var payment := Payment(orderId, d.orders[orderId].total, paymentID, PaymentPending, PROVIDER);
    var paymentId := d.nextPaymentId;
    var payments := d.payments[paymentId := payment];
    forall a, b | a in payments && b in payments && PaidOrder(payments, a) == PaidOrder(payments, b)
      ensures a == b
    {
      if a != paymentId && b != paymentId {
        assert PaidOrder(d.payments, a) == PaidOrder(d.payments, b);
      }
    }
    db.data := d.(payments := payments, nextPaymentId := paymentId + 1);
    r := Ok(Initiated(paymentID, BkashUrl(paymentID)));
  }

  /** `payment.findFirst({ where: { transaction_id } })`: the oldest payment under the reference. */
  function PaymentByReference(payments: map<nat, Payment>, paymentID: string, n: nat): (r: Option<nat>)
    ensures r.Some? ==> r.value in payments && payments[r.value].transactionId == paymentID
    ensures r.None? <==> forall k :: k in payments && k < n ==> payments[k].transactionId != paymentID
  {
    First(payments, (p: Payment) => p.transactionId == paymentID, n)
  }

  /**
   * The database after the payment `k` is executed: the payment SUCCESS and its order PAID,
   * whatever either's status was, FAILED and CANCELLED included.
   */
  function AfterExecute(d: Data, k: nat): (after: Data)
    requires k in d.payments && d.payments[k].orderId in d.orders
    ensures after.payments == d.payments[k := d.payments[k].(status := PaymentSuccess)]
    ensures after.orders == d.orders[d.payments[k].orderId := d.orders[d.payments[k].orderId].(status := Paid)]
  {
    var orderId := d.payments[k].orderId;
    d.(payments := d.payments[k := d.payments[k].(status := PaymentSuccess)],
       orders := d.orders[orderId := d.orders[orderId].(status := Paid)])
  }

  /**
   * The database after `executePayment` with a reference: unchanged when no payment has it or
   * the payment it finds already succeeded, the payment executed otherwise.
   */
  function Execute(d: Data, paymentID: string): (after: Data)
    requires d.PaymentsValid()
  {
    var found := PaymentByReference(d.payments, paymentID, d.nextPaymentId);
    if found.None? || d.payments[found.value].status == PaymentSuccess then d
    else AfterExecute(d, found.value)
  }

  /** What `executePayment` returns: the payment as it was, or the two updated rows. */
  datatype Execution = AlreadyProcessed(payment: Payment) | Processed(payment: Payment, order: Order)

  /**
   * `executePayment`: an unknown reference is refused; a payment that already succeeded is
   * returned with nothing written; any other payment, FAILED included, is executed.
   */
  method ExecutePayment(db: Db, paymentID: string) returns (r: Result<Execution, AppError>)
    requires db.data.OrdersValid() && db.data.PaymentsValid()
    modifies db
    ensures db.data.OrdersValid() && db.data.PaymentsValid()
    ensures db.data == Execute(old(db.data), paymentID)
    ensures var d := old(db.data);
            var found := PaymentByReference(d.payments, paymentID, d.nextPaymentId);
            (found.None? ==> r == Err(Plain("Invalid Payment ID"))) &&
            (found.Some? && d.payments[found.value].status == PaymentSuccess ==> r == Ok(AlreadyProcessed(d.payments[found.value]))) &&
            (found.Some? && d.payments[found.value].status != PaymentSuccess ==>
               r == Ok(Processed(db.data.payments[found.value], db.data.orders[d.payments[found.value].orderId])))
  {
    var d := db.data;
    var found := PaymentByReference(d.payments, paymentID, d.nextPaymentId);
    if found.None? {
      return Err(Plain("Invalid Payment ID"));
    }
    var k := found.value;
    var payment := d.payments[k];
    if payment.status == PaymentSuccess {
      return Ok(AlreadyProcessed(payment));
    }
    ExecuteKeepsRules(d, k);
    db.data := AfterExecute(d, k);
    r := Ok(Processed(db.data.payments[k], db.data.orders[payment.orderId]));
  }

  /** Executing a payment keeps every order line, total and amount, and with them the rules. */
  lemma ExecuteKeepsRules(d: Data, k: nat)
    requires d.OrdersValid() && d.PaymentsValid() && k in d.payments
    ensures d.payments[k].orderId in d.orders
    ensures AfterExecute(d, k).OrdersValid() && AfterExecute(d, k).PaymentsValid()
  {
    var after := AfterExecute(d, k).payments;
    forall a, b | a in after && b in after && PaidOrder(after, a) == PaidOrder(after, b)
      ensures a == b
    {
      assert PaidOrder(d.payments, a) == PaidOrder(d.payments, b);
    }
  }

  /**
   * `executePayment` is idempotent: executing the same reference a second time finds the payment
   * the first execution marked SUCCESS, and changes nothing.
   */
  lemma ExecuteIdempotent(d: Data, paymentID: string)
    requires d.OrdersValid() && d.PaymentsValid()
    ensures Execute(d, paymentID).PaymentsValid()
    ensures Execute(Execute(d, paymentID), paymentID) == Execute(d, paymentID)
  {
    var found := PaymentByReference(d.payments, paymentID, d.nextPaymentId);
    if found.Some? && d.payments[found.value].status != PaymentSuccess {
      var k := found.value;
      ExecuteKeepsRules(d, k);
      var after := AfterExecute(d, k);
      SelectAgree(after.payments, d.payments, (p: Payment) => p.transactionId == paymentID, d.nextPaymentId);
      assert PaymentByReference(after.payments, paymentID, after.nextPaymentId) == found;
    }
  }
}

=== FILE: products.dfy ===
/**
 * The catalogue writes and the product listing of product.service.ts: products with a unique
 * slug and an optional category, their images with at most one primary image per product, and
 * the filtered, sorted, paged product listing.
 */
module Products {
  import opened Wrappers
  import opened Tables
  import opened Entities
  import opened Errors
  import opened Store
  import opened Slugs
  import opened Paging
  import opened Listing

  /** The fields of a new product. */
  datatype ProductInput = ProductInput(name: string, description: Option<string>, price: nat, stock: nat, categoryId: Option<nat>)

  /** The fields an update may carry. */
  datatype ProductPatch = ProductPatch(
    name: Option<string>, description: Option<string>, price: Option<nat>, stock: Option<nat>, categoryId: Option<nat>)

  /** The category check of `createProduct` and `updateProduct`: a named category must exist. */
  function CategoryRejection(categories: map<nat, Category>, categoryId: Option<nat>): (e: Option<AppError>)
    ensures e.Some? <==> categoryId.Some? && categoryId.value !in categories
    ensures e.Some? ==> e.value == NotFound("Category not found")
  {
    if categoryId.Some? && categoryId.value !in categories then Some(NotFound("Category not found")) else None
  }

  /** Writing a row whose slug is new, or is the row's own, keeps the product slugs unique. */
  lemma WriteKeepsSlugsUnique(products: map<nat, Product>, id: nat, p: Product)
    requires UniqueProductSlugs(products)
    requires p.slug !in ProductSlugs(products) || (id in products && products[id].slug == p.slug)
    ensures UniqueProductSlugs(products[id := p])
  {
    var after := products[id := p];
    forall a, b | a in after && b in after && ProductSlug(after, a) == ProductSlug(after, b)
      ensures a == b
    {
      if a != id && b != id {
        assert ProductSlug(products, a) == ProductSlug(products, b);
      }
    }
  }

  /**
   * Writing a product row, new under the next id or over an existing one, keeps the rules of the
   * catalogue, the carts and the orders when its slug is new or its own, its category exists and
   * its stock is not negative.
   */
  lemma WriteKeepsRules(d: Data, id: nat, p: Product, next: nat)
    requires d.CatalogValid() && d.CartsValid() && d.OrdersValid()
    requires next == if id in d.products then d.nextProductId else id + 1
    requires id in d.products || id == d.nextProductId
    requires p.slug !in ProductSlugs(d.products) || (id in d.products && d.products[id].slug == p.slug)
    requires p.categoryId.Some? ==> p.categoryId.value in d.categories
    requires p.stock >= 0
    ensures var after := d.(products := d.products[id := p], nextProductId := next);
            after.CatalogValid() && after.CartsValid() && after.OrdersValid()
  {
    WriteKeepsSlugsUnique(d.products, id, p);
  }

  /**
   * `createProduct`: a missing category is NotFound and nothing is written; otherwise one product
   * is added, with the first free slug for its name. The service searches for the slug before it
   * checks the category; the search only reads, so the order makes no difference to the outcome.
   */
  method CreateProduct(db: Db, input: ProductInput) returns (r: Result<Product, AppError>)
    requires db.data.CatalogValid() && db.data.CartsValid() && db.data.OrdersValid()
    modifies db
    ensures db.data.CatalogValid() && db.data.CartsValid() && db.data.OrdersValid()
    ensures var d := old(db.data);
            var rejection := CategoryRejection(d.categories, input.categoryId);
            (r.Err? <==> rejection.Some?) && (r.Err? ==> r.error == rejection.value && db.data == d)
    ensures var d := old(db.data);
            r.Ok? ==> r.value.name == input.name && r.value.description == input.description &&
                      r.value.price == input.price && r.value.stock == input.stock && r.value.categoryId == input.categoryId &&
                      FirstFree(r.value.slug, input.name, ProductSlugs(d.products)) &&
                      db.data == d.(products := d.products[d.nextProductId := r.value], nextProductId := d.nextProductId + 1)
  {
    var d := db.data;
    var rejection := CategoryRejection(d.categories, input.categoryId);
    if rejection.Some? {
      return Err(rejection.value);
    }
    var created := NewProduct(d.products, input);
    var id := d.nextProductId;
    WriteKeepsRules(d, id, created, id + 1);
    db.data := d.(products := d.products[id := created], nextProductId := id + 1);
    r := Ok(created);
  }

  /** The row `createProduct` writes: the given fields and the first free slug for the name. */
  method NewProduct(products: map<nat, Product>, input: ProductInput) returns (p: Product)
    ensures p.name == input.name && p.description == input.description && p.price == input.price &&
            p.stock == input.stock && p.categoryId == input.categoryId
    ensures FirstFree(p.slug, input.name, ProductSlugs(products))
  {
    var slug := GenerateUniqueSlug(input.name, ProductSlugs(products));
    p := Product(input.name, slug, input.description, input.price, input.stock, input.categoryId);
  }

  /** The checks of `updateProduct`, in order: the product exists, and a named category exists. */
  function UpdateRejection(d: Data, productId: nat, categoryId: Option<nat>): (e: Option<AppError>)
    ensures e.None? <==> productId in d.products && (categoryId.Some? ==> categoryId.value in d.categories)
  {
    if productId !in d.products then Some(NotFound("Product not found"))
    else CategoryRejection(d.categories, categoryId)
  }

  /**
   * `updateProduct`: the checks of `UpdateRejection`; a new slug only when the name changes; then
   * the given fields are written. No other product changes.
   */
  method UpdateProduct(db: Db, productId: nat, patch: ProductPatch) returns (r: Result<Product, AppError>)
    requires db.data.CatalogValid() && db.data.CartsValid() && db.data.OrdersValid()
    modifies db
    ensures db.data.CatalogValid() && db.data.CartsValid() && db.data.OrdersValid()
    ensures var d := old(db.data);
            var rejection := UpdateRejection(d, productId, patch.categoryId);
            (r.Err? <==> rejection.Some?) && (r.Err? ==> r.error == rejection.value && db.data == d)
    ensures var d := old(db.data);
            r.Ok? ==>
              var p := d.products[productId];
              r.value.name == patch.name.GetOr(p.name) &&
              r.value.description == (if patch.description.Some? then patch.description else p.description) &&
              r.value.price == patch.price.GetOr(p.price) && r.value.stock == (if patch.stock.Some? then patch.stock.value else p.stock) &&
              r.value.categoryId == (if patch.categoryId.Some? then patch.categoryId else p.categoryId) &&
              (Renames(p.name, patch.name) ==> FirstFree(r.value.slug, patch.name.value, ProductSlugs(d.products))) &&
              (!Renames(p.name, patch.name) ==> r.value.slug == p.slug) &&
              db.data == d.(products := d.products[productId := r.value])
  {
    var d := db.data;
    if productId !in d.products {
      return Err(NotFound("Product not found"));
    }
    var p := d.products[productId];
    var slug := p.slug;
    if Renames(p.name, patch.name) {
      slug := GenerateUniqueSlug(patch.name.value, ProductSlugs(d.products));
    }
    var rejection := CategoryRejection(d.categories, patch.categoryId);
    if rejection.Some? {
      return Err(rejection.value);
    }
    var updated := Product(patch.name.GetOr(p.name), slug,
                           if patch.description.Some? then patch.description else p.description,
                           patch.price.GetOr(p.price), if patch.stock.Some? then patch.stock.value else p.stock,
                           if patch.categoryId.Some? then patch.categoryId else p.categoryId);
    WriteKeepsRules(d, productId, updated, d.nextProductId);
    db.data := d.(products := d.products[productId := updated]);
    r := Ok(updated);
  }

  /** Whether an order line anywhere names the product: `_count.orderItems > 0`. */
  predicate OnOrder(orders: map<nat, Order>, productId: nat) {
    exists k | k in orders :: exists i | 0 <= i < |orders[k].items| :: orders[k].items[i].productId == productId
  }

  /** The checks of `deleteProduct`, in order: the product exists and has never been ordered. */
  function DeleteRejection(d: Data, productId: nat): Option<AppError> {
    if productId !in d.products then Some(NotFound("Product not found"))
    else if OnOrder(d.orders, productId) then
      Some(BadRequest("Cannot delete product that has been ordered. Consider marking it as out of stock instead."))
    else None
  }

  /** `cartItem.deleteMany({ where: { product_id } })`: every cart line of the product goes. */
  function WithoutProduct(cartItems: map<nat, CartItem>, productId: nat): (r: map<nat, CartItem>)
    ensures forall k :: k in r <==> k in cartItems && cartItems[k].productId != productId
    ensures forall k :: k in r ==> r[k] == cartItems[k]
  {
    map k | k in cartItems && cartItems[k].productId != productId :: cartItems[k]
  }

  /** Removing a product that no order names, with its cart lines, keeps every rule it touches. */
  lemma DeleteKeepsRules(d: Data, productId: nat)
    requires d.CatalogValid() && d.CartsValid() && d.OrdersValid()
    requires !OnOrder(d.orders, productId)
    ensures var after := d.(cartItems := WithoutProduct(d.cartItems, productId), products := d.products - {productId});
            after.CatalogValid() && after.CartsValid() && after.OrdersValid()
  {
    var products := d.products - {productId};
    var cartItems := WithoutProduct(d.cartItems, productId);
    forall a, b | a in products && b in products && ProductSlug(products, a) == ProductSlug(products, b)
      ensures a == b
    {
      assert ProductSlug(d.products, a) == ProductSlug(d.products, b);
    }
    forall a, b | a in cartItems && b in cartItems && ItemKey(cartItems, a) == ItemKey(cartItems, b)
      ensures a == b
    {
      assert ItemKey(d.cartItems, a) == ItemKey(d.cartItems, b);
    }
  }

  /**
   * `deleteProduct`: the checks of `DeleteRejection`; then the product's cart lines and the
   * product itself are removed, and nothing else.
   */
  method DeleteProduct(db: Db, productId: nat) returns (r: Result<string, AppError>)
    requires db.data.CatalogValid() && db.data.CartsValid() && db.data.OrdersValid()
    modifies db
    ensures db.data.CatalogValid() && db.data.CartsValid() && db.data.OrdersValid()
    ensures var d := old(db.data);
            var rejection := DeleteRejection(d, productId);
            (r.Err? <==> rejection.Some?) && (r.Err? ==> r.error == rejection.value && db.data == d)
    ensures var d := old(db.data);
            r.Ok? ==> r.value == "Product deleted successfully" &&
                      db.data == d.(cartItems := WithoutProduct(d.cartItems, productId), products := d.products - {productId})
  {
    var d := db.data;
    var rejection := DeleteRejection(d, productId);
    if rejection.Some? {
      return Err(rejection.value);
    }
    DeleteKeepsRules(d, productId);
    db.data := d.(cartItems := WithoutProduct(d.cartItems, productId), products := d.products - {productId});
    r := Ok("Product deleted successfully");
  }

  /** The fields of a new image. */
  datatype ImageInput = ImageInput(url: string, altText: Option<string>, isPrimary: Option<bool>, order: Option<int>)

  /**
   * `productImage.updateMany({ where: { product_id }, data: { is_primary: false } })`: the
   * product's images stop being primary; every other image stays as it was.
   */
  function ClearPrimary(images: map<nat, ProductImage>, productId: nat): (r: map<nat, ProductImage>)
    ensures r.Keys == images.Keys
    ensures forall k :: k in images && images[k].productId != productId ==> r[k] == images[k]
    ensures forall k :: k in images && images[k].productId == productId ==> r[k] == images[k].(isPrimary := false)
  {
    map k | k in images :: if images[k].productId == productId then images[k].(isPrimary := false) else images[k]
  }

  /** After clearing a product's primary flags, the product has no primary image and the rule still holds. */
  lemma ClearKeepsOnePrimary(images: map<nat, ProductImage>, productId: nat)
    requires AtMostOnePrimary(images)
    ensures var r := ClearPrimary(images, productId);
            AtMostOnePrimary(r) && forall k :: k in r && r[k].productId == productId ==> !r[k].isPrimary
  {
    var r := ClearPrimary(images, productId);
    forall a, b | a in r && b in r && PrimaryOf(r, a).Some? && PrimaryOf(r, a) == PrimaryOf(r, b)
      ensures a == b
    {
      assert PrimaryOf(images, a) == PrimaryOf(images, b);
    }
  }

  /** Writing an image that is the product's only primary one, or not primary, into cleared or valid images keeps the rule. */
  lemma WriteImageKeepsOnePrimary(images: map<nat, ProductImage>, id: nat, image: ProductImage)
    requires AtMostOnePrimary(images)
    requires image.isPrimary ==> forall k :: k in images && k != id && images[k].productId == image.productId ==> !images[k].isPrimary
    ensures AtMostOnePrimary(images[id := image])
  {
    var r := images[id := image];
    forall a, b | a in r && b in r && PrimaryOf(r, a).Some? && PrimaryOf(r, a) == PrimaryOf(r, b)
      ensures a == b
    {
      if a != id && b != id {
        assert PrimaryOf(images, a) == PrimaryOf(images, b);
      }
    }
  }

  /** The row `addProductImage` stores; a left-out flag is false and a left-out position is 0. */
  function NewImage(productId: nat, input: ImageInput): (image: ProductImage)
    ensures image.productId == productId && image.url == input.url && image.altText == input.altText
    ensures image.isPrimary <==> input.isPrimary == Some(true)
    ensures image.order == input.order.GetOr(0)
  {
    ProductImage(productId, input.url, input.altText, input.isPrimary.GetOr(false), input.order.GetOr(0))
  }

  /**
   * `addProductImage`: NotFound for a missing product; with `is_primary` set, the product's other
   * images stop being primary first; then the image is added.
   */
  method AddProductImage(db: Db, productId: nat, input: ImageInput) returns (r: Result<ProductImage, AppError>)
    requires db.data.CatalogValid()
    modifies db
    ensures db.data.CatalogValid()
    ensures var d := old(db.data);
            (r.Err? <==> productId !in d.products) && (r.Err? ==> r.error == NotFound("Product not found") && db.data == d)
    ensures var d := old(db.data);
            var before := if input.isPrimary == Some(true) then ClearPrimary(d.images, productId) else d.images;
            r.Ok? ==> r.value == NewImage(productId, input) &&
                      db.data == d.(images := before[d.nextImageId := r.value], nextImageId := d.nextImageId + 1)
  {
    var d := db.data;
    if productId !in d.products {
      return Err(NotFound("Product not found"));
    }
    var before := d.images;
    if input.isPrimary == Some(true) {
      ClearKeepsOnePrimary(d.images, productId);
      before := ClearPrimary(d.images, productId);
    }
    var created := NewImage(productId, input);
    WriteImageKeepsOnePrimary(before, d.nextImageId, created);
    db.data := d.(images := before[d.nextImageId := created], nextImageId := d.nextImageId + 1);
    r := Ok(created);
  }

  /** `deleteProductImage`: NotFound for a missing image; otherwise only that image goes. */
  method DeleteProductImage(db: Db, imageId: nat) returns (r: Result<string, AppError>)
    requires db.data.CatalogValid()
    modifies db
    ensures db.data.CatalogValid()
    ensures var d := old(db.data);
            (r.Err? <==> imageId !in d.images) && (r.Err? ==> r.error == NotFound("Image not found") && db.data == d)
    ensures var d := old(db.data);
            r.Ok? ==> r.value == "Image deleted successfully" && db.data == d.(images := d.images - {imageId})
  {
    var d := db.data;
    if imageId !in d.images {
      return Err(NotFound("Image not found"));
    }
    var images := d.images - {imageId};
    forall a, b | a in images && b in images && PrimaryOf(images, a).Some? && PrimaryOf(images, a) == PrimaryOf(images, b)
      ensures a == b
    {
      assert PrimaryOf(d.images, a) == PrimaryOf(d.images, b);
    }
    db.data := d.(images := images);
    r := Ok("Image deleted successfully");
  }

  /**
   * `setPrimaryImage`: NotFound for a missing image; otherwise every image of its product stops
   * being primary, then this one becomes primary.
   */
  method SetPrimaryImage(db: Db, imageId: nat) returns (r: Result<ProductImage, AppError>)
    requires db.data.CatalogValid()
    modifies db
    ensures db.data.CatalogValid()
    ensures var d := old(db.data);
            (r.Err? <==> imageId !in d.images) && (r.Err? ==> r.error == NotFound("Image not found") && db.data == d)
    ensures var d := old(db.data);
            r.Ok? ==> r.value == d.images[imageId].(isPrimary := true) &&
                      db.data == d.(images := ClearPrimary(d.images, d.images[imageId].productId)[imageId := r.value])
  {
    var d := db.data;
    if imageId !in d.images {
      return Err(NotFound("Image not found"));
    }
    var image := d.images[imageId];
    ClearKeepsOnePrimary(d.images, image.productId);
    var cleared := ClearPrimary(d.images, image.productId);
    var updated := image.(isPrimary := true);
    WriteImageKeepsOnePrimary(cleared, imageId, updated);
    db.data := d.(images := cleared[imageId := updated]);
    r := Ok(updated);
  }

  /** After `setPrimaryImage` the image is its product's only primary image, and other products' images are as they were. */
  lemma PrimaryIsOnly(images: map<nat, ProductImage>, imageId: nat)
    requires imageId in images
    ensures var productId := images[imageId].productId;
            var after := ClearPrimary(images, productId)[imageId := images[imageId].(isPrimary := true)];
            after[imageId].isPrimary &&
            (forall k :: k in after && after[k].productId == productId && after[k].isPrimary ==> k == imageId) &&
            (forall k :: k in images && images[k].productId != productId ==> after[k] == images[k])
  {
  }

  /** The filters of `getAllProducts`; the free-text search is not part of this model. */
  datatype ProductFilters = ProductFilters(
    categoryId: Option<nat>, minPrice: Option<int>, maxPrice: Option<int>, inStock: Option<bool>,
    sortBy: Option<string>, page: Option<nat>, limit: Option<nat>)

  /** The `where` of `getAllProducts`: the category, an inclusive price range, and stock above 0 when asked. */
  function ProductFilter(f: ProductFilters): Product -> bool {
    (p: Product) =>
      (f.categoryId.None? || p.categoryId == f.categoryId) &&
      (f.minPrice.None? || p.price >= f.minPrice.value) &&
      (f.maxPrice.None? || p.price <= f.maxPrice.value) &&
      (f.inStock != Some(true) || p.stock > 0)
  }

  /** `filters.page || 1` and `filters.limit || 20`: a missing or zero value takes the default. */
  function PageAndLimit(f: ProductFilters): (r: (nat, nat))
    ensures r.0 >= 1 && r.1 >= 1
    ensures r.0 == (if f.page.None? || f.page.value == 0 then 1 else f.page.value)
    ensures r.1 == (if f.limit.None? || f.limit.value == 0 then 20 else f.limit.value)
  {
    (if f.page.None? || f.page.value == 0 then 1 else f.page.value,
     if f.limit.None? || f.limit.value == 0 then 20 else f.limit.value)
  }

  /** `getAllProducts`: the page of kept products in the chosen order, and the pagination block. */
  function GetAllProducts(products: map<nat, Product>, f: ProductFilters, n: nat): (r: IdPage)
    ensures var (page, limit) := PageAndLimit(f);
            var rows := Select(products, ProductFilter(f), n);
            r.page == page && r.limit == limit && r.total == |rows| && r.totalPages == TotalPages(|rows|, limit) &&
            r.ids == Page(Ordered(products, rows, OrderBy(f.sortBy.GetOr("newest"))), page, limit)
  {
    var (page, limit) := PageAndLimit(f);
    Listed(products, ProductFilter(f), OrderBy(f.sortBy.GetOr("newest")), page, limit, n)
  }

  /**
   * Every listed product passes the filters: it is in the category asked for, its price lies in
   * the range with both ends included, and it is in stock when only stocked products are asked for.
   */
  lemma ListedPassFilters(products: map<nat, Product>, f: ProductFilters, n: nat, i: nat)
    requires i < |GetAllProducts(products, f, n).ids|
    ensures var k := GetAllProducts(products, f, n).ids[i];
            k in products &&
            (f.categoryId.Some? ==> products[k].categoryId == f.categoryId) &&
            (f.minPrice.Some? ==> f.minPrice.value <= products[k].price) &&
            (f.maxPrice.Some? ==> products[k].price <= f.maxPrice.value) &&
            (f.inStock == Some(true) ==> products[k].stock > 0)
  {
    var (page, limit) := PageAndLimit(f);
    var r := Listed(products, ProductFilter(f), OrderBy(f.sortBy.GetOr("newest")), page, limit, n);
    assert GetAllProducts(products, f, n) == r;
    assert ProductFilter(f)(products[r.ids[i]]);
  }

  /**
   * The rows the listing pages over are exactly the products below `n` that pass every given
   * filter, with both ends of the price range included.
   */
  lemma FilteredRowsIff(products: map<nat, Product>, f: ProductFilters, n: nat, k: nat)
    ensures k in Select(products, ProductFilter(f), n) <==>
              k in products && k < n &&
              (f.categoryId.Some? ==> products[k].categoryId == f.categoryId) &&
              (f.minPrice.Some? ==> f.minPrice.value <= products[k].price) &&
              (f.maxPrice.Some? ==> products[k].price <= f.maxPrice.value) &&
              (f.inStock == Some(true) ==> products[k].stock > 0)
  {
    var rows := Select(products, ProductFilter(f), n);
    if k in rows {
      var i :| 0 <= i < |rows| && rows[i] == k;
    }
  }
}

=== FILE: reviews.dfy ===
/**
 * The review service. A user may review a product once, and only after an order of theirs that
 * holds the product has been delivered. A product's listing carries statistics over all of its
 * reviews: the number of reviews, the rating distribution and the average, which is kept here as
 * an exact fraction.
 */
module Reviews {
  import opened Wrappers
  import opened Errors
  import opened Tables
  import opened Entities
  import opened Store
  import opened Paging
  import opened Schemas

  /** `review.findUnique` on the (product_id, user_id) pair finds a row. */
  predicate HasReviewed(reviews: map<nat, Review>, productId: nat, userId: nat) {
    exists k :: k in reviews && reviews[k].productId == productId && reviews[k].userId == userId
  }

  /**
   * The purchase check: some order line for the product in an order of the user's whose status
   * is DELIVERED. A paid, processing or shipped order does not count.
   */
  predicate Purchased(orders: map<nat, Order>, userId: nat, productId: nat) {
    exists k, i :: k in orders && orders[k].userId == userId && orders[k].status == Delivered &&
                   0 <= i < |orders[k].items| && orders[k].items[i].productId == productId
  }

  /** `createReview`'s checks, in order. */
  function ReviewRejection(
    products: map<nat, Product>, reviews: map<nat, Review>, orders: map<nat, Order>,
    userId: nat, productId: nat): Option<AppError>
  {
    if productId !in products then Some(NotFound("Product not found"))
    else if HasReviewed(reviews, productId, userId) then Some(BadRequest("You have already reviewed this product"))
    else if !Purchased(orders, userId, productId) then Some(BadRequest("You can only review products you have purchased"))
    else None
  }

  /**
   * A review is accepted exactly when the product exists, the user has not reviewed it yet and a
   * delivered order of theirs holds it.
   */
  lemma AcceptedReview(
    products: map<nat, Product>, reviews: map<nat, Review>, orders: map<nat, Order>, userId: nat, productId: nat)
    ensures ReviewRejection(products, reviews, orders, userId, productId).None? <==>
            productId in products &&
            (forall k :: k in reviews ==> !(reviews[k].productId == productId && reviews[k].userId == userId)) &&
            exists k, i :: k in orders && orders[k].userId == userId && orders[k].status == Delivered &&
                           0 <= i < |orders[k].items| && orders[k].items[i].productId == productId
  {
  }

  /** Orders that are not yet delivered do not let the user review. */
  lemma UndeliveredRefused(
    products: map<nat, Product>, reviews: map<nat, Review>, orders: map<nat, Order>, userId: nat, productId: nat)
    requires productId in products && !HasReviewed(reviews, productId, userId)
    requires forall k :: k in orders && orders[k].userId == userId ==> orders[k].status != Delivered
    ensures ReviewRejection(products, reviews, orders, userId, productId) ==
            Some(BadRequest("You can only review products you have purchased"))
  {
  }

  /**
   * `createReview`: the review is stored under a new id when every check passes; the rating and
   * comment have passed `createReviewSchema`.
   */
  method CreateReview(db: Db, userId: nat, productId: nat, rating: int, comment: Option<string>) returns (r: Result<nat, AppError>)
    requires CreateReviewOk(rating, comment)
    requires db.data.ReviewsValid()
    modifies db
    ensures db.data.ReviewsValid()
    ensures var d := old(db.data);
            var rejection := ReviewRejection(d.products, d.reviews, d.orders, userId, productId);
            (r.Err? <==> rejection.Some?) && (r.Err? ==> r.error == rejection.value && db.data == d)
    ensures var d := old(db.data);
            r.Ok? ==> r.value == d.nextReviewId &&
                      db.data == d.(reviews := d.reviews[r.value := Review(productId, userId, rating, comment)], nextReviewId := r.value + 1)
  {
    var d := db.data;
    if productId !in d.products {
      return Err(NotFound("Product not found"));
    }
    if HasReviewed(d.reviews, productId, userId) {
      return Err(BadRequest("You have already reviewed this product"));
    }
    if !Purchased(d.orders, userId, productId) {
      return Err(BadRequest("You can only review products you have purchased"));
    }
    var reviewId := d.nextReviewId;
    var reviews := d.reviews[reviewId := Review(productId, userId, rating, comment)];
    forall a, b | a in reviews && b in reviews && ReviewKey(reviews, a) == ReviewKey(reviews, b)
      ensures a == b
    {
      if a != reviewId && b != reviewId {
        assert ReviewKey(d.reviews, a) == ReviewKey(d.reviews, b);
      }
    }
    db.data := d.(reviews := reviews, nextReviewId := reviewId + 1);
    r := Ok(reviewId);
  }

  /** The reviews of a product. */
  function OfProduct(productId: nat): Review -> bool {
    (v: Review) => v.productId == productId
  }

  /** The reviews of a product with a given rating. */
  function WithRating(productId: nat, rating: int): Review -> bool {
    (v: Review) => v.productId == productId && v.rating == rating
  }

  /** A review's rating when it is about the product, 0 otherwise: the terms of the rating sum. */
  function RatingTerm(productId: nat): Review -> int {
    (v: Review) => if v.productId == productId then v.rating else 0
  }

  /** The number of the product's reviews with a given rating. */
  function RatingCount(reviews: map<nat, Review>, productId: nat, rating: int, n: nat): int {
    Count(reviews, WithRating(productId, rating), n)
  }

  /** The number of the product's reviews with a rating from 1 to k. */
  function CountsUpTo(reviews: map<nat, Review>, productId: nat, k: nat, n: nat): int {
    if k == 0 then 0 else CountsUpTo(reviews, productId, k - 1, n) + RatingCount(reviews, productId, k, n)
  }

  /** The sum over ratings j from 1 to k of j times the number of the product's reviews rated j. */
  function WeightedUpTo(reviews: map<nat, Review>, productId: nat, k: nat, n: nat): int {
    if k == 0 then 0 else WeightedUpTo(reviews, productId, k - 1, n) + k * RatingCount(reviews, productId, k, n)
  }

  /** 1 for a review of the product rated from 1 to k. */
  function UpTo(productId: nat, k: int): Review -> int {
    (v: Review) => if v.productId == productId && 1 <= v.rating <= k then 1 else 0
  }

  /** The rating of a review of the product rated from 1 to k. */
  function WeightUpTo(productId: nat, k: int): Review -> int {
    (v: Review) => if v.productId == productId && 1 <= v.rating <= k then v.rating else 0
  }

  /** k for a review of the product rated k. */
  function Weight(productId: nat, k: int): Review -> int {
    (v: Review) => if v.productId == productId && v.rating == k then k else 0
  }

  /** Counting and weighing rating by rating, from 1 up to k. */
  lemma {:induction false} UpToSums(reviews: map<nat, Review>, productId: nat, k: nat, n: nat)
    ensures Sum(reviews, UpTo(productId, k), n) == CountsUpTo(reviews, productId, k, n)
    ensures Sum(reviews, WeightUpTo(productId, k), n) == WeightedUpTo(reviews, productId, k, n)
  {
    if k == 0 {
      SumZero(reviews, UpTo(productId, 0), n);
      SumZero(reviews, WeightUpTo(productId, 0), n);
    } else {
      UpToSums(reviews, productId, k - 1, n);
      SumAdd(reviews, UpTo(productId, k - 1), Indicator(WithRating(productId, k)), UpTo(productId, k), n);
      SumAdd(reviews, WeightUpTo(productId, k - 1), Weight(productId, k), WeightUpTo(productId, k), n);
      SumScale(reviews, Indicator(WithRating(productId, k)), Weight(productId, k), k, n);
    }
  }

  /**
   * With every rating between 1 and 5, the product's reviews split by rating: their number is the
   * sum of the five counts, and the sum of their ratings is the sum of rating times count.
   */
  lemma CountsSplit(reviews: map<nat, Review>, productId: nat, n: nat)
    requires RatingsInRange(reviews)
    ensures Count(reviews, OfProduct(productId), n) == CountsUpTo(reviews, productId, 5, n)
    ensures Sum(reviews, RatingTerm(productId), n) == WeightedUpTo(reviews, productId, 5, n)
  {
    UpToSums(reviews, productId, 5, n);
    SumAgree(reviews, Indicator(OfProduct(productId)), reviews, UpTo(productId, 5), n);
    SumAgree(reviews, RatingTerm(productId), reviews, WeightUpTo(productId, 5), n);
  }

  /** One group of `groupBy(['rating'])`: a rating and how many of the product's reviews have it. */
  datatype RatingGroup = RatingGroup(rating: int, count: nat)

  /** The groups for ratings 1..k that occur, in ascending rating order. */
  function Groups(reviews: map<nat, Review>, productId: nat, k: nat, n: nat): seq<RatingGroup> {
    if k == 0 then []
    else
      var c := RatingCount(reviews, productId, k, n);
      Groups(reviews, productId, k - 1, n) + (if c > 0 then [RatingGroup(k, c)] else [])
  }

  /** Each group of the ratings 1..k has one of those ratings and a positive count. */
  lemma {:induction false} GroupsInRange(reviews: map<nat, Review>, productId: nat, k: nat, n: nat)
    ensures forall i :: 0 <= i < |Groups(reviews, productId, k, n)| ==>
              1 <= Groups(reviews, productId, k, n)[i].rating <= k && Groups(reviews, productId, k, n)[i].count > 0
  {
    if k > 0 {
      GroupsInRange(reviews, productId, k - 1, n);
      GroupsStep(reviews, productId, k, n);
    }
  }

  /** The `stats` query: one group per rating that occurs among the product's reviews. */
  function Stats(reviews: map<nat, Review>, productId: nat, n: nat): seq<RatingGroup> {
    Groups(reviews, productId, 5, n)
  }

  /** `stats.reduce((sum, s) => sum + s._count, 0)`. */
  function TotalReviews(stats: seq<RatingGroup>): nat {
    if stats == [] then 0 else TotalReviews(stats[..|stats| - 1]) + stats[|stats| - 1].count
  }

  /** `stats.reduce((sum, s) => sum + s.rating * s._count, 0)`. */
  function WeightedSum(stats: seq<RatingGroup>): int {
    if stats == [] then 0 else WeightedSum(stats[..|stats| - 1]) + stats[|stats| - 1].rating * stats[|stats| - 1].count
  }

  /** One more group adds its count and its weight. */
  lemma GroupSnoc(front: seq<RatingGroup>, last: RatingGroup)
    ensures TotalReviews(front + [last]) == TotalReviews(front) + last.count
    ensures WeightedSum(front + [last]) == WeightedSum(front) + last.rating * last.count
  {
    assert (front + [last])[..|front|] == front;
  }

  /** The groups for 1..k are those for 1..k-1, and the group for k when k occurs. */
  lemma GroupsStep(reviews: map<nat, Review>, productId: nat, k: nat, n: nat)
    requires k > 0
    ensures var c := RatingCount(reviews, productId, k, n);
            var front := Groups(reviews, productId, k - 1, n);
            c >= 0 &&
            (c > 0 ==> Groups(reviews, productId, k, n) == front + [RatingGroup(k, c)]) &&
            (c == 0 ==> Groups(reviews, productId, k, n) == front)
  {
    CountNonNegative(reviews, WithRating(productId, k), n);
  }

  /** The group counts add up to the counts they were made from; a rating that does not occur adds nothing. */
  lemma {:induction false} GroupSums(reviews: map<nat, Review>, productId: nat, k: nat, n: nat)
    ensures TotalReviews(Groups(reviews, productId, k, n)) == CountsUpTo(reviews, productId, k, n)
    ensures WeightedSum(Groups(reviews, productId, k, n)) == WeightedUpTo(reviews, productId, k, n)
  {
    if k > 0 {
      GroupSums(reviews, productId, k - 1, n);
      GroupsStep(reviews, productId, k, n);
      var c := RatingCount(reviews, productId, k, n);
      if c > 0 {
        GroupSnoc(Groups(reviews, productId, k - 1, n), RatingGroup(k, c));
      }
    }
  }

  lemma {:induction false} CountNonNegative<V>(m: map<nat, V>, keep: V -> bool, n: nat)
    ensures Count(m, keep, n) >= 0
  {
    if n > 0 {
      CountNonNegative(m, keep, n - 1);
    }
  }

  /**
   * `totalReviews` counts every review of the product, whatever the rating filter, and the
   * weighted sum is the sum of their ratings.
   */
  lemma StatsTotals(reviews: map<nat, Review>, productId: nat, n: nat)
    requires RatingsInRange(reviews)
    ensures TotalReviews(Stats(reviews, productId, n)) == Count(reviews, OfProduct(productId), n)
    ensures WeightedSum(Stats(reviews, productId, n)) == Sum(reviews, RatingTerm(productId), n)
  {
    CountsSplit(reviews, productId, n);
    GroupSums(reviews, productId, 5, n);
  }

  /** The average rating as a fraction: 0 (over 1) without reviews, the weighted sum over the count otherwise. */
  function AverageRating(stats: seq<RatingGroup>): (r: (int, int))
    ensures r.1 >= 1
    ensures TotalReviews(stats) > 0 ==> r == (WeightedSum(stats), TotalReviews(stats))
    ensures TotalReviews(stats) <= 0 ==> r == (0, 1)
  {
    var total := TotalReviews(stats);
    if total > 0 then (WeightedSum(stats), total) else (0, 1)
  }

  /** With every rating between 1 and 5, a product's average lies between 1 and 5 once it has a review. */
  lemma AverageInRange(reviews: map<nat, Review>, productId: nat, n: nat)
    requires RatingsInRange(reviews)
    ensures var stats := Stats(reviews, productId, n);
            TotalReviews(stats) > 0 ==> AverageRating(stats).1 <= AverageRating(stats).0 <= 5 * AverageRating(stats).1
  {
    GroupsInRange(reviews, productId, 5, n);
    assert Stats(reviews, productId, n) == Groups(reviews, productId, 5, n);
    GroupBounds(Stats(reviews, productId, n));
  }

  /** Groups with ratings from 1 to 5 weigh between once and five times their count. */
  lemma {:induction false} GroupBounds(stats: seq<RatingGroup>)
    requires forall i :: 0 <= i < |stats| ==> 1 <= stats[i].rating <= 5
    ensures TotalReviews(stats) <= WeightedSum(stats) <= 5 * TotalReviews(stats)
  {
    if stats != [] {
      GroupBounds(stats[..|stats| - 1]);
    }
  }

  /** The count of the last group with the rating, or 0: what `ratingDistribution[rating]` ends up as. */
  function LastCount(stats: seq<RatingGroup>, rating: int): nat {
    if stats == [] then 0
    else if stats[|stats| - 1].rating == rating then stats[|stats| - 1].count
    else LastCount(stats[..|stats| - 1], rating)
  }

  /**
   * `ratingDistribution`: keys 5 down to 1 set to 0, then each group's count written under its
   * rating.
   */
  method RatingDistribution(stats: seq<RatingGroup>) returns (dist: map<int, nat>)
    ensures forall r :: r in dist <==> 1 <= r <= 5 || exists i :: 0 <= i < |stats| && stats[i].rating == r
    ensures forall r :: r in dist ==> dist[r] == LastCount(stats, r)
  {
    dist := map[5 := 0, 4 := 0, 3 := 0, 2 := 0, 1 := 0];
    for i := 0 to |stats|
      invariant forall r :: r in dist <==> 1 <= r <= 5 || exists j :: 0 <= j < i && stats[j].rating == r
      invariant forall r :: r in dist ==> dist[r] == LastCount(stats[..i], r)
    {
      assert stats[..i + 1][..i] == stats[..i];
      dist := dist[stats[i].rating := stats[i].count];
    }
    assert stats[..|stats|] == stats;
  }

  /** The distribution of a product's stats gives each rating from 1 to 5 its count, 0 when absent. */
  lemma {:induction false} DistributionCounts(reviews: map<nat, Review>, productId: nat, k: nat, n: nat, rating: int)
    requires 1 <= rating
    ensures LastCount(Groups(reviews, productId, k, n), rating) == if rating <= k then RatingCount(reviews, productId, rating, n) else 0
  {
    if k > 0 {
      DistributionCounts(reviews, productId, k - 1, n, rating);
      var front := Groups(reviews, productId, k - 1, n);
      var g := Groups(reviews, productId, k, n);
      if RatingCount(reviews, productId, k, n) > 0 {
        assert g[..|g| - 1] == front;
      } else {
        assert g == front;
        if rating == k {
          CountNonNegative(reviews, WithRating(productId, k), n);
        }
      }
    } else {
      assert Groups(reviews, productId, 0, n) == [];
    }
  }

  /** The rows a listing keeps: the product's reviews, with the given rating when a filter is set. */
  function ListingFilter(productId: nat, ratingFilter: Option<int>): Review -> bool {
    (v: Review) => v.productId == productId && (ratingFilter.None? || ratingFilter.value == 0 || v.rating == ratingFilter.value)
  }

  /**
   * `Math.round(average * 10) / 10`, counted in tenths: the average `num / den` times ten,
   * rounded half up to a whole number (43 stands for 4.3).
   */
  function RoundToTenth(avg: (int, int)): (t: int)
    requires avg.1 >= 1
    ensures RoundsTo(avg.0, avg.1, t)
  {
    var x, d := 20 * avg.0 + avg.1, 2 * avg.1;
    var q := x / d;
    assert x == d * q + x % d && 0 <= x % d < d;
    q
  }

  /** `t` tenths is `num / den` rounded half up: `t / 10 <= num / den + 1 / 20 < (t + 1) / 10`. */
  predicate RoundsTo(num: int, den: int, t: int) {
    2 * den * t <= 20 * num + den < 2 * den * (t + 1)
  }

  /** An average between 1 and 5 rounds to between 1.0 and 5.0. */
  lemma TenthsInRange(avg: (int, int))
    requires 1 <= avg.1 <= avg.0 <= 5 * avg.1
    ensures 10 <= RoundToTenth(avg) <= 50
  {
    var (num, den) := avg;
    var t := RoundToTenth(avg);
    assert den * 21 < den * (2 * t + 2);
    FactorBelow(den, 21, 2 * t + 2);
    assert den * (2 * t) < den * 102;
    FactorBelow(den, 2 * t, 102);
  }

  /** A positive factor keeps the order of the other factors. */
  lemma FactorBelow(d: int, x: int, y: int)
    requires d > 0 && d * x < d * y
    ensures x < y
  {
  }

  /** The product's average as the listing reports it, in tenths. */
  lemma RoundedAverage(reviews: map<nat, Review>, productId: nat, n: nat)
    requires RatingsInRange(reviews)
    ensures var stats := Stats(reviews, productId, n);
            var t := RoundToTenth(AverageRating(stats));
            (TotalReviews(stats) > 0 ==> RoundsTo(Sum(reviews, RatingTerm(productId), n), TotalReviews(stats), t) && 10 <= t <= 50) &&
            (TotalReviews(stats) == 0 ==> t == 0)
  {
    var stats := Stats(reviews, productId, n);
    StatsTotals(reviews, productId, n);
    AverageInRange(reviews, productId, n);
    if TotalReviews(stats) > 0 {
      TenthsInRange(AverageRating(stats));
    }
  }

  datatype ReviewStats = ReviewStats(totalReviews: nat, averageRating: int, ratingDistribution: map<int, nat>)

  datatype ReviewListing = ReviewListing(ids: seq<nat>, page: nat, limit: nat, total: nat, totalPages: nat, stats: ReviewStats)

  /**
   * `getProductReviews`: one page of the product's reviews, newest first, filtered by rating when
   * a non-zero filter is given; the count of the filtered rows; and statistics over all the
   * product's reviews. A missing filter, or 0, keeps every review of the product.
   */
  method GetProductReviews(db: Db, productId: nat, page: nat, limit: nat, ratingFilter: Option<int>) returns (r: ReviewListing)
    requires page >= 1 && limit >= 1
    requires db.data.ReviewsValid()
    ensures var d := db.data;
            var rows := Reverse(Select(d.reviews, ListingFilter(productId, ratingFilter), d.nextReviewId));
            r.ids == Page(rows, page, limit) && r.page == page && r.limit == limit &&
            r.total == |rows| && r.totalPages == TotalPages(|rows|, limit)
    ensures r.stats.totalReviews == Count(db.data.reviews, OfProduct(productId), db.data.nextReviewId)
    ensures var num, den := Sum(db.data.reviews, RatingTerm(productId), db.data.nextReviewId), r.stats.totalReviews;
            den > 0 ==> RoundsTo(num, den, r.stats.averageRating)
    ensures r.stats.totalReviews > 0 ==> 10 <= r.stats.averageRating <= 50
    ensures r.stats.totalReviews == 0 ==> r.stats.averageRating == 0
    ensures forall k :: k in r.stats.ratingDistribution <==> 1 <= k <= 5
    ensures forall k :: 1 <= k <= 5 ==> r.stats.ratingDistribution[k] == RatingCount(db.data.reviews, productId, k, db.data.nextReviewId)
  {
    var d := db.data;
    var rows := Reverse(Select(d.reviews, ListingFilter(productId, ratingFilter), d.nextReviewId));
    var total := |rows|;
    var stats := Stats(d.reviews, productId, d.nextReviewId);
    StatsTotals(d.reviews, productId, d.nextReviewId);
    RoundedAverage(d.reviews, productId, d.nextReviewId);
    GroupsInRange(d.reviews, productId, 5, d.nextReviewId);
    assert forall i :: 0 <= i < |stats| ==> 1 <= stats[i].rating <= 5;
    var dist := RatingDistribution(stats);
    forall k | 1 <= k <= 5
      ensures dist[k] == RatingCount(d.reviews, productId, k, d.nextReviewId)
    {
      DistributionCounts(d.reviews, productId, 5, d.nextReviewId, k);
    }
    r := ReviewListing(Page(rows, page, limit), page, limit, total, TotalPages(total, limit),
                       ReviewStats(TotalReviews(stats), RoundToTenth(AverageRating(stats)), dist));
  }

  /** Without a rating filter the listing's `total` is the `totalReviews` of the stats. */
  lemma UnfilteredTotal(reviews: map<nat, Review>, productId: nat, n: nat)
    requires RatingsInRange(reviews)
    ensures |Select(reviews, ListingFilter(productId, None), n)| == TotalReviews(Stats(reviews, productId, n))
  {
    assert Select(reviews, ListingFilter(productId, None), n) == Select(reviews, OfProduct(productId), n) by {
      SelectSameKeep(reviews, ListingFilter(productId, None), OfProduct(productId), n);
    }
    CountIsSelectSize(reviews, OfProduct(productId), n);
    StatsTotals(reviews, productId, n);
  }

  /** Two filters that agree on every row select the same ids. */
  lemma {:induction false} SelectSameKeep(m: map<nat, Review>, f: Review -> bool, g: Review -> bool, n: nat)
    requires forall k :: k in m ==> f(m[k]) == g(m[k])
    ensures Select(m, f, n) == Select(m, g, n)
  {
    if n > 0 {
      SelectSameKeep(m, f, g, n - 1);
    }
  }

  /**
   * `updateReview` with a body that passed `updateReviewSchema`: the given fields replace the
   * review's, the others stay.
   */
  function Patched(review: Review, rating: Option<int>, comment: Option<string>): (r: Review)
    ensures r.productId == review.productId && r.userId == review.userId
    ensures r.rating == rating.GetOr(review.rating) && r.comment == (if comment.Some? then comment else review.comment)
  {
    review.(rating := rating.GetOr(review.rating), comment := if comment.Some? then comment else review.comment)
  }

  /** The checks of `updateReview` and `deleteReview`: the review must exist and be the caller's. */
  function AuthorRejection(reviews: map<nat, Review>, userId: nat, reviewId: nat, action: string): Option<AppError> {
    if reviewId !in reviews then Some(NotFound("Review not found"))
    else if reviews[reviewId].userId != userId then Some(Forbidden("You can only " + action + " your own reviews"))
    else None
  }

  /** `updateReview`: the author's review gets the given fields; nothing else changes. */
  method UpdateReview(db: Db, userId: nat, reviewId: nat, rating: Option<int>, comment: Option<string>) returns (r: Result<Review, AppError>)
    requires UpdateReviewOk(rating, comment)
    requires db.data.ReviewsValid()
    modifies db
    ensures db.data.ReviewsValid()
    ensures var d := old(db.data);
            var rejection := AuthorRejection(d.reviews, userId, reviewId, "update");
            (r.Err? <==> rejection.Some?) && (r.Err? ==> r.error == rejection.value && db.data == d)
    ensures var d := old(db.data);
            r.Ok? ==> r.value == Patched(d.reviews[reviewId], rating, comment) &&
                      db.data == d.(reviews := d.reviews[reviewId := r.value])
  {
    var d := db.data;
    var rejection := AuthorRejection(d.reviews, userId, reviewId, "update");
    if rejection.Some? {
      return Err(rejection.value);
    }
    var updated := Patched(d.reviews[reviewId], rating, comment);
    var reviews := d.reviews[reviewId := updated];
    forall a, b | a in reviews && b in reviews && ReviewKey(reviews, a) == ReviewKey(reviews, b)
      ensures a == b
    {
      assert ReviewKey(d.reviews, a) == ReviewKey(d.reviews, b);
    }
    db.data := d.(reviews := reviews);
    r := Ok(updated);
  }

  /** `deleteReview`: the author's review is removed; nothing else changes. */
  method DeleteReview(db: Db, userId: nat, reviewId: nat) returns (r: Result<string, AppError>)
    requires db.data.ReviewsValid()
    modifies db
    ensures db.data.ReviewsValid()
    ensures var d := old(db.data);
            var rejection := AuthorRejection(d.reviews, userId, reviewId, "delete");
            (r.Err? <==> rejection.Some?) && (r.Err? ==> r.error == rejection.value && db.data == d)
    ensures var d := old(db.data);
            r.Ok? ==> r.value == "Review deleted successfully" && db.data == d.(reviews := d.reviews - {reviewId})
  {
    var d := db.data;
    var rejection := AuthorRejection(d.reviews, userId, reviewId, "delete");
    if rejection.Some? {
      return Err(rejection.value);
    }
    var reviews := d.reviews - {reviewId};
    forall a, b | a in reviews && b in reviews && ReviewKey(reviews, a) == ReviewKey(reviews, b)
      ensures a == b
    {
      assert ReviewKey(d.reviews, a) == ReviewKey(d.reviews, b);
    }
    db.data := d.(reviews := reviews);
    r := Ok("Review deleted successfully");
  }

  /** Only the author gets past the checks, for an update and a deletion alike. */
  lemma OnlyAuthor(reviews: map<nat, Review>, userId: nat, reviewId: nat, action: string)
    ensures AuthorRejection(reviews, userId, reviewId, action).None? <==> reviewId in reviews && reviews[reviewId].userId == userId
  {
  }
}

=== FILE: schemas.dfy ===
/**
 * The request validators that stand in front of the cart, review, address and category services.
 * Each schema is a predicate on the fields a request carries; a field the client may leave out
 * is an `Option`. Where a schema fills in a default, `Parse…` gives the value the schema
 * produces, or None when the request is refused. Ids are table counters in this model, so the
 * UUID format checks on ids have no counterpart here.
 */
module Schemas {
  import opened Wrappers
  import opened Text

  // cart.schema.ts

  const MAX_CART_QUANTITY := 99

  /** The quantity of `addToCartSchema`: an integer from 1 to 99, 1 when left out. */
  function ParseAddQuantity(quantity: Option<int>): (r: Option<nat>)
    ensures r.Some? <==> quantity.None? || 1 <= quantity.value <= MAX_CART_QUANTITY
    ensures r.Some? ==> 1 <= r.value <= MAX_CART_QUANTITY
    ensures r.Some? && quantity.Some? ==> r.value == quantity.value
    ensures quantity.None? ==> r == Some(1)
  {
    match quantity
    case None => Some(1)
    case Some(q) => if 1 <= q <= MAX_CART_QUANTITY then Some(q as nat) else None
  }

  /** The quantity of `updateCartItemSchema`: required, an integer from 0 to 99. */
  predicate UpdateQuantityOk(quantity: int) {
    0 <= quantity <= MAX_CART_QUANTITY
  }

  /** Zero passes only the update schema, where it asks for the item's removal. */
  lemma ZeroOnlyOnUpdate()
    ensures UpdateQuantityOk(0) && ParseAddQuantity(Some(0)).None?
    ensures forall q: int :: ParseAddQuantity(Some(q)).Some? ==> UpdateQuantityOk(q)
  {
  }

  // review.schema.ts

  const MIN_COMMENT_LENGTH := 10
  const MAX_COMMENT_LENGTH := 1000

  /** A rating: an integer from 1 to 5. */
  predicate RatingOk(rating: int) {
    1 <= rating <= 5
  }

  /** An optional comment: when given, 10 to 1000 characters long. */
  predicate CommentOk(comment: Option<string>) {
    comment.None? || MIN_COMMENT_LENGTH <= |comment.value| <= MAX_COMMENT_LENGTH
  }

  /** `createReviewSchema`: a rating is required, a comment optional. */
  predicate CreateReviewOk(rating: int, comment: Option<string>) {
    RatingOk(rating) && CommentOk(comment)
  }

  /** `updateReviewSchema`: both fields optional, with the create bounds when given. */
  predicate UpdateReviewOk(rating: Option<int>, comment: Option<string>) {
    (rating.None? || RatingOk(rating.value)) && CommentOk(comment)
  }

  /** Whatever passes the create schema passes the update schema too. */
  lemma CreateFieldsUpdate(rating: int, comment: Option<string>)
    requires CreateReviewOk(rating, comment)
    ensures UpdateReviewOk(Some(rating), comment) && UpdateReviewOk(None, comment)
  {
  }

  /** The query of `getProductReviewsSchema`: page "1" and limit "10" when left out. */
  function ReviewQueryDefaults(page: Option<string>, limit: Option<string>): (r: (string, string))
    ensures page.Some? ==> r.0 == page.value
    ensures limit.Some? ==> r.1 == limit.value
    ensures page.None? ==> r.0 == "1"
    ensures limit.None? ==> r.1 == "10"
  {
    (page.GetOr("1"), limit.GetOr("10"))
  }

  // address.schema.ts

  /** The fields of a new address as the client sends them. */
  datatype AddressInput = AddressInput(
    fullName: string, phone: string, addressLine1: string, addressLine2: Option<string>,
    city: string, state: string, postalCode: string, country: Option<string>, isDefault: Option<bool>)

  /** `/^01\d{9}$/`: "01" and nine more digits, eleven characters in all. */
  predicate PhoneOk(phone: string) {
    |phone| == 11 && phone[..2] == "01" && forall i :: 2 <= i < |phone| ==> IsDigit(phone[i])
  }

  /** The accepted phone numbers are exactly "01" followed by nine digits. */
  lemma PhoneShape(phone: string)
    ensures PhoneOk(phone) <==> exists rest :: phone == "01" + rest && |rest| == 9 && forall i :: 0 <= i < 9 ==> IsDigit(rest[i])
  {
    if PhoneOk(phone) {
      assert phone == "01" + phone[2..];
    }
  }

  /** The minimum lengths of `createAddressSchema`. */
  predicate AddressLengthsOk(fullName: string, addressLine1: string, city: string, state: string, postalCode: string) {
    |fullName| >= 2 && |addressLine1| >= 5 && |city| >= 2 && |state| >= 2 && |postalCode| >= 4
  }

  /** `createAddressSchema`. */
  predicate CreateAddressOk(a: AddressInput) {
    AddressLengthsOk(a.fullName, a.addressLine1, a.city, a.state, a.postalCode) && PhoneOk(a.phone)
  }

  /** The country and default flag the create schema fills in: "Bangladesh" and false. */
  function AddressDefaults(a: AddressInput): (r: AddressInput)
    ensures r.country.Some? && r.isDefault.Some?
    ensures a.country.None? ==> r.country == Some("Bangladesh")
    ensures a.isDefault.None? ==> r.isDefault == Some(false)
    ensures r.(country := a.country, isDefault := a.isDefault) == a
  {
    a.(country := Some(a.country.GetOr("Bangladesh")), isDefault := Some(a.isDefault.GetOr(false)))
  }

  /** The fields an address update may carry, each optional. */
  datatype AddressPatch = AddressPatch(
    fullName: Option<string>, phone: Option<string>, addressLine1: Option<string>, addressLine2: Option<string>,
    city: Option<string>, state: Option<string>, postalCode: Option<string>, country: Option<string>, isDefault: Option<bool>)

  /** `updateAddressSchema`: each given field within the create bounds. */
  predicate UpdateAddressOk(p: AddressPatch) {
    (p.fullName.None? || |p.fullName.value| >= 2) &&
    (p.phone.None? || PhoneOk(p.phone.value)) &&
    (p.addressLine1.None? || |p.addressLine1.value| >= 5) &&
    (p.city.None? || |p.city.value| >= 2) &&
    (p.state.None? || |p.state.value| >= 2) &&
    (p.postalCode.None? || |p.postalCode.value| >= 4)
  }

  /** The update that sets every field of a valid new address passes the update schema. */
  lemma CreateFieldsPatch(a: AddressInput)
    requires CreateAddressOk(a)
    ensures UpdateAddressOk(AddressPatch(Some(a.fullName), Some(a.phone), Some(a.addressLine1), a.addressLine2,
                                         Some(a.city), Some(a.state), Some(a.postalCode), a.country, a.isDefault))
  {
  }

  // category.schema.ts

  /** A category name: at least two characters. */
  predicate CategoryNameOk(name: string) {
    |name| >= 2
  }

  /**
   * The parent of `updateCategorySchema`: left out (no change), null (no parent) or an id. The
   * create schema allows only the first and the last.
   */
  datatype ParentChange = KeepParent | ClearParent | SetParent(parentId: nat)

  /** The orderings `getCategoryProductsSchema` accepts. */
  predicate SortByOk(sortBy: string) {
    sortBy == "price_asc" || sortBy == "price_desc" || sortBy == "newest" || sortBy == "name"
  }

  /** The sort order of the category product listing: "newest" when left out, else one of four. */
  function ParseSortBy(sortBy: Option<string>): (r: Option<string>)
    ensures r.Some? <==> sortBy.None? || SortByOk(sortBy.value)
    ensures r.Some? ==> SortByOk(r.value)
    ensures sortBy.None? ==> r == Some("newest")
    ensures r.Some? && sortBy.Some? ==> r.value == sortBy.value
  {
    match sortBy
    case None => Some("newest")
    case Some(s) => if SortByOk(s) then Some(s) else None
  }

  /** The query of `getCategoryProductsSchema`: page "1" and limit "20" when left out. */
  function CategoryQueryDefaults(page: Option<string>, limit: Option<string>): (r: (string, string))
    ensures page.Some? ==> r.0 == page.value
    ensures limit.Some? ==> r.1 == limit.value
    ensures page.None? ==> r.0 == "1"
    ensures limit.None? ==> r.1 == "20"
  {
    (page.GetOr("1"), limit.GetOr("20"))
  }
}

=== FILE: slug.dfy ===
/**
 * Slugs, as shared/utils/slug.util.ts makes them. `GenerateSlug` is the chain
 * lower-case, drop every character that is not a word character, whitespace or `-`,
 * turn each whitespace run into `-`, squeeze each `-` run to one `-`, trim.
 * `GenerateUniqueSlug` appends `-1`, `-2`, ... until the slug is not taken.
 */
module Slugs {
  import opened Wrappers
  import opened Text

  /** `\w` of a JavaScript regular expression without the `u` flag. */
  predicate IsWordChar(c: char) {
    'a' <= c <= 'z' || 'A' <= c <= 'Z' || '0' <= c <= '9' || c == '_'
  }

  /** `\s` of a JavaScript regular expression: WhiteSpace and LineTerminator code points. */
  predicate IsSpace(c: char) {
    var u := c as int;
    (0x09 <= u <= 0x0D) || u == 0x20 || u == 0xA0 || u == 0x1680 || (0x2000 <= u <= 0x200A) ||
    u == 0x2028 || u == 0x2029 || u == 0x202F || u == 0x205F || u == 0x3000 || u == 0xFEFF
  }

  predicate IsHyphen(c: char) { c == '-' }

  /** The characters a slug is made of: lower-case letters, digits, `_` and `-`. */
  predicate IsSlugChar(c: char) {
    'a' <= c <= 'z' || '0' <= c <= '9' || c == '_' || c == '-'
  }

  predicate AllSlugChars(s: string) {
    forall i :: 0 <= i < |s| ==> IsSlugChar(s[i])
  }

  predicate NoDoubleHyphen(s: string) {
    forall i :: 0 <= i < |s| - 1 ==> !(s[i] == '-' && s[i + 1] == '-')
  }

  function LowerChar(c: char): char {
    if 'A' <= c <= 'Z' then (c as int + 32) as char else c
  }

  /** `toLowerCase()`, on the ASCII letters. */
  function ToLower(s: string): (r: string)
    ensures |r| == |s|
    ensures forall i :: 0 <= i < |s| ==> r[i] == LowerChar(s[i])
  {
    if s == [] then [] else [LowerChar(s[0])] + ToLower(s[1..])
  }

  predicate Kept(c: char) { IsWordChar(c) || IsSpace(c) || c == '-' }

  /** `replace(/[^\w\s-]/g, '')`. */
  function StripSpecial(s: string): (r: string)
    ensures forall c :: c in r ==> c in s && Kept(c)
  {
    if s == [] then [] else (if Kept(s[0]) then [s[0]] else []) + StripSpecial(s[1..])
  }

  /** Drops the leading run of characters satisfying `inRun`. */
  function SkipRun(s: string, inRun: char -> bool): (r: string)
    ensures |r| <= |s| && r == s[|s| - |r|..]
    ensures r != [] ==> !inRun(r[0])
  {
    if s != [] && inRun(s[0]) then SkipRun(s[1..], inRun) else s
  }

  /** Replaces each maximal run of characters satisfying `inRun` by one `-`: `replace(/X+/g, '-')`. */
  function CollapseRuns(s: string, inRun: char -> bool): (r: string)
    decreases |s|
  {
    if s == [] then []
    else if inRun(s[0]) then "-" + CollapseRuns(SkipRun(s[1..], inRun), inRun)
    else [s[0]] + CollapseRuns(s[1..], inRun)
  }

  /** Every character of the result is a `-` or a character of the input outside the runs. */
  lemma {:induction false} CollapseChars(s: string, inRun: char -> bool)
    ensures forall c :: c in CollapseRuns(s, inRun) ==> c == '-' || (c in s && !inRun(c))
    decreases |s|
  {
    if s == [] {
    } else if inRun(s[0]) {
      var t := SkipRun(s[1..], inRun);
      CollapseChars(t, inRun);
      assert forall c :: c in t ==> c in s;
    } else {
      CollapseChars(s[1..], inRun);
    }
  }

  /** `trim()`: drops leading and trailing whitespace. */
  function Trim(s: string): string {
    TrimEnd(SkipRun(s, IsSpace))
  }

  function TrimEnd(s: string): (r: string)
    ensures |r| <= |s|
  {
    if s != [] && IsSpace(s[|s| - 1]) then TrimEnd(s[..|s| - 1]) else s
  }

  /** `generateSlug(text)`: only slug characters, and never two hyphens in a row. */
  function GenerateSlug(text: string): (r: string)
    ensures AllSlugChars(r)
    ensures NoDoubleHyphen(r)
  {
    var stripped := StripSpecial(ToLower(text));
    var spaced := CollapseRuns(stripped, IsSpace);
    var squeezed := CollapseRuns(spaced, IsHyphen);
    StepsGiveSlugChars(text);
    CollapseHyphensNoDouble(spaced);
    TrimIdentity(squeezed);
    Trim(squeezed)
  }

  lemma StepsGiveSlugChars(text: string)
    ensures AllSlugChars(CollapseRuns(CollapseRuns(StripSpecial(ToLower(text)), IsSpace), IsHyphen))
  {
    var lowered := ToLower(text);
    var stripped := StripSpecial(lowered);
    forall c | c in stripped ensures IsSlugChar(c) || IsSpace(c) {
      var i :| 0 <= i < |lowered| && lowered[i] == c;
    }
    var spaced := CollapseRuns(stripped, IsSpace);
    CollapseChars(stripped, IsSpace);
    assert forall c :: c in spaced ==> IsSlugChar(c);
    var squeezed := CollapseRuns(spaced, IsHyphen);
    CollapseChars(spaced, IsHyphen);
    assert forall c :: c in squeezed ==> IsSlugChar(c);
    forall i | 0 <= i < |squeezed| ensures IsSlugChar(squeezed[i]) {
      assert squeezed[i] in squeezed;
    }
  }

  lemma {:induction false} TrimEndIdentity(s: string)
    requires AllSlugChars(s)
    ensures TrimEnd(s) == s
  {
    if s != [] {
      assert IsSlugChar(s[|s| - 1]);
    }
  }

  /** Trimming a string of slug characters removes nothing. */
  lemma TrimIdentity(s: string)
    requires AllSlugChars(s)
    ensures Trim(s) == s
  {
    if s != [] {
      assert IsSlugChar(s[0]);
    }
    TrimEndIdentity(s);
  }

  lemma {:induction false} CollapseFirst(s: string, inRun: char -> bool)
    requires s != []
    ensures CollapseRuns(s, inRun) != []
    ensures CollapseRuns(s, inRun)[0] == if inRun(s[0]) then '-' else s[0]
  {
  }

  /** After squeezing hyphen runs, no two hyphens are adjacent. */
  lemma {:induction false} CollapseHyphensNoDouble(s: string)
    ensures NoDoubleHyphen(CollapseRuns(s, IsHyphen))
    decreases |s|
  {
    if s == [] {
    } else if IsHyphen(s[0]) {
      var t := SkipRun(s[1..], IsHyphen);
      CollapseHyphensNoDouble(t);
      if t != [] { CollapseFirst(t, IsHyphen); }
    } else {
      CollapseHyphensNoDouble(s[1..]);
    }
  }

  /** Collapsing runs changes nothing when every run character is a lone `-`. */
  lemma {:induction false} CollapseIdentity(s: string, inRun: char -> bool)
    requires forall i :: 0 <= i < |s| && inRun(s[i]) ==> s[i] == '-'
    requires forall i :: 0 <= i < |s| - 1 ==> !(inRun(s[i]) && inRun(s[i + 1]))
    ensures CollapseRuns(s, inRun) == s
    decreases |s|
  {
    if s != [] {
      var t := s[1..];
      forall i | 0 <= i < |t| && inRun(t[i]) ensures t[i] == '-' {
        assert t[i] == s[i + 1];
      }
      forall i | 0 <= i < |t| - 1 ensures !(inRun(t[i]) && inRun(t[i + 1])) {
        assert t[i] == s[i + 1] && t[i + 1] == s[i + 2];
      }
      CollapseIdentity(t, inRun);
      if inRun(s[0]) {
        assert s[0] == '-';
        assert t == [] || !inRun(t[0]);
        assert SkipRun(t, inRun) == t;
        assert CollapseRuns(s, inRun) == "-" + CollapseRuns(t, inRun);
      } else {
        assert CollapseRuns(s, inRun) == [s[0]] + CollapseRuns(t, inRun);
      }
      assert [s[0]] + t == s;
    }
  }

  lemma ToLowerIdentity(s: string)
    requires AllSlugChars(s)
    ensures ToLower(s) == s
  {
    assert forall i :: 0 <= i < |s| ==> ToLower(s)[i] == s[i];
  }

  lemma {:induction false} StripIdentity(s: string)
    requires AllSlugChars(s)
    ensures StripSpecial(s) == s
  {
    if s != [] {
      assert IsSlugChar(s[0]);
      assert AllSlugChars(s[1..]) by {
        forall i | 0 <= i < |s| - 1 ensures IsSlugChar(s[1..][i]) {
          assert s[1..][i] == s[i + 1];
        }
      }
      StripIdentity(s[1..]);
    }
  }

  /** A slug is its own slug: `generateSlug(generateSlug(t)) == generateSlug(t)`. */
  lemma SlugIdempotent(text: string)
    ensures GenerateSlug(GenerateSlug(text)) == GenerateSlug(text)
  {
    var s := GenerateSlug(text);
    ToLowerIdentity(s);
    StripIdentity(s);
    CollapseIdentity(s, IsSpace);
    CollapseIdentity(s, IsHyphen);
    TrimIdentity(s);
  }

  /** The final trim keeps edge hyphens: leading whitespace becomes a leading `-`. */
  lemma LeadingSpaceGivesHyphen(text: string)
    requires text != [] && IsSpace(text[0])
    ensures GenerateSlug(text) != [] && GenerateSlug(text)[0] == '-'
  {
    var lowered := ToLower(text);
    assert lowered[0] == text[0];
    assert lowered == [text[0]] + lowered[1..];
    var stripped := StripSpecial(lowered);
    assert stripped == [text[0]] + StripSpecial(lowered[1..]);
    var spaced := CollapseRuns(stripped, IsSpace);
    CollapseFirst(stripped, IsSpace);
    CollapseFirst(spaced, IsHyphen);
    var squeezed := CollapseRuns(spaced, IsHyphen);
    StepsGiveSlugChars(text);
    TrimIdentity(squeezed);
  }

  /** The `counter`-th candidate of the unique-slug search: the base itself, then base-1, base-2, ... */
  function Candidate(base: string, k: nat): string {
    if k == 0 then base else base + "-" + NatToString(k)
  }

  function CandidatesBelow(base: string, n: nat): set<string> {
    set k | 0 <= k < n :: Candidate(base, k)
  }

  lemma CandidateInjective(base: string, j: nat, k: nat)
    requires Candidate(base, j) == Candidate(base, k)
    ensures j == k
  {
    if j != 0 && k != 0 {
      var cj, ck := Candidate(base, j), Candidate(base, k);
      assert cj[|base| + 1..] == NatToString(j);
      assert ck[|base| + 1..] == NatToString(k);
      NatToStringInjective(j, k);
    }
  }

  /** The candidates below `n + 1` are those below `n` and one more, which is new. */
  lemma CandidatesSnoc(base: string, n: nat)
    ensures CandidatesBelow(base, n + 1) == CandidatesBelow(base, n) + {Candidate(base, n)}
    ensures Candidate(base, n) !in CandidatesBelow(base, n)
  {
    if Candidate(base, n) in CandidatesBelow(base, n) {
      var k :| 0 <= k < n && Candidate(base, k) == Candidate(base, n);
      CandidateInjective(base, k, n);
    }
  }

  lemma {:induction false} CandidatesBelowSize(base: string, n: nat)
    ensures |CandidatesBelow(base, n)| == n
  {
    if n > 0 {
      CandidatesBelowSize(base, n - 1);
      CandidatesSnoc(base, n - 1);
    }
  }

  /**
   * `generateUniqueSlug(text, model)`, with the slugs already stored in the model's table as
   * `existing`. The result is not taken, and it is the first free candidate.
   */
  method GenerateUniqueSlug(text: string, existing: set<string>) returns (finalSlug: string)
    ensures FirstFree(finalSlug, text, existing)
    ensures GenerateSlug(text) !in existing ==> finalSlug == GenerateSlug(text)
  {
    var slug := GenerateSlug(text);
    var counter := 1;
    finalSlug := slug;
    while finalSlug in existing
      invariant counter >= 1
      invariant finalSlug == Candidate(slug, counter - 1)
      invariant CandidatesBelow(slug, counter - 1) <= existing
      decreases |existing| - (counter - 1)
    {
      CandidatesGrow(slug, counter, existing);
      finalSlug := slug + "-" + NatToString(counter);
      counter := counter + 1;
    }
    assert finalSlug == Candidate(slug, counter - 1);
  }

  /**
   * Whether an update looks for a new slug: `data.name && data.name !== current.name`, a
   * non-empty name different from the current one.
   */
  predicate Renames(current: string, name: Option<string>) {
    name.Some? && name.value != [] && name.value != current
  }

  /** `slug` is what the unique-slug search returns for `text`: the first candidate not in `existing`. */
  ghost predicate FirstFree(slug: string, text: string, existing: set<string>) {
    slug !in existing &&
    exists k: nat :: slug == Candidate(GenerateSlug(text), k) && CandidatesBelow(GenerateSlug(text), k) <= existing
  }

  /** The search has one answer: two first free candidates are the same candidate. */
  lemma FirstFreeUnique(a: string, b: string, text: string, existing: set<string>)
    requires FirstFree(a, text, existing) && FirstFree(b, text, existing)
    ensures a == b
  {
    var base := GenerateSlug(text);
    var i: nat :| a == Candidate(base, i) && CandidatesBelow(base, i) <= existing;
    var j: nat :| b == Candidate(base, j) && CandidatesBelow(base, j) <= existing;
  }

  /** One more taken candidate: the taken prefix grows, and it never outgrows the taken set. */
  lemma CandidatesGrow(base: string, n: nat, existing: set<string>)
    requires n >= 1
    requires CandidatesBelow(base, n - 1) <= existing
    requires Candidate(base, n - 1) in existing
    ensures CandidatesBelow(base, n) <= existing
    ensures n <= |existing|
  {
    assert CandidatesBelow(base, n) == CandidatesBelow(base, n - 1) + {Candidate(base, n - 1)};
    CandidatesBelowSize(base, n);
    SubsetSize(CandidatesBelow(base, n), existing);
  }

  lemma SubsetSize<T>(a: set<T>, b: set<T>)
    requires a <= b
    ensures |a| <= |b|
  {
    assert b == a + (b - a);
  }
}

=== FILE: store.dfy ===
/**
 * The database the services work on: one table per entity, each a map from row id to row, and
 * one id counter per table that stands in for the database's generated UUIDs. `Valid` collects the
 * uniqueness constraints the database enforces and the reference and value invariants the
 * services maintain between them.
 */
module Store {
  import opened Wrappers
  import opened Tables
  import opened Entities

  ghost predicate StockNonNegative(products: map<nat, Product>) {
    forall k :: k in products ==> products[k].stock >= 0
  }

  /** Every order line names a product that still exists. */
  ghost predicate OrderItemsExist(orders: map<nat, Order>, products: map<nat, Product>) {
    forall k, i :: k in orders && 0 <= i < |orders[k].items| ==> orders[k].items[i].productId in products
  }

  /** Every order's total is the sum of its line totals. */
  ghost predicate OrderTotalsMatch(orders: map<nat, Order>) {
    forall k :: k in orders ==> orders[k].total == OrderTotal(orders[k].items)
  }

  /** Every cart item lies in an existing cart and names an existing product. */
  ghost predicate CartItemsExist(cartItems: map<nat, CartItem>, carts: map<nat, Cart>, products: map<nat, Product>) {
    forall k :: k in cartItems ==> cartItems[k].cartId in carts && cartItems[k].productId in products
  }

  /*
   * Each uniqueness rule compares rows through a key function of its own, so that the rule is
   * used only where a proof names that key, not at every lookup into the table.
   */

  /** The (cart_id, product_id) key of a cart item. */
  ghost function ItemKey(cartItems: map<nat, CartItem>, k: nat): (nat, nat)
    requires k in cartItems
  {
    (cartItems[k].cartId, cartItems[k].productId)
  }

  /** The unique (cart_id, product_id) pair of the cart-item table. */
  ghost predicate OneItemPerProduct(cartItems: map<nat, CartItem>) {
    forall a, b :: a in cartItems && b in cartItems && ItemKey(cartItems, a) == ItemKey(cartItems, b) ==> a == b
  }

  ghost function CartOwner(carts: map<nat, Cart>, k: nat): nat
    requires k in carts
  {
    carts[k].userId
  }

  /** The unique user_id of the cart table. */
  ghost predicate OneCartPerUser(carts: map<nat, Cart>) {
    forall a, b :: a in carts && b in carts && CartOwner(carts, a) == CartOwner(carts, b) ==> a == b
  }

  /** Every payment belongs to an existing order and charges that order's total. */
  ghost predicate PaymentsMatchOrders(payments: map<nat, Payment>, orders: map<nat, Order>) {
    forall k :: k in payments ==> payments[k].orderId in orders && payments[k].amount == orders[payments[k].orderId].total
  }

  ghost function PaidOrder(payments: map<nat, Payment>, k: nat): nat
    requires k in payments
  {
    payments[k].orderId
  }

  /** The unique order_id of the payment table: an order has at most one payment. */
  ghost predicate OnePaymentPerOrder(payments: map<nat, Payment>) {
    forall a, b :: a in payments && b in payments && PaidOrder(payments, a) == PaidOrder(payments, b) ==> a == b
  }

  ghost predicate RatingsInRange(reviews: map<nat, Review>) {
    forall k :: k in reviews ==> 1 <= reviews[k].rating <= 5
  }

  /** The (product_id, user_id) key of a review. */
  ghost function ReviewKey(reviews: map<nat, Review>, k: nat): (nat, nat)
    requires k in reviews
  {
    (reviews[k].productId, reviews[k].userId)
  }

  /** The unique (product_id, user_id) pair of the review table. */
  ghost predicate OneReviewPerUser(reviews: map<nat, Review>) {
    forall a, b :: a in reviews && b in reviews && ReviewKey(reviews, a) == ReviewKey(reviews, b) ==> a == b
  }

  /** The user whose default address row `k` is, if it is a default. */
  ghost function DefaultOf(addresses: map<nat, Address>, k: nat): Option<nat>
    requires k in addresses
  {
    if addresses[k].isDefault then Some(addresses[k].userId) else None
  }

  ghost predicate AtMostOneDefault(addresses: map<nat, Address>) {
    forall a, b ::
      a in addresses && b in addresses && DefaultOf(addresses, a).Some? && DefaultOf(addresses, a) == DefaultOf(addresses, b) ==> a == b
  }

  /** The product whose primary image row `k` is, if it is a primary image. */
  ghost function PrimaryOf(images: map<nat, ProductImage>, k: nat): Option<nat>
    requires k in images
  {
    if images[k].isPrimary then Some(images[k].productId) else None
  }

  ghost predicate AtMostOnePrimary(images: map<nat, ProductImage>) {
    forall a, b ::
      a in images && b in images && PrimaryOf(images, a).Some? && PrimaryOf(images, a) == PrimaryOf(images, b) ==> a == b
  }

  ghost function ProductSlug(products: map<nat, Product>, k: nat): string
    requires k in products
  {
    products[k].slug
  }

  /** The unique slug of the product table. */
  ghost predicate UniqueProductSlugs(products: map<nat, Product>) {
    forall a, b :: a in products && b in products && ProductSlug(products, a) == ProductSlug(products, b) ==> a == b
  }

  ghost function CategorySlug(categories: map<nat, Category>, k: nat): string
    requires k in categories
  {
    categories[k].slug
  }

  /** The unique slug of the category table. */
  ghost predicate UniqueCategorySlugs(categories: map<nat, Category>) {
    forall a, b :: a in categories && b in categories && CategorySlug(categories, a) == CategorySlug(categories, b) ==> a == b
  }

  ghost predicate ProductCategoriesExist(products: map<nat, Product>, categories: map<nat, Category>) {
    forall k :: k in products && products[k].categoryId.Some? ==> products[k].categoryId.value in categories
  }

  ghost predicate ParentsExist(categories: map<nat, Category>) {
    forall k :: k in categories && categories[k].parentId.Some? ==> categories[k].parentId.value in categories
  }

  function ProductSlugs(products: map<nat, Product>): set<string> {
    set k | k in products :: products[k].slug
  }

  function CategorySlugs(categories: map<nat, Category>): set<string> {
    set k | k in categories :: categories[k].slug
  }

  ghost predicate UsersRules(users: map<nat, User>, nextUserId: nat) {
    KeysBelow(users, nextUserId)
  }

  ghost predicate CatalogRules(
    categories: map<nat, Category>, products: map<nat, Product>, images: map<nat, ProductImage>,
    nextCategoryId: nat, nextProductId: nat, nextImageId: nat)
  {
    KeysBelow(categories, nextCategoryId) && KeysBelow(products, nextProductId) && KeysBelow(images, nextImageId) &&
    StockNonNegative(products) && UniqueProductSlugs(products) && UniqueCategorySlugs(categories) &&
    ProductCategoriesExist(products, categories) && ParentsExist(categories) && AtMostOnePrimary(images)
  }

  ghost predicate CartsRules(carts: map<nat, Cart>, cartItems: map<nat, CartItem>, products: map<nat, Product>, nextCartId: nat, nextCartItemId: nat) {
    KeysBelow(carts, nextCartId) && KeysBelow(cartItems, nextCartItemId) &&
    CartItemsExist(cartItems, carts, products) && OneItemPerProduct(cartItems) && OneCartPerUser(carts)
  }

  ghost predicate OrdersRules(orders: map<nat, Order>, products: map<nat, Product>, nextOrderId: nat) {
    KeysBelow(orders, nextOrderId) && OrderItemsExist(orders, products) && OrderTotalsMatch(orders)
  }

  ghost predicate PaymentsRules(payments: map<nat, Payment>, orders: map<nat, Order>, nextPaymentId: nat) {
    KeysBelow(payments, nextPaymentId) && PaymentsMatchOrders(payments, orders) && OnePaymentPerOrder(payments)
  }

  ghost predicate ReviewsRules(reviews: map<nat, Review>, nextReviewId: nat) {
    KeysBelow(reviews, nextReviewId) && RatingsInRange(reviews) && OneReviewPerUser(reviews)
  }

  ghost predicate AddressesRules(addresses: map<nat, Address>, nextAddressId: nat) {
    KeysBelow(addresses, nextAddressId) && AtMostOneDefault(addresses)
  }

  /**
   * The rows of every table, with the next id each table hands out; every id in use in a table
   * is below its counter. The rules are grouped by the tables they read, so that an operation
   * carries only the groups over the tables it reads or writes.
   */
  datatype Data = Data(
    users: map<nat, User>, categories: map<nat, Category>, products: map<nat, Product>, images: map<nat, ProductImage>,
    carts: map<nat, Cart>, cartItems: map<nat, CartItem>, orders: map<nat, Order>, payments: map<nat, Payment>,
    addresses: map<nat, Address>, reviews: map<nat, Review>,
    nextUserId: nat, nextCategoryId: nat, nextProductId: nat, nextImageId: nat, nextCartId: nat,
    nextCartItemId: nat, nextOrderId: nat, nextPaymentId: nat, nextAddressId: nat, nextReviewId: nat)
  {
    ghost predicate UsersValid() { UsersRules(users, nextUserId) }
    ghost predicate CatalogValid() { CatalogRules(categories, products, images, nextCategoryId, nextProductId, nextImageId) }
    ghost predicate CartsValid() { CartsRules(carts, cartItems, products, nextCartId, nextCartItemId) }
    ghost predicate OrdersValid() { OrdersRules(orders, products, nextOrderId) }
    ghost predicate PaymentsValid() { PaymentsRules(payments, orders, nextPaymentId) }
    ghost predicate ReviewsValid() { ReviewsRules(reviews, nextReviewId) }
    ghost predicate AddressesValid() { AddressesRules(addresses, nextAddressId) }

    /** Every rule of the database. */
    ghost predicate Valid() {
      UsersValid() && CatalogValid() && CartsValid() && OrdersValid() && PaymentsValid() && ReviewsValid() && AddressesValid()
    }
  }

  /** The empty database. */
  function Empty(): (d: Data)
    ensures d.Valid()
  {
    Data(map[], map[], map[], map[], map[], map[], map[], map[], map[], map[], 0, 0, 0, 0, 0, 0, 0, 0, 0, 0)
  }

  /**
   * The database the services share. Each operation replaces `data` once with the tables it
   * wrote, so the writes of one operation take effect together.
   */
  class Db {
    var data: Data

    /** An empty database. */
    constructor ()
      ensures data == Empty()
    {
      data := Empty();
    }
  }
}

=== FILE: tables.dfy ===
/**
 * Queries over a table. A table is a map from row id to row; ids are handed out in increasing
 * order, so ascending id order is creation order. Every query walks the ids below a bound `n`
 * (the next free id), which covers the whole table once every key is below `n`.
 */
module Tables {
  import opened Wrappers

  /** Every row id of `m` is below `n`, so `n` and every id above it are fresh. */
  ghost predicate KeysBelow<V>(m: map<nat, V>, n: nat) {
    forall k :: k in m ==> k < n
  }

  /** The ids below `n` of the rows of `m` that satisfy `keep`, oldest first. */
  function Select<V>(m: map<nat, V>, keep: V -> bool, n: nat): (ids: seq<nat>)
    ensures forall i :: 0 <= i < |ids| ==> ids[i] in m && ids[i] < n && keep(m[ids[i]])
    ensures forall k :: k in m && k < n && keep(m[k]) ==> k in ids
    ensures forall i, j :: 0 <= i < j < |ids| ==> ids[i] < ids[j]
  {
    if n == 0 then []
    else
      var rest := Select(m, keep, n - 1);
      if n - 1 in m && keep(m[n - 1]) then rest + [n - 1] else rest
  }

  /** A selection depends only on which ids below `n` hold a row that satisfies `keep`. */
  lemma {:induction false} SelectAgree<V>(m1: map<nat, V>, m2: map<nat, V>, keep: V -> bool, n: nat)
    requires forall k: nat :: k < n ==> ((k in m1 && keep(m1[k])) <==> (k in m2 && keep(m2[k])))
    ensures Select(m1, keep, n) == Select(m2, keep, n)
  {
    if n > 0 {
      SelectAgree(m1, m2, keep, n - 1);
    }
  }

  /** Nothing is selected when no row below `n` satisfies `keep`. */
  lemma {:induction false} SelectNone<V>(m: map<nat, V>, keep: V -> bool, n: nat)
    requires forall k :: k in m && k < n ==> !keep(m[k])
    ensures Select(m, keep, n) == []
  {
    if n > 0 {
      SelectNone(m, keep, n - 1);
    }
  }

  /** The ids newest first, for listings ordered by descending creation time. */
  function Reverse(ids: seq<nat>): (r: seq<nat>)
    ensures |r| == |ids|
    ensures forall i :: 0 <= i < |ids| ==> r[i] == ids[|ids| - 1 - i]
    ensures forall x :: x in ids ==> x in r
  {
    if ids == [] then [] else [ids[|ids| - 1]] + Reverse(ids[..|ids| - 1])
  }

  /** Reversing keeps exactly the same ids. */
  lemma ReverseSameIds(ids: seq<nat>)
    ensures forall x :: x in Reverse(ids) <==> x in ids
  {
    var r := Reverse(ids);
    forall x | x in r
      ensures x in ids
    {
      var i :| 0 <= i < |r| && r[i] == x;
      assert ids[|ids| - 1 - i] == x;
    }
  }

  /** The ids of a selection newest first decrease. */
  lemma ReverseDescending(ids: seq<nat>)
    requires forall i, j :: 0 <= i < j < |ids| ==> ids[i] < ids[j]
    ensures forall i, j :: 0 <= i < j < |Reverse(ids)| ==> Reverse(ids)[i] > Reverse(ids)[j]
  {
  }

  /** `findFirst`: the oldest row satisfying `keep`, if any. */
  function First<V>(m: map<nat, V>, keep: V -> bool, n: nat): (r: Option<nat>)
    ensures r.Some? ==> r.value in m && r.value < n && keep(m[r.value])
    ensures r.Some? ==> forall k :: k in m && k < r.value && keep(m[k]) ==> false
    ensures r.None? <==> forall k :: k in m && k < n ==> !keep(m[k])
  {
    var ids := Select(m, keep, n);
    if |ids| == 0 then None
    else Some(ids[0])
  }

  /** The contribution of row `k` to a sum of `f` over `m`: nothing for a missing row. */
  function Term<V>(m: map<nat, V>, f: V -> int, k: nat): int {
    if k in m then f(m[k]) else 0
  }

  /** The sum of `f` over the rows of `m` below `n`; 0 on an empty table. */
  function Sum<V>(m: map<nat, V>, f: V -> int, n: nat): int {
    if n == 0 then 0 else Sum(m, f, n - 1) + Term(m, f, n - 1)
  }

  /** A sum depends only on the terms below the bound. */
  lemma {:induction false} SumAgree<V>(m1: map<nat, V>, f1: V -> int, m2: map<nat, V>, f2: V -> int, n: nat)
    requires forall k: nat :: k < n ==> Term(m1, f1, k) == Term(m2, f2, k)
    ensures Sum(m1, f1, n) == Sum(m2, f2, n)
  {
    if n > 0 {
      SumAgree(m1, f1, m2, f2, n - 1);
    }
  }

  /** Changing the terms at one id changes the sum by the difference at that id. */
  lemma {:induction false} SumChangeOne<V>(m1: map<nat, V>, m2: map<nat, V>, f: V -> int, n: nat, k: nat)
    requires k < n
    requires forall j: nat :: j < n && j != k ==> Term(m1, f, j) == Term(m2, f, j)
    ensures Sum(m2, f, n) == Sum(m1, f, n) - Term(m1, f, k) + Term(m2, f, k)
  {
    if n - 1 == k {
      SumAgree(m1, f, m2, f, n - 1);
    } else {
      SumChangeOne(m1, m2, f, n - 1, k);
    }
  }

  /** A sum whose only non-zero term is at `k` is that term. */
  lemma {:induction false} SumOnly<V>(m: map<nat, V>, f: V -> int, n: nat, k: nat)
    requires k < n
    requires forall j: nat :: j < n && j != k ==> Term(m, f, j) == 0
    ensures Sum(m, f, n) == Term(m, f, k)
  {
    if n - 1 == k {
      SumZero(m, f, n - 1);
    } else {
      SumOnly(m, f, n - 1, k);
    }
  }

  /** A sum of zero terms is zero. */
  lemma {:induction false} SumZero<V>(m: map<nat, V>, f: V -> int, n: nat)
    requires forall j: nat :: j < n ==> Term(m, f, j) == 0
    ensures Sum(m, f, n) == 0
  {
    if n > 0 {
      SumZero(m, f, n - 1);
    }
  }

  /** Inserting a row with a fresh id adds its term. */
  lemma SumInsert<V>(m: map<nat, V>, f: V -> int, n: nat, k: nat, v: V)
    requires k !in m && k < n
    ensures Sum(m[k := v], f, n) == Sum(m, f, n) + f(v)
  {
    SumChangeOne(m, m[k := v], f, n, k);
  }

  /** Overwriting an existing row replaces its term. */
  lemma SumUpdate<V>(m: map<nat, V>, f: V -> int, n: nat, k: nat, v: V)
    requires k in m && k < n
    ensures Sum(m[k := v], f, n) == Sum(m, f, n) - f(m[k]) + f(v)
  {
    SumChangeOne(m, m[k := v], f, n, k);
  }

  /** Once every key is below `n`, raising the bound adds nothing. */
  lemma {:induction false} SumBeyond<V>(m: map<nat, V>, f: V -> int, n: nat, n': nat)
    requires KeysBelow(m, n) && n <= n'
    ensures Sum(m, f, n') == Sum(m, f, n)
  {
    if n' > n {
      SumBeyond(m, f, n, n' - 1);
      assert n' - 1 !in m;
    }
  }

  /** A sum of pointwise sums is the sum of the two sums. */
  lemma {:induction false} SumAdd<V>(m: map<nat, V>, f: V -> int, g: V -> int, h: V -> int, n: nat)
    requires forall k :: k in m ==> h(m[k]) == f(m[k]) + g(m[k])
    ensures Sum(m, h, n) == Sum(m, f, n) + Sum(m, g, n)
  {
    if n > 0 {
      SumAdd(m, f, g, h, n - 1);
    }
  }

  /** Scaling every term scales the sum. */
  lemma {:induction false} SumScale<V>(m: map<nat, V>, f: V -> int, g: V -> int, c: int, n: nat)
    requires forall k :: k in m ==> g(m[k]) == c * f(m[k])
    ensures Sum(m, g, n) == c * Sum(m, f, n)
  {
    if n > 0 {
      SumScale(m, f, g, c, n - 1);
      assert c * Sum(m, f, n) == c * Sum(m, f, n - 1) + c * Term(m, f, n - 1);
    }
  }

  /** A sum of non-negative terms is non-negative. */
  lemma {:induction false} SumNonNegative<V>(m: map<nat, V>, f: V -> int, n: nat)
    requires forall k :: k in m ==> f(m[k]) >= 0
    ensures Sum(m, f, n) >= 0
  {
    if n > 0 {
      SumNonNegative(m, f, n - 1);
    }
  }

  /** A sum of terms each at most the corresponding term of another sum is at most that sum. */
  lemma {:induction false} SumLe<V>(m: map<nat, V>, f: V -> int, g: V -> int, n: nat)
    requires forall k :: k in m ==> f(m[k]) <= g(m[k])
    ensures Sum(m, f, n) <= Sum(m, g, n)
  {
    if n > 0 {
      SumLe(m, f, g, n - 1);
    }
  }

  /** 1 for a row that satisfies `keep`, 0 for any other: the term of a count. */
  function Indicator<V>(keep: V -> bool): V -> int {
    (v: V) => if keep(v) then 1 else 0
  }

  /** `count({ where })`: the number of rows below `n` that satisfy `keep`. */
  function Count<V>(m: map<nat, V>, keep: V -> bool, n: nat): int {
    Sum(m, Indicator(keep), n)
  }

  /** The number of rows below `n` that satisfy `keep` is the size of their selection. */
  lemma {:induction false} CountIsSelectSize<V>(m: map<nat, V>, keep: V -> bool, n: nat)
    ensures Count(m, keep, n) == |Select(m, keep, n)|
  {
    if n > 0 {
      CountIsSelectSize(m, keep, n - 1);
    }
  }
}

=== FILE: text.dfy ===
/** Decimal rendering of integers, as JavaScript template strings render them. */
module Text {

  predicate IsDigit(c: char) { '0' <= c <= '9' }

  function DigitChar(d: nat): (c: char)
    requires d < 10
    ensures IsDigit(c)
    ensures c as int - '0' as int == d
  {
    "0123456789"[d]
  }

  /**
   * `${n}` for a non-negative integer n: its decimal digits, no leading zeros. Its properties are
   * stated by the lemmas below rather than by a contract, so that messages built from it stay
   * cheap to reason about.
   */
  function NatToString(n: nat): string
    decreases n
  {
    if n < 10 then [DigitChar(n)] else NatToString(n / 10) + [DigitChar(n % 10)]
  }

  /** `${i}` for any integer: a minus sign before the digits of a negative number. */
  function IntToString(i: int): string {
    if i < 0 then "-" + NatToString(-i) else NatToString(i)
  }

  /** The number a string of decimal digits denotes, most significant digit first. */
  function DigitsValue(s: string): int {
    if s == [] then 0 else DigitsValue(s[..|s| - 1]) * 10 + (s[|s| - 1] as int - '0' as int)
  }

  /** A rendered number is a non-empty string of digits, with two or more exactly from 10 on. */
  lemma {:induction false} NatToStringShape(n: nat)
    ensures |NatToString(n)| >= 1
    ensures forall i :: 0 <= i < |NatToString(n)| ==> IsDigit(NatToString(n)[i])
    ensures n >= 10 <==> |NatToString(n)| >= 2
    ensures NatToString(n)[0] != '0' || n == 0
    decreases n
  {
    if n >= 10 {
      NatToStringShape(n / 10);
      var s := NatToString(n);
      assert s[..|s| - 1] == NatToString(n / 10);
      forall i | 0 <= i < |s| ensures IsDigit(s[i]) {
        if i < |s| - 1 {
          assert s[i] == NatToString(n / 10)[i];
        }
      }
    }
  }

  /** Reading a rendered number back gives the number: rendering loses nothing. */
  lemma {:induction false} NatToStringRoundTrip(n: nat)
    ensures DigitsValue(NatToString(n)) == n
    decreases n
  {
    var s := NatToString(n);
    if n < 10 {
      assert s[..0] == [];
    } else {
      NatToStringRoundTrip(n / 10);
      assert s[..|s| - 1] == NatToString(n / 10);
    }
  }

  /** Different numbers print differently. */
  lemma NatToStringInjective(a: nat, b: nat)
    requires NatToString(a) == NatToString(b)
    ensures a == b
  {
    NatToStringRoundTrip(a);
    NatToStringRoundTrip(b);
  }

  /** A rendered integer starts with a minus sign exactly when it is negative. */
  lemma IntToStringSign(i: int)
    ensures |IntToString(i)| >= 1
    ensures i < 0 <==> IntToString(i)[0] == '-'
  {
    if i < 0 {
      NatToStringShape(-i);
    } else {
      NatToStringShape(i);
      assert IsDigit(IntToString(i)[0]);
    }
  }

  /** Different integers print differently. */
  lemma IntToStringInjective(a: int, b: int)
    requires IntToString(a) == IntToString(b)
    ensures a == b
  {
    IntToStringSign(a);
    IntToStringSign(b);
    if a < 0 && b < 0 {
      assert IntToString(a)[1..] == NatToString(-a) && IntToString(b)[1..] == NatToString(-b);
      NatToStringInjective(-a, -b);
    } else if a >= 0 && b >= 0 {
      NatToStringInjective(a, b);
    }
  }
}

=== FILE: wrappers.dfy ===
/** Option and Result, the model's stand-ins for `undefined`/`null` and thrown errors. */
module Wrappers {

  datatype Option<+T> = None | Some(value: T) {
    function GetOr(default: T): T {
      match this
      case Some(v) => v
      case None => default
    }
  }

  /** The outcome of a service call: a value, or the error it throws. */
  datatype Result<+T, +E> = Ok(value: T) | Err(error: E)
}
